=== FILE: README.md ===
# Pulse commit analytics — a Dafny model

Pulse records the commits an organisation pushes to GitHub and turns them
into a dashboard. This project models its core as pure functions over
immutable data:

- **The event store.** It has four tables: `commits`, `repos`, `contributors` and
  `weekly_leaderboards`. The keyed tables are maps from their unique column
  (commit SHA, repository name, username) to the row.
- **The writers.** These are the GitHub push webhook, the backfill script, and the
  two repair scripts for line counts and avatars. Each is a transition from one
  store to the next.
- **Peru calendar arithmetic.** The fixed UTC-5 wall clock, Lima midnight, the
  Monday week start, the code's own week-number formula and relative-time
  bucketing, all on integer milliseconds and day numbers.
- **The read routes.** These are stats, analytics, repos, activity, the rolling
  leaderboard, the weekly snapshot, snapshot history and the 2026 heatmap. Each
  SQL query is a function of the table's rows in scan order and of window bounds.
- **Two client components.** From the heatmap component: intensity buckets,
  padding and 7-day columns, month labels and the total. From the activity feed:
  the fetch, the filters and the option lists.

Whatever the program reads from outside becomes a parameter:

| outside input | modelled as |
|---|---|
| the clock | an instant `now` |
| the HMAC check | a boolean in the request |
| SHA-256 | a function `digest` |
| the GitHub API | a function returning a success or a failure |
| the browser timezone | an offset `tz` |

The server clock is assumed to run in UTC. SQL `ORDER BY` ties are
unspecified, so an ordering is stated as "sorted and a permutation or sub-multiset
of the candidates", not as one fixed order. The functions settle ties with a
stable sort. Where separate queries must agree, as the activity route's
`LIMIT … OFFSET` pages must, the model quantifies over every ordering a query
may use (`Activity.AdmissiblePage`).

The model follows the code as written, also where it does something other than what its names or comments suggest:

- An accepted push sets the repository's `lastPushAt` to the request time. It
  does not take the maximum with the old value.
- The contributor counter rises on every ingestion, including a redelivered
  commit that inserts no row (`Webhook.RedeliveryRecountsAuthors`,
  `Backfill.BackfillCounter`). Commit insertion itself is idempotent.
- The week number is ceil((days since the Lima 1 January + weekday of
  1 January + 1) / 7). This is not ISO-8601 numbering, and it ranges over 1..54.
- Leaderboard and top-contributor ties are left to the database, except where
  the repos route orders by username.
- `commitsToday` in the stats route counts from the server's midnight, not
  Lima's.

Modules:

| file | modules | what it holds |
|---|---|---|
| `wrappers.dfy`, `seqs.dfy`, `text.dfy`, `sorting.dfy`, `grouping.dfy` | — | generic support: options, sequence counting and filtering, string splitting and trimming, `parseInt`, a stable descending sort, group-by |
| `calendar.dfy` | `Calendar` | the Gregorian calendar on day numbers |
| `peru_time.dfy` | `PeruTime` | the Peru-time helpers |
| `format.dfy` | `Format` | `formatNumber` |
| `schema.dfy` | `Schema`, `GitHub`, `Statements` | the tables, the GitHub API's answers and the shared SQL writes |
| `webhook.dfy`, `backfill.dfy`, `repair.dfy` | `Webhook`, `Backfill`, `StatsRepair`, `AvatarRepair` | the writers |
| `windows.dfy` | `Windows` | windowed aggregates |
| `stats.dfy`, `analytics.dfy`, `repos.dfy`, `activity.dfy`, `heatmap.dfy` | `Stats`, `Analytics`, `Repos`, `Activity`, `HeatmapRoute`, `HeatmapView` | the routes; `HeatmapView` is the heatmap component |
| `leaderboard.dfy` | `Leaderboard`, `Snapshot`, `History` | the rolling leaderboard, the snapshot and the history routes |
| `feed.dfy` | `Feed` | the activity feed component's filters |

## Model

| member | source | states |
|---|---|---|
| PeruTime.PeruWallClock | lib/utils/time.ts:7-15 | The Lima wall clock is the UTC instant shifted back five hours and truncated to whole seconds. |
| PeruTime.TodayStart | lib/utils/time.ts:20-38 | The result is a Lima midnight (UTC midnight plus 5 h). The Lima wall clock lies in that Lima day, and `now` lies within 24 h after it. |
| PeruTime.DaysToMonday | lib/utils/time.ts:48-51 | The offset is in [-6, 0] and lands on Monday; Sunday goes back six days. |
| PeruTime.MondayOf | lib/utils/time.ts:48-56 | The result is a Monday at most six days before the given day. |
| PeruTime.SundayGoesBack | lib/utils/time.ts:51 | A Sunday maps to the Monday six days earlier, never to the next Monday. |
| PeruTime.MondayOfWholeWeek | lib/utils/time.ts:48-56 | Every day from a Monday through the following Sunday has that Monday as its week start. |
| PeruTime.MondayOfIdempotent | lib/utils/time.ts:48-56 | The week start of a week start is itself. |
| PeruTime.WeekStart | lib/utils/time.ts:43-60 | The result is a Lima Monday midnight, and `now` lies within the seven days after it. |
| PeruTime.WeekStartBeforeTodayStart | lib/utils/time.ts:20-60 | The week start is a whole number of days, at most six, before today's start. |
| PeruTime.PeruWeekNumber | lib/utils/time.ts:65-78 | The year is the Lima calendar year of the instant, and the week is in 1..54. |
| PeruTime.WeekNumberMonotone | lib/utils/time.ts:65-78 | Within one Lima year the week number never decreases as time advances. |
| PeruTime.RelativeTimeBuckets | lib/utils/time.ts:95-127 | Under a minute (or in the future) is "just now". Otherwise the floor of minutes (<60 m), hours (<24 h), days (<30 d) or days/30 in months, each bucket with its bounds. |
| Format.FormatNumber | lib/utils/format.ts:1-11 | The four branches are exclusive and exhaustive: below 1000 (negatives included), whole thousands, fractional thousands, millions. Each carries the value it prints. |
| Format.FormatNumberReadsBack | lib/utils/format.ts:5-10 | The integer branches print text that reads back as the number: `n` as itself, and `k*1000` as `k` followed by "k". |
| Statements.InsertCommitOrIgnore | app/api/webhooks/github/route.ts:101 | Insert-or-ignore by commit id: the id set grows by the id, and a stored row is never changed. |
| Statements.UpsertRepoPush | app/api/webhooks/github/route.ts:55-69 | A new repository takes the defaults (active, public). An existing one changes only `lastPushAt` and `updatedAt`, both to the request time. Other repositories are untouched. |
| Statements.RecordContributorCommit | app/api/webhooks/github/route.ts:103-118 | A new contributor starts at one commit. An existing one gets `totalCommits + 1` (NULL stays NULL) and the new `lastCommitAt`, with the avatar and creation time kept. |
| Webhook.CommitRow | app/api/webhooks/github/route.ts:72-99 | The row keeps id, message, URL and timestamp. The author falls back to the pusher. A failed enrichment gives zero counts and the pusher's avatar. |
| Webhook.Handle | app/api/webhooks/github/route.ts:29-48 | 401 exactly for a missing or invalid signature, 500 exactly for an unreadable push payload, 200 otherwise. A signed, valid request that is not a push, or a push to another branch, answers 200 "ignored" and leaves the store unchanged. Anything not accepted leaves the store unchanged, and an accepted push answers 200 "processed". |
| Webhook.AcceptedPush | app/api/webhooks/github/route.ts:55-118 | After an accepted push: the repository row exists with `lastPushAt = now` and only its timestamps changed. Commit ids are old ∪ pushed, stored commits are untouched. An existing contributor's counter rises by the number of their commits in the push. |
| Webhook.IngestNewCommitRows | app/api/webhooks/github/route.ts:71-101 | A newly stored id holds the row built from the first pushed commit with that id. |
| Webhook.IngestLastCommitAt | app/api/webhooks/github/route.ts:111-117 | An author's `lastCommitAt` is the timestamp of their last commit in payload order, not the latest one. |
| Webhook.IngestNewContributor | app/api/webhooks/github/route.ts:103-110 | A new author's row counts their commits in the push and carries the avatar of their first one. |
| Webhook.IngestLeavesOthers | app/api/webhooks/github/route.ts:103-118 | Contributors without a commit in the push are untouched. |
| Webhook.RedeliveryRecountsAuthors | app/api/webhooks/github/route.ts:101-118 | Delivering the same push twice adds no commit row the second time, yet raises each author's counter again. |
| Webhook.HandleKeepsKeyed | app/api/webhooks/github/route.ts:55-118 | Every table stays keyed by its primary key: each row sits under its own id, name or username. |
| Backfill.BackfillAuthor | scripts/backfill-commits.ts:57 | The username falls back from login to git author name to "unknown", so it is never empty. |
| Backfill.FirstLineOfMessage | scripts/backfill-commits.ts:65 | The stored message is a prefix of the original without a line break, and all of it when there is none. |
| Backfill.BackfillRow | scripts/backfill-commits.ts:60-70 | The row carries the SHA, repository, URL, fallback author and avatar, and the author date (else `now`). |
| Backfill.BackfillReposExtends | scripts/backfill-commits.ts:28-97 | Backfill never rewrites a stored commit or repository row. Every commit row it adds has zero line counts, a non-empty author and a one-line message. Every listed repository has a row afterwards, and the snapshot table is untouched. Which commits it stores is `Backfill.BackfillStoresListedCommits`. |
| Backfill.BackfillCounter | scripts/backfill-commits.ts:54-89 | An existing contributor's counter rises by exactly the number of walked, non-skipped commits by them, whether or not the commits were new. |
| Backfill.BackfillNewContributor | scripts/backfill-commits.ts:54-89 | An author without a contributor row gets one exactly when the walk ingests a commit of theirs. That row's counter equals the number of walked, non-skipped commits by them, because the first insert writes 1 and each later one adds 1. |
| Backfill.InsertAllSpec | scripts/backfill-commits.ts:72 | Inserting rows one by one with "on conflict do nothing" keeps every stored row and adds exactly the ids of the rows. Each new id holds the first row with that id. |
| Backfill.BackfillCommitsTable | scripts/backfill-commits.ts:54-72 | For one repository's listing, the commits table afterwards is the old table with that listing's rows inserted in listing order. Skipped commits add no row. |
| Backfill.BackfillReposTable | scripts/backfill-commits.ts:28-72 | For the whole walk, the commits table afterwards is the old table with every walked listing's rows inserted in walk order. A failed listing adds nothing. |
| Backfill.ListedIdsMeans | scripts/backfill-commits.ts:54-55 | The ids a listing contributes are exactly the SHAs of its commits that have both a SHA and a message. |
| Backfill.WalkedRowIds | scripts/backfill-commits.ts:54-55 | The walked rows carry exactly the SHAs of the walked commits that have a SHA and a message. |
| Backfill.WalkedRowSource | scripts/backfill-commits.ts:54-70 | Every walked row is the backfill row of a non-skipped commit from some listed repository, under that repository's name. |
| Backfill.BackfillStoresListedCommits | scripts/backfill-commits.ts:28-72 | The stored commit ids afterwards are the old ids plus the SHAs of every walked commit that has a SHA and a message. That stored rows stay as they were is `Backfill.BackfillReposExtends`. |
| Backfill.BackfillNewRowIsFirst | scripts/backfill-commits.ts:54-72 | A commit id that the backfill newly stores holds the backfill row of the first walked commit with that SHA. Later duplicates are ignored. |
| StatsRepair.SelectMissing | scripts/update-commit-stats.ts:20-27 | At most 200 rows, each with zero counts and pushed within seven days. A qualifying row is left out only when the batch is full. |
| StatsRepair.Repaired | scripts/update-commit-stats.ts:32-50 | A failed call leaves the row as it was. A successful one sets the two counts (missing → 0) and nothing else. |
| StatsRepair.RepairTouchesOnlyCounts | scripts/update-commit-stats.ts:23-45 | The pass keeps every id and every column except the two counts, and leaves rows outside the batch and the other tables alone. |
| StatsRepair.RepairOutcome | scripts/update-commit-stats.ts:31-50 | Each selected row ends as its own call's outcome says. |
| AvatarRepair.Batch | scripts/update-avatars.ts:20 | The first 500 rows in scan order. |
| AvatarRepair.AvatarCounter | scripts/update-avatars.ts:24-44 | The printed counter equals the number of batch rows whose reported avatar is non-empty and differs from the stored one. |
| AvatarRepair.AvatarTouchesOnlyAvatars | scripts/update-avatars.ts:36-40 | The pass changes no column but `authorAvatarUrl` and adds or removes no row. |
| AvatarRepair.AvatarOutcome | scripts/update-avatars.ts:26-49 | A row gets the reported avatar when the script updates it, and is otherwise unchanged. |
| Windows.Selected | app/api/stats/route.ts:27-48 | A window's rows are exactly the table rows whose push time lies in it. |
| Windows.SplitWindow | app/api/analytics/route.ts:52-64 | Splitting `[a, ∞)` at `b` splits the count, addition sum and deletion sum into the two parts. |
| Windows.AdjacentWindowsDisjoint | app/api/analytics/route.ts:64-86 | Two adjacent windows are disjoint, and together they cover the window that starts at the earlier bound. |
| Windows.ContributorsAtMostCommits | app/api/stats/route.ts:45-48 | Distinct contributors never exceed commits, and there are none exactly when there are no commits. |
| Stats.TodayStartUtc | app/api/stats/route.ts:9 | The server's midnight is a UTC day start no later than `now`, less than a day before it. |
| Stats.ActiveRepos | app/api/stats/route.ts:18-21 | The count of distinct recently pushed repositories is at most the table size. It is zero exactly when no repository was pushed in the last seven days. |
| Stats.TeamStreak | app/api/stats/route.ts:58-69 | Streak `k`: today and the `k-1` days before it each have a commit, and day `today-k` has none. `k` is at most 91. |
| Stats.StreakIsDetermined | app/api/stats/route.ts:64-69 | Those two facts fix the streak uniquely. |
| Stats.StreakNeedsToday | app/api/stats/route.ts:64 | A nonzero streak implies a commit today. |
| Stats.TodayStartsStreak | app/api/stats/route.ts:13-16 | A commit since midnight gives a nonzero streak, provided no commit is dated in the future. |
| Stats.GetStats | app/api/stats/route.ts:8-87 | Every counter is its window's aggregate. The streak is as above. Today ≤ week ≤ month ≤ total, and active contributors ≤ weekly commits. |
| Analytics.PctChange | app/api/analytics/route.ts:12-15 | From a zero baseline the change is 100 for growth and 0 otherwise. From any other baseline it is the exact percentage rounded to the nearest integer, halves towards +∞. (The program rounds the floating-point quotient; see "Left out".) |
| Analytics.PctChangeSign | app/api/analytics/route.ts:12-15 | With a positive baseline the sign of the change follows the data. |
| Analytics.PrevWeekStart | app/api/analytics/route.ts:7-10 | The previous week starts on a Lima Monday midnight exactly seven days before the current week start. |
| Analytics.YtdStart | app/api/analytics/route.ts:26-28 | Year-to-date starts at Lima midnight of 1 January 2026. |
| Analytics.WeeksPartition | app/api/analytics/route.ts:44-64 | The previous and current weeks together are exactly the window since the previous week start. |
| Analytics.MonthsPartition | app/api/analytics/route.ts:67-86 | The two 30-day periods together are exactly the 60-day window. |
| Analytics.AvgCommitsPerContributor | app/api/analytics/route.ts:195-198 | 0 without contributors. Otherwise the nearest integer to commits per contributor. |
| Analytics.AverageAtLeastOne | app/api/analytics/route.ts:195-198 | Over a window with commits, the average is at least one. |
| Analytics.NewAuthorsAreActive | app/api/analytics/route.ts:138-147 | Every author whose first commit is in the last 30 days committed in that window, so new contributors ≤ active contributors. |
| Analytics.GrowthOf | app/api/analytics/route.ts:150-172 | A joined row carries the repository's counts in the two weeks, and growth is their difference. |
| Analytics.GrowthRowsSound | app/api/analytics/route.ts:150-172 | Each row of the full outer join has distinct names, its own two-week counts, and at least one positive count. |
| Analytics.GrowthRowsCover | app/api/analytics/route.ts:150-172 | Every repository with a commit in either week has a row. |
| Analytics.TopGrowingRepos | app/api/analytics/route.ts:150-172 | At most three rows, by growth descending, each a row of the join. None of the rows left out grew more. |
| Analytics.TopGrowingReposRows | app/api/analytics/route.ts:150-172 | Each listed repository carries its own counts of the two weeks, and at least one of them is positive. |
| Analytics.AverageZeroWithoutCommits | app/api/analytics/route.ts:195-198 | The average of a window is 0 exactly when the window has no commit. |
| Analytics.NetLinesPerRow | app/api/analytics/route.ts:190-193 | A window's net lines (additions minus deletions, NULL as 0) are the sum of each selected commit's own net change. |
| Analytics.NetLinesPartition | app/api/analytics/route.ts:190-193 | The net lines of the previous and current weeks add up to the net lines since the previous week start. |
| Analytics.Respond | app/api/analytics/route.ts:229-307 | In the body every `change` is the percentage change of the `current` and `previous` beside it. The velocity is additions minus deletions of each week, with its own change and the rounded average. The contributor trend repeats the week-over-week contributor change. |
| Analytics.GetAnalytics | app/api/analytics/route.ts:17-308 | The comparisons are consistent, and the velocity change compares the two net-line figures. No week has more contributors than commits. The average is 0 exactly when the week has no commit. New contributors never outnumber the month's contributors. |
| Analytics.AnalyticsWeekWindows | app/api/analytics/route.ts:43-64 | The week-over-week commits and contributors count the current Lima week and the week before. |
| Analytics.AnalyticsNetLines | app/api/analytics/route.ts:190-193 | The velocity's `netLines` and `prevNetLines` are the net lines of the current week and of the week before. |
| Analytics.AnalyticsVelocity | app/api/analytics/route.ts:293-298 | The velocity change is `pctChange` of the two weeks' net lines. |
| Analytics.AnalyticsOtherWindows | app/api/analytics/route.ts:66-98 | The month-over-month commits count the last 30 days and the 30 before. The totals count every row since Lima 1 January 2026. `newThisMonth` counts the authors whose first commit is in the last 30 days. The repositories are the top growing ones. |
| Analytics.WeekOverWeekCoversTwoWeeks | app/api/analytics/route.ts:43-64 | The two weeks' commits, and their net lines, add up to those since the previous week start. |
| Analytics.CumulativeTotals | app/api/analytics/route.ts:220-227 | Entry `i` is the sum of the first `i+1` monthly counts. |
| Analytics.CumulativeShape | app/api/analytics/route.ts:220-227 | With non-negative months the series never decreases, and the last entry is the total. |
| Repos.RepoList | app/api/repos/route.ts:7-26 | Min(12, number of active repositories) rows, each an active stored repository, latest push first (NULLs first). None left out was pushed later. |
| Repos.TallyTotals | app/api/repos/route.ts:48-74 | A repository has an entry exactly when it has a grouped row, and its week total is the sum of its rows' counts. |
| Repos.TallyTop | app/api/repos/route.ts:62-72 | The top contributor is the first of the repository's rows with the largest count. |
| Repos.FirstRowWins | app/api/repos/route.ts:40-60 | With rows in the query's order, count descending within each repository, the top contributor is the repository's first row. |
| Repos.GetReposShape | app/api/repos/route.ts:76-85 | One summary per listed repository, in list order, with its own columns. The week total is the sum of its rows. No contributor exactly when it has no rows, otherwise the first maximal row. |
| Repos.GroupsCountRepoCommits | app/api/repos/route.ts:30-40 | In whatever order the grouped query returns its rows, a repository's total is its number of commits since the week start. |
| Activity.ParamOr | app/api/activity/route.ts:14-15 | `parseInt(p \|\| fallback) \|\| fallback`: a missing, unreadable or zero parameter gives the fallback. Any other parameter gives its value. |
| Activity.Offset | app/api/activity/route.ts:14 | A non-negative parsed offset is kept, and a missing or unreadable one is 0. The result is never negative. |
| Activity.Limit | app/api/activity/route.ts:15 | Always in 1..100. Missing, unreadable or 0 gives 20, above 100 gives 100, negative gives 1, and values in range are kept. |
| Activity.CleanHasNoTrailer | app/api/activity/route.ts:37-42 | A cleaned message never contains "Co-Authored-By:". |
| Activity.CleanWithoutTrailer | app/api/activity/route.ts:37-42 | A message without the trailer is only trimmed. |
| Activity.CleanIdempotent | app/api/activity/route.ts:37-42 | Cleaning twice is cleaning once. |
| Activity.IsPrivateRepo | app/api/activity/route.ts:32-35 | A repository missing from the table is public. Private implies a row with that name marked private. |
| Activity.PageRows | app/api/activity/route.ts:17-23 | The page is the slice from `offset` to `offset + limit` of some latest-first ordering of the whole table, so the `offset` latest commits come before it. It holds `max(0, min(limit, n - offset))` stored commits, latest first, and is a sub-multiset of the table. |
| Activity.LatestFirstUnique | app/api/activity/route.ts:21 | When no two commits share a push time, there is only one latest-first ordering of the table. |
| Activity.PagesConcatenate | app/api/activity/route.ts:17-23 | When no two commits share a push time, take the page of `a` rows at `offset` cut from one query's latest-first ordering and the page of `b` rows at `offset + a` cut from another query's ordering. Together they are the page of `a + b` rows at `offset`, so paging neither skips nor repeats a row. |
| Activity.WindowOfOrdering | app/api/activity/route.ts:21-23 | The `LIMIT`/`OFFSET` window of any latest-first ordering is a page the query may return. It is latest first, drawn from the table, and holds `max(0, min(limit, n - offset))` rows. |
| Activity.TiedPagesMayRepeat | app/api/activity/route.ts:21-23 | Take two distinct commits with the same push time. The one-row pages at offsets 0 and 1 may both be the same commit, so one commit is shown twice and the other never. |
| Activity.GetActivityShape | app/api/activity/route.ts:11-63 | The page holds `max(0, min(limit, n - offset))` items. Total ≤ 100. `hasMore` implies a full page with more rows behind it, and with at most 100 rows its absence means the page reaches the end. |
| Activity.GetActivityItems | app/api/activity/route.ts:32-57 | Each item is a stored commit presented under its repository's privacy, and no public item shows the trailer. |
| Leaderboard.TopMembers | app/api/leaderboard/route.ts:10-22 | `min(10, groups)` members of the window's groups, by commits descending. They form a sub-multiset of the groups. |
| Leaderboard.TopMembersDominate | app/api/leaderboard/route.ts:10-22 | No group left out has more commits than a listed member. |
| Leaderboard.TopMembersAreGroups | app/api/leaderboard/route.ts:10-20 | Each member is the count and the NULL-as-0 sums of exactly its (username, avatar) group, with at least one commit. No group appears twice. |
| Leaderboard.GroupsPartitionRows | app/api/leaderboard/route.ts:10-20 | The groups' counts add up to the number of rows in the window. |
| Leaderboard.RollingLeaderboard | app/api/leaderboard/route.ts:6-30 | At most ten members over the last seven days, commits nonincreasing. |
| Snapshot.SnapshotRows | app/api/leaderboard/snapshot/route.ts:36-45 | Row `i` is member `i` with rank `i+1` under the given year and week. |
| Snapshot.TakeSnapshotShape | app/api/leaderboard/snapshot/route.ts:13-54 | No rows exactly when nobody committed since the Lima week start, and then the store is unchanged. Otherwise 1..10 rows ranked 1..N are appended under the current week number, commits nonincreasing. The answer counts them, and nothing else changes. |
| Snapshot.SnapshotTwice | app/api/leaderboard/snapshot/route.ts:47 | A second snapshot in the same week answers the same and appends the same rows again, differing only in serial ids. |
| History.LatestWeeks | app/api/leaderboard/history/route.ts:17-27 | At most 20 weeks, latest first. |
| History.LatestWeeksComplete | app/api/leaderboard/history/route.ts:17-27 | Every listed week is stored. A stored week is left out only when 20 weeks at least as late are listed. |
| History.LatestWeeksDistinct | app/api/leaderboard/history/route.ts:19-22 | No week is listed twice. |
| History.Int4Param | app/api/leaderboard/history/route.ts:36-37 | A parameter reaches the database exactly when `parseInt` without a radix reads a number that fits an `integer` column, and then as that number. |
| History.GetHistory | app/api/leaderboard/history/route.ts:10-55 | The week list exactly when a parameter is missing. Otherwise: a server error exactly when a parameter reads as `NaN` or outside the `integer` range; 404 when no stored row matches; else the matching rows by rank, echoing the parsed year and week. |
| History.HexYearFindsWeek | app/api/leaderboard/history/route.ts:36-48 | The year "0x7EA" reads as 2026 and finds that year's stored week. |
| History.OutOfRangeYearFails | app/api/leaderboard/history/route.ts:36-53 | The year "3000000000" is a server error, not a missing week. |
| Text.ParseIntAnyRadix | app/api/leaderboard/history/route.ts:36-37 | `parseInt` without a radix: after the sign, `0x` or `0X` selects hexadecimal and `NaN` when no hex digit follows. Anything else reads as with radix 10. |
| Text.ParseIntAnyRadixDecimal | app/api/leaderboard/history/route.ts:36-37 | The decimal text of any integer reads back as that integer. |
| Text.HexPrefixExample | app/api/leaderboard/history/route.ts:36-37 | "0x7EA" reads as 2026 without a radix, and as 0 with radix 10. |
| HeatmapRoute.DayCountIsCommits | app/api/heatmap/route.ts:11-24 | The count stored for a day of 2026 is the number of commits pushed that UTC day. |
| HeatmapRoute.HeatmapShape | app/api/heatmap/route.ts:26-38 | 365 entries, entry `i` dated 1 January 2026 plus `i` days, each counting that day's commits (0 when none). |
| HeatmapRoute.HeatmapTotal | app/api/heatmap/route.ts:21-38 | The counts add up to the number of commits pushed in 2026. |
| HeatmapView.Intensity | components/Heatmap.tsx:34-41 | A bucket in 0..5. |
| HeatmapView.IntensityMonotone | components/Heatmap.tsx:34-41 | More commits never look lighter. Level 0 is exactly zero commits, 1 exactly one, 5 exactly more than 30. |
| HeatmapView.Padded | components/Heatmap.tsx:48 | `pad` placeholders followed by the days in order. |
| HeatmapView.ChunksShape | components/Heatmap.tsx:50-52 | ceil(n/7) columns of 1..7 cells, all but the last full, concatenating back to the padded data. |
| HeatmapView.ChunksIndex | components/Heatmap.tsx:50-52 | Cell `k` is row `k mod 7` of column `k div 7`. |
| HeatmapView.DaysInWeekdayRows | components/Heatmap.tsx:43-55 | With the corrected padding, every day of a consecutive series sits in the row of its own weekday. |
| HeatmapView.PaddingAsWrittenOffByOne | components/Heatmap.tsx:45-46 | In a browser five hours behind UTC the padding as written is 3 for 1 January 2026, a Thursday (4). |
| HeatmapView.GroupByWeeks | components/Heatmap.tsx:43-55 | Uses the corrected padding (`Padding`, not `PaddingAsWritten`). The result is ceil((pad + n)/7) columns of 1..7 cells that read back as `pad` placeholders followed by the days. |
| HeatmapView.FirstDayCell | components/Heatmap.tsx:62 | The first non-placeholder cell of a column, with only placeholders before it. None exactly when the column is all placeholders. |
| HeatmapView.MonthLabel | components/Heatmap.tsx:59-72 | A label exactly when the column exists, has a first day, and is column 0 or has that day on the 1st to 7th of its local month. The label is that first day's local month. |
| Feed.FilteredKeeps | components/ActivityFeed.tsx:52-70 | The three staged filters equal one filter by the conjunction of the active selections. |
| Feed.FilteredSpec | components/ActivityFeed.tsx:52-70 | The result is an in-order subsequence of the feed, and an item is in it exactly when it passes every active selection. |
| Feed.NoSelectionShowsAll | components/ActivityFeed.tsx:53-69 | With "all", "all" and an empty query the feed is shown unchanged. |
| Feed.AfterFetchAsWritten | components/ActivityFeed.tsx:29-44 | As written, a successful fetch stores the response body `{items, total, hasMore}` itself. A failed fetch keeps what was held. |
| Feed.RenderAsWritten | components/ActivityFeed.tsx:52-73 | As written, a render throws exactly when the held value is the response body. Otherwise it shows the items that pass every selection. |
| Feed.FirstFetchThrows | components/ActivityFeed.tsx:20-73 | The render before the first fetch succeeds, and the render after any successful fetch throws, whatever the page. |
| Feed.AfterFetch | components/ActivityFeed.tsx:29-44 | Corrected: a successful fetch holds the page's `items`, and a failed one keeps what was held. |
| Feed.Render | components/ActivityFeed.tsx:52-73 | A render shows exactly the items passing every selection, and offers the option lists of all items. |
| Feed.FetchedFeedRenders | components/ActivityFeed.tsx:29-73 | Corrected: after a successful fetch the feed shows an in-order subsequence of the page's items, exactly those passing every selection. Every fetched repository and author is offered. |
| Feed.Options | components/ActivityFeed.tsx:72-73 | "all" comes first, and every later option is one of the values. |
| Feed.OptionsEachOnce | components/ActivityFeed.tsx:72-73 | After "all", every value is offered, and no value is offered twice. |
| Feed.OptionsFirstOccurrence | components/ActivityFeed.tsx:72-73 | The values after "all" appear in first-occurrence order. |

## Left out

- HMAC verification and the webhook's debug logging: the signature check is a boolean in the request.
- SHA-256: it is the function parameter `digest`.
- GitHub API calls (`getCommit`, `listForOrg`, `listCommits`) are parameters returning data or a failure. Rate limits and pagination are not modelled.
- Postgres execution, `Promise.all`, HTTP framing, cache headers, console output and process exits are not modelled.
- A database error answering 500 is not modelled: each statement succeeds. Partial writes after a mid-batch failure are not modelled either.
- The `::int` casts of SQL aggregates: counts and sums are unbounded integers, so 32-bit overflow is not modelled.
- `Date` parsing, `toLocaleString` and server-timezone effects are left out: the server runs in UTC, and instants are integer milliseconds.
- The weekly chart of the analytics route (`date_trunc` in Lima time, last 12 weeks) is left out. The cumulative monthly series takes the grouped monthly counts as its input.
- Chart and month label text (`toLocaleDateString`), `formatPeruDate`, and the decimal text of the `k`/`M` branches of `formatNumber` (`toFixed`) are floating-point and locale formatting, so they are left out.
- React rendering, polling, view modes and every component other than the heatmap and activity feed helpers are left out.
- The per-repository detail route is left out; it is not part of this model.
- PeruTime.RelativeTimeBuckets: states the bucket and its count. The rendered text (`5m ago`) is a separate display function with no contract.
- Leaderboard.RollingLeaderboard: states only the size bound and the order. Group contents and the choice of groups are stated by `Leaderboard.TopMembers`, `Leaderboard.TopMembersDominate` and `Leaderboard.TopMembersAreGroups`. The JSON field rename from `username` to `name` is not modelled.
- Activity.GetActivityItems: does not state that the items follow the page's latest-first order. That order is stated for `Activity.PageRows`, whose rows the items present one for one.
- Activity.PagesConcatenate: requires that no two commits share a push time. The route orders only by `pushed_at`, which is filled from GitHub commit timestamps in whole seconds, so tied commits can be repeated or skipped across pages (`Activity.TiedPagesMayRepeat`). A tiebreaker such as `ORDER BY pushed_at DESC, id` would remove this; the model does not add one.
- Activity.IsPrivateRepo: states the unknown-repository default and which row a private answer comes from. It does not state that with duplicate names the last row wins.
- HeatmapView.MonthLabel: returns the month number, not the short month name.
- Analytics.PctChange: the program divides in floating point and rounds the double, while the model rounds the exact quotient. They differ when the exact percentage is a half that the double misses. For example, 29 against 40 is exactly -27.5: the model gives -27, the program -28. 63 against 40 (57.5) and 81 against 40 (102.5) give 58 and 103 in the model but 57 and 102 in the program.
- Feed.FilteredSpec: the search lowercases only the Basic Latin and Latin-1 capitals. `toLowerCase` also lowers other scripts (Greek, Cyrillic, Latin Extended) and maps a few characters to two (`İ`). A search relying on those is not modelled.
- Analytics.GetAnalytics: the body leaves out `weeklyChart` and `cumulativeMonthly`. The cumulative series is `Analytics.CumulativeTotals` over the grouped monthly counts. The separate distinct-contributor queries are the same windows' `Contributors`.
- Stats.GetStats: the `|| 0` defaults of null aggregates are not modelled, because every aggregate in the model is already a number.

## Findings

| source | as written | input that shows it | evidently intended | confidence | as-written member | corrected member |
|---|---|---|---|---|---|---|
| components/ActivityFeed.tsx:35, components/ActivityFeed.tsx:72 | `setActivity(data)` stores the `/api/activity` body `{items, total, hasMore}`, which is not an array. Line 72 then calls `activity.map`. | Any successful fetch, even of an empty page: the next render throws a `TypeError` at line 72. | Store `data.items`, so the feed lists, filters and offers the fetched items. | not executed | Feed.AfterFetchAsWritten, Feed.RenderAsWritten, Feed.FirstFetchThrows | Feed.AfterFetch, Feed.Render, Feed.FetchedFeedRenders |
| components/Heatmap.tsx:45-46 | The padding is `new Date(data[0].date).getDay()`: a date-only string parses as UTC midnight, but `getDay` reads it in the browser's local time. | A browser at UTC-5 and the first date 2026-01-01 (a Thursday): the local day is 31 December, so the padding is 3 and every day sits one row above its weekday. | The padding is the weekday of the first date itself, so each day lands in its own weekday row. | not executed | HeatmapView.PaddingAsWritten, HeatmapView.PaddingAsWrittenOffByOne | HeatmapView.Padding, HeatmapView.DaysInWeekdayRows |

=== FILE: activity.dfy ===
/** `GET /api/activity?offset=&limit=`: a page of the latest commits for the
    activity feed, with `Co-Authored-By:` trailers stripped and the messages
    and links of private repositories masked. SHA-256 is the parameter
    `digest` (the hex digest of a string); the request time is `now`. */
module Activity {
  import opened Wrappers
  import opened Schema
  import opened Seqs
  import opened Sorting
  import opened Text
  import PeruTime

  const MAX_LIMIT: int := 100
  const DEFAULT_LIMIT: int := 20

  /** The trailer whose lines are dropped (case-sensitive). */
  const TRAILER: string := "Co-Authored-By:"

  // ---- query parameters ----

  /** `parseInt(param || fallback, 10) || fallback`: a missing or empty
      parameter, an unparsable one and a parsed 0 all give `fallback`. */
  function ParamOr(param: Option<string>, fallback: int): (r: int)
    ensures param.Some? && ParseInt(param.value).Some? && ParseInt(param.value).value != 0 ==>
      r == ParseInt(param.value).value
    ensures param.None? || ParseInt(param.value).None? || ParseInt(param.value) == Some(0) ==> r == fallback
  {
    ParseIntDecimalString(fallback);
    assert ParseInt("").None?;
    var s := if param.Some? && param.value != "" then param.value else DecimalString(fallback);
    match ParseInt(s)
    case None => fallback
    case Some(v) => if v == 0 then fallback else v
  }

  /** `Math.max(0, ...)` of the offset parameter. */
  function Offset(param: Option<string>): (r: nat)
    ensures param.Some? && ParseInt(param.value).Some? && ParseInt(param.value).value >= 0 ==>
      r == ParseInt(param.value).value
    ensures param.None? || ParseInt(param.value).None? ==> r == 0
  {
    Max(0, ParamOr(param, 0))
  }

  /** `Math.min(100, Math.max(1, ...))` of the limit parameter. */
  function Limit(param: Option<string>): (r: int)
    ensures 1 <= r <= MAX_LIMIT
    ensures param.None? || ParseInt(param.value).None? || ParseInt(param.value) == Some(0) ==> r == DEFAULT_LIMIT
    ensures param.Some? && ParseInt(param.value).Some? && 1 <= ParseInt(param.value).value <= MAX_LIMIT ==>
      r == ParseInt(param.value).value
    ensures param.Some? && ParseInt(param.value).Some? && ParseInt(param.value).value > MAX_LIMIT ==> r == MAX_LIMIT
    ensures param.Some? && ParseInt(param.value).Some? && ParseInt(param.value).value < 0 ==> r == 1
  {
    Min(MAX_LIMIT, Max(1, ParamOr(param, DEFAULT_LIMIT)))
  }

  // ---- message cleanup ----

  function Lines(m: string): seq<string> {
    Split(m, '\n')
  }

  predicate NotTrailer(line: string) {
    !Contains(line, TRAILER)
  }

  /** Drop every line containing the trailer, rejoin with newlines, trim. */
  function CleanMessage(m: string): string {
    Trim(Join(Filter(Lines(m), NotTrailer), '\n'))
  }

  /** A cleaned message never contains the trailer. */
  lemma CleanHasNoTrailer(m: string)
    ensures !Contains(CleanMessage(m), TRAILER)
  {
    var kept := Filter(Lines(m), NotTrailer);
    assert '\n' !in TRAILER;
    JoinAvoids(kept, '\n', TRAILER);
    if Contains(CleanMessage(m), TRAILER) {
      ContainsTrim(Join(kept, '\n'), TRAILER);
    }
  }

  /** A message without the trailer keeps all its lines and is only
      trimmed. */
  lemma CleanWithoutTrailer(m: string)
    requires !Contains(m, TRAILER)
    ensures CleanMessage(m) == Trim(m)
  {
    var lines := Lines(m);
    forall k | 0 <= k < |lines| ensures NotTrailer(lines[k]) {
      if Contains(lines[k], TRAILER) {
        JoinContainsLine(lines, '\n', k, TRAILER);
      }
    }
    FilterAll(lines, NotTrailer);
  }

  /** Cleaning is idempotent. */
  lemma CleanIdempotent(m: string)
    ensures CleanMessage(CleanMessage(m)) == CleanMessage(m)
  {
    var c := CleanMessage(m);
    CleanHasNoTrailer(m);
    CleanWithoutTrailer(c);
    TrimIdempotent(Join(Filter(Lines(m), NotTrailer), '\n'));
  }

  // ---- privacy ----

  /** `new Map(allRepos.map(r => [r.name, r.isPrivate ?? false])).get(name) ?? false`:
      the last row with the name wins; an unknown repository is public. */
  function IsPrivateRepo(repos: seq<Repo>, name: string): (b: bool)
    ensures (forall i :: 0 <= i < |repos| ==> repos[i].name != name) ==> !b
    ensures b ==> exists i :: 0 <= i < |repos| && repos[i].name == name && repos[i].isPrivate == Some(true)
  {
    if repos == [] then false
    else if repos[|repos| - 1].name == name then repos[|repos| - 1].isPrivate.GetOr(false)
    else
      var b := IsPrivateRepo(repos[..|repos| - 1], name);
      assert b ==> exists i :: 0 <= i < |repos| - 1 && repos[i].name == name && repos[i].isPrivate == Some(true);
      b
  }

  // ---- the items ----

  datatype Item = Item(
    repo: string,
    author: string,
    avatarUrl: Option<string>,
    message: string,
    time: PeruTime.RelativeTime,
    additions: int,
    deletions: int,
    commitUrl: string,
    isPrivate: bool)

  /** One feed item; `commit.additions || 0` maps NULL to 0. */
  function Present(c: Commit, isPrivate: bool, digest: string -> string, now: int): Item {
    var clean := CleanMessage(c.message);
    Item(c.repoName, c.authorUsername, c.authorAvatarUrl,
         if isPrivate then digest(clean) else clean,
         PeruTime.FormatRelativeTime(now, c.pushedAt),
         c.additions.GetOr(0), c.deletions.GetOr(0),
         if isPrivate then "#" else c.commitUrl,
         isPrivate)
  }

  /** Masking changes the message and the link and nothing else: a private
      item carries the digest of the cleaned message and `#`, a public one
      the cleaned message and the real link. */
  lemma MaskingOnlyHidesMessageAndLink(c: Commit, digest: string -> string, now: int)
    ensures var pub := Present(c, false, digest, now);
      var priv := Present(c, true, digest, now);
      && pub.message == CleanMessage(c.message) && pub.commitUrl == c.commitUrl && !pub.isPrivate
      && priv.message == digest(CleanMessage(c.message)) && priv.commitUrl == "#" && priv.isPrivate
      && priv.(message := pub.message, commitUrl := pub.commitUrl, isPrivate := false) == pub
  {
  }

  // ---- the page ----

  function PushedKey(c: Commit): (int, int) {
    (c.pushedAt, 0)
  }

  /** What one `ORDER BY pushed_at DESC LIMIT limit OFFSET offset` query may
      return: the slice at `offset` of some latest-first ordering of the
      whole table. Rows with equal push times are in no fixed order, so
      each query may settle them its own way. */
  ghost predicate AdmissiblePage(rows: seq<Commit>, offset: nat, limit: nat, page: seq<Commit>) {
    exists s :: LatestFirst(s, rows) && page == Window(s, offset, limit)
  }

  /** `s` is a latest-first ordering of the table `rows`. */
  ghost predicate LatestFirst(s: seq<Commit>, rows: seq<Commit>) {
    SortedDesc(s, PushedKey) && multiset(s) == multiset(rows)
  }

  /** `LIMIT limit OFFSET offset` applied to the ordering `s`. */
  function Window(s: seq<Commit>, offset: nat, limit: nat): seq<Commit> {
    s[Min(offset, |s|)..Min(offset + limit, |s|)]
  }

  /** `ORDER BY pushed_at DESC LIMIT limit OFFSET offset`, with the ties
      settled by a stable sort. */
  function PageRows(rows: seq<Commit>, offset: nat, limit: nat): (r: seq<Commit>)
    ensures AdmissiblePage(rows, offset, limit, r)
    ensures |r| == Max(0, Min(limit, |rows| - offset))
    ensures SortedDesc(r, PushedKey)
    ensures forall i :: 0 <= i < |r| ==> r[i] in rows
    ensures multiset(r) <= multiset(rows)
  {
    var sorted := SortDesc(rows, PushedKey);
    WindowOfOrdering(sorted, rows, offset, limit);
    Window(sorted, offset, limit)
  }

  /** A window of any latest-first ordering is latest first and is drawn
      from the table. */
  lemma WindowOfOrdering(s: seq<Commit>, rows: seq<Commit>, offset: nat, limit: nat)
    requires LatestFirst(s, rows)
    ensures var r := Window(s, offset, limit);
      && AdmissiblePage(rows, offset, limit, r)
      && |r| == Max(0, Min(limit, |rows| - offset))
      && SortedDesc(r, PushedKey)
      && (forall i :: 0 <= i < |r| ==> r[i] in rows)
      && multiset(r) <= multiset(rows)
  {
    var from := Min(offset, |s|);
    var to := Min(offset + limit, |s|);
    assert |s| == |multiset(s)| == |rows|;
    SliceMembers(s, rows, from, to);
    SliceSubMultiset(s, from, to);
    var r := s[from..to];
    forall i, j | 0 <= i < j < |r| ensures KeyGe(PushedKey(r[i]), PushedKey(r[j])) {
      assert r[i] == s[from + i] && r[j] == s[from + j];
    }
  }

  /** No two commits share a push time. */
  ghost predicate DistinctPushTimes(rows: seq<Commit>) {
    forall i, j :: 0 <= i < j < |rows| ==> rows[i].pushedAt != rows[j].pushedAt
  }

  lemma SameTimeSameCommit(rows: seq<Commit>, x: Commit, y: Commit)
    requires DistinctPushTimes(rows) && x in rows && y in rows && x.pushedAt == y.pushedAt
    ensures x == y
  {
    var i :| 0 <= i < |rows| && rows[i] == x;
    var j :| 0 <= j < |rows| && rows[j] == y;
  }

  /** Without ties there is only one latest-first ordering of the table. */
  lemma {:induction false} LatestFirstUnique(s1: seq<Commit>, s2: seq<Commit>, rows: seq<Commit>)
    requires DistinctPushTimes(rows)
    requires SortedDesc(s1, PushedKey) && SortedDesc(s2, PushedKey)
    requires multiset(s1) == multiset(s2) && multiset(s1) <= multiset(rows)
    ensures s1 == s2
    decreases |s1|
  {
    assert |s1| == |multiset(s1)| == |multiset(s2)| == |s2|;
    if s1 != [] {
      SameHead(s1, s2, rows);
      TailsAgree(s1, s2);
      SortedTail(s1);
      SortedTail(s2);
      LatestFirstUnique(s1[1..], s2[1..], rows);
    }
  }

  lemma TailsAgree(s1: seq<Commit>, s2: seq<Commit>)
    requires s1 != [] && s2 != [] && s1[0] == s2[0] && multiset(s1) == multiset(s2)
    ensures multiset(s1[1..]) == multiset(s2[1..]) && multiset(s1[1..]) <= multiset(s1)
  {
    var x := s1[0];
    assert s1 == [x] + s1[1..] && s2 == [x] + s2[1..];
    assert multiset(s1[1..]) == multiset(s1) - multiset{x};
    assert multiset(s2[1..]) == multiset(s2) - multiset{x};
  }

  /** A latest-first ordering starts with a latest commit. */
  lemma HeadIsLatest(s: seq<Commit>, x: Commit)
    requires SortedDesc(s, PushedKey) && x in multiset(s)
    ensures s[0].pushedAt >= x.pushedAt
  {
    var j :| 0 <= j < |s| && s[j] == x;
    assert j == 0 || KeyGe(PushedKey(s[0]), PushedKey(s[j]));
  }

  lemma SameHead(s1: seq<Commit>, s2: seq<Commit>, rows: seq<Commit>)
    requires DistinctPushTimes(rows)
    requires SortedDesc(s1, PushedKey) && SortedDesc(s2, PushedKey)
    requires s1 != [] && s2 != []
    requires multiset(s1) == multiset(s2) && multiset(s1) <= multiset(rows)
    ensures s1[0] == s2[0]
  {
    var x, y := s1[0], s2[0];
    assert x in multiset(s1) && y in multiset(s2);
    HeadIsLatest(s2, x);
    HeadIsLatest(s1, y);
    assert x in rows && y in rows;
    SameTimeSameCommit(rows, x, y);
  }

  lemma SortedTail(s: seq<Commit>)
    requires s != [] && SortedDesc(s, PushedKey)
    ensures SortedDesc(s[1..], PushedKey)
  {
    forall i, j | 0 <= i < j < |s[1..]| ensures KeyGe(PushedKey(s[1..][i]), PushedKey(s[1..][j])) {
      assert s[1..][i] == s[i + 1] && s[1..][j] == s[j + 1];
    }
  }

  /** When no two commits share a push time, the pages of separate queries
      tile the table. Take the page of `a` rows at `offset` cut from one
      query's ordering `s1` and the page of `b` rows at `offset + a` cut from
      another's `s2`. Together they are the page of `a + b` rows at
      `offset`, so paging neither skips nor repeats a row. */
  lemma PagesConcatenate(rows: seq<Commit>, offset: nat, a: nat, b: nat, s1: seq<Commit>, s2: seq<Commit>)
    requires DistinctPushTimes(rows)
    requires LatestFirst(s1, rows) && LatestFirst(s2, rows)
    ensures Window(s1, offset, a) + Window(s2, offset + a, b) == PageRows(rows, offset, a + b)
  {
    var s := PageOrdering(rows, offset, a + b, PageRows(rows, offset, a + b));
    LatestFirstUnique(s1, s, rows);
    LatestFirstUnique(s2, s, rows);
    SlicesJoin(s, offset, a, b);
  }

  /** The ordering a page was cut from. */
  lemma PageOrdering(rows: seq<Commit>, offset: nat, limit: nat, page: seq<Commit>) returns (s: seq<Commit>)
    requires AdmissiblePage(rows, offset, limit, page)
    ensures LatestFirst(s, rows) && page == Window(s, offset, limit)
  {
    s :| LatestFirst(s, rows) && page == Window(s, offset, limit);
  }

  lemma SlicesJoin(s: seq<Commit>, offset: nat, a: nat, b: nat)
    ensures Window(s, offset, a) + Window(s, offset + a, b) == Window(s, offset, a + b)
  {
    var n := |s|;
    var i, j, k := Min(offset, n), Min(offset + a, n), Min(offset + a + b, n);
    assert s[i..j] + s[j..k] == s[i..k];
  }

  /** With two commits pushed at the same time, separate queries may order
      them differently: the first one-row page and the second one-row page
      may both be `[x]`, so `x` is shown twice and `y` never. */
  lemma TiedPagesMayRepeat(x: Commit, y: Commit)
    requires x != y && x.pushedAt == y.pushedAt
    ensures AdmissiblePage([x, y], 0, 1, [x]) && AdmissiblePage([x, y], 1, 1, [x])
    ensures multiset([x] + [x]) != multiset([x, y])
  {
    var s1, s2 := [x, y], [y, x];
    assert SortedDesc(s1, PushedKey) && SortedDesc(s2, PushedKey);
    assert multiset(s2) == multiset([x, y]);
    assert LatestFirst(s1, [x, y]) && [x] == Window(s1, 0, 1);
    assert LatestFirst(s2, [x, y]) && [x] == Window(s2, 1, 1);
    assert multiset([x] + [x])[y] == 0;
  }

  datatype Page = Page(items: seq<Item>, total: int, hasMore: bool)

  /** The route: `rows` is the commits table, `repos` the repositories
      table. */
  function GetActivity(rows: seq<Commit>, repos: seq<Repo>, offsetParam: Option<string>, limitParam: Option<string>,
                       digest: string -> string, now: int): Page
  {
    Respond(rows, repos, Offset(offsetParam), Limit(limitParam), digest, now)
  }

  /** The route once its parameters are read. */
  function Respond(rows: seq<Commit>, repos: seq<Repo>, offset: nat, limit: int, digest: string -> string, now: int): Page
    requires 1 <= limit
  {
    var page := PageRows(rows, offset, limit);
    var total := Min(|rows|, MAX_LIMIT);
    var items := Map(page, (c: Commit) => Present(c, IsPrivateRepo(repos, c.repoName), digest, now));
    Page(items, total, offset + limit < total)
  }

  /** The page holds at most `limit` items; the total is capped at 100; and
      `hasMore` promises a full page with further commits behind it. */
  lemma {:induction false} GetActivityShape(rows: seq<Commit>, repos: seq<Repo>, offsetParam: Option<string>, limitParam: Option<string>,
                                            digest: string -> string, now: int)
    ensures var p := GetActivity(rows, repos, offsetParam, limitParam, digest, now);
      var offset := Offset(offsetParam);
      var limit := Limit(limitParam);
      && |p.items| == Max(0, Min(limit, |rows| - offset))
      && 0 <= p.total <= MAX_LIMIT && p.total <= |rows|
      && (p.hasMore ==> |p.items| == limit && offset + |p.items| < |rows|)
      && (!p.hasMore && |rows| <= MAX_LIMIT ==> offset + |p.items| >= |rows|)
  {
    RespondShape(rows, repos, Offset(offsetParam), Limit(limitParam), digest, now);
  }

  lemma RespondShape(rows: seq<Commit>, repos: seq<Repo>, offset: nat, limit: int, digest: string -> string, now: int)
    requires 1 <= limit
    ensures var p := Respond(rows, repos, offset, limit, digest, now);
      && |p.items| == Max(0, Min(limit, |rows| - offset))
      && 0 <= p.total <= MAX_LIMIT && p.total <= |rows|
      && (p.hasMore ==> |p.items| == limit && offset + |p.items| < |rows|)
      && (!p.hasMore && |rows| <= MAX_LIMIT ==> offset + |p.items| >= |rows|)
  {
    var p := Respond(rows, repos, offset, limit, digest, now);
    PageArithmetic(|rows|, offset, limit, |p.items|, p.total);
  }

  lemma PageArithmetic(n: nat, offset: nat, limit: int, k: int, total: int)
    requires 1 <= limit && k == Max(0, Min(limit, n - offset)) && total == Min(n, MAX_LIMIT)
    ensures offset + limit < total ==> k == limit && offset + k < n
    ensures offset + limit >= total && n <= MAX_LIMIT ==> offset + k >= n
  {
  }

  /** Every item is the presentation of a stored commit under its
      repository's privacy flag, and a public item's message carries no
      trailer. */
  lemma {:induction false} GetActivityItems(rows: seq<Commit>, repos: seq<Repo>, offsetParam: Option<string>, limitParam: Option<string>,
                                            digest: string -> string, now: int)
    ensures var items := GetActivity(rows, repos, offsetParam, limitParam, digest, now).items;
      forall i :: 0 <= i < |items| ==>
        && (exists c :: c in rows && items[i] == Present(c, IsPrivateRepo(repos, c.repoName), digest, now))
        && (!Contains(items[i].message, TRAILER) || items[i].isPrivate)
  {
    RespondItems(rows, repos, Offset(offsetParam), Limit(limitParam), digest, now);
  }

  lemma RespondItems(rows: seq<Commit>, repos: seq<Repo>, offset: nat, limit: int, digest: string -> string, now: int)
    requires 1 <= limit
    ensures var items := Respond(rows, repos, offset, limit, digest, now).items;
      forall i :: 0 <= i < |items| ==>
        && (exists c :: c in rows && items[i] == Present(c, IsPrivateRepo(repos, c.repoName), digest, now))
        && (!Contains(items[i].message, TRAILER) || items[i].isPrivate)
  {
    var page := PageRows(rows, offset, limit);
    var items := Respond(rows, repos, offset, limit, digest, now).items;
    forall i | 0 <= i < |items|
      ensures exists c :: c in rows && items[i] == Present(c, IsPrivateRepo(repos, c.repoName), digest, now)
      ensures !Contains(items[i].message, TRAILER) || items[i].isPrivate
    {
      var c := page[i];
      assert c in rows && items[i] == Present(c, IsPrivateRepo(repos, c.repoName), digest, now);
      CleanHasNoTrailer(c.message);
    }
  }
}

=== FILE: analytics.dfy ===
/** The analytics route: week-over-week and month-over-month comparisons,
    year-to-date totals, velocity, contributor trends, the fastest-growing
    repositories and the cumulative monthly series. */
module Analytics {
  import opened Wrappers
  import opened Schema
  import opened Seqs
  import opened Sorting
  import opened Windows
  import opened Calendar
  import opened PeruTime

  // ---- JavaScript Math.round on exact quotients ----

  /** `Math.round(n / d)` for `d > 0`: the integer nearest to n/d, halves
      rounded up (towards +∞, also for negative quotients). */
  function RoundDiv(n: int, d: int): (r: int)
    requires d > 0
    ensures (2 * r - 1) * d <= 2 * n < (2 * r + 1) * d
  {
    var q := (2 * n + d) / (2 * d);
    var m := (2 * n + d) % (2 * d);
    assert 2 * n + d == 2 * d * q + m && 0 <= m < 2 * d;
    assert (2 * q - 1) * d == 2 * d * q - d;
    assert (2 * q + 1) * d == 2 * d * q + d;
    q
  }

  /** `pctChange(current, previous)`: the percentage change rounded to the
      nearest integer; from zero, any growth reads as 100 and no growth as 0. */
  function PctChange(current: int, previous: int): (r: int)
    ensures previous == 0 ==> r == (if current > 0 then 100 else 0)
    ensures previous > 0 ==>
      (2 * r - 1) * previous <= 200 * (current - previous) < (2 * r + 1) * previous
    ensures previous < 0 ==>
      (2 * r + 1) * previous < 200 * (current - previous) <= (2 * r - 1) * previous
  {
    if previous == 0 then (if current > 0 then 100 else 0)
    else if previous > 0 then RoundDiv(100 * (current - previous), previous)
    else
      var r := RoundDiv(-100 * (current - previous), -previous);
      assert (2 * r - 1) * -previous == -((2 * r - 1) * previous);
      assert (2 * r + 1) * -previous == -((2 * r + 1) * previous);
      r
  }

  /** With a positive baseline the sign of the change follows the data:
      growth never reads as a decline and a decline never as growth. */
  lemma PctChangeSign(current: int, previous: int)
    requires previous > 0
    ensures current >= previous ==> PctChange(current, previous) >= 0
    ensures current <= previous ==> PctChange(current, previous) <= 0
    ensures current == previous ==> PctChange(current, previous) == 0
  {
    assert PctChange(current, previous) == (200 * (current - previous) + previous) / (2 * previous);
  }

  // ---- windows ----

  /** `getPeruPrevWeekStart()`: the Lima Monday midnight one week before
      the current week's. */
  function PrevWeekStart(nowUtc: int): (r: int)
    ensures r + 7 * DAY_MS == WeekStart(nowUtc)
    ensures (r - 5 * HOUR_MS) % DAY_MS == 0 && Weekday((r - 5 * HOUR_MS) / DAY_MS) == 1
  {
    var ws := WeekStart(nowUtc);
    MondayWeekEarlier(ws - 5 * HOUR_MS);
    ws - 7 * DAY_MS
  }

  /** The midnight seven days before a Monday midnight is a Monday midnight. */
  lemma MondayWeekEarlier(x: int)
    requires x % DAY_MS == 0 && Weekday(x / DAY_MS) == 1
    ensures (x - 7 * DAY_MS) % DAY_MS == 0 && Weekday((x - 7 * DAY_MS) / DAY_MS) == 1
  {
    var d := x / DAY_MS;
    assert x - 7 * DAY_MS == (d - 7) * DAY_MS;
    assert (x - 7 * DAY_MS) / DAY_MS == d - 7;
    assert Weekday(d - 7) == Weekday(d) by { ModMinusMultiple(d + 4, 1); }
  }

  /** Lima midnight of 1 January 2026, as UTC: 2026-01-01T05:00:00Z. */
  function YtdStart(): (r: int)
    ensures r == 1_767_243_600_000
    ensures DayOf(r - 5 * HOUR_MS) == YearStart(2026) && (r - 5 * HOUR_MS) % DAY_MS == 0
  {
    WallToUtc(YearStart(2026) * DAY_MS)
  }

  function CurrentWeek(nowUtc: int): Window { Since(WeekStart(nowUtc)) }
  function PreviousWeek(nowUtc: int): Window { Between(PrevWeekStart(nowUtc), WeekStart(nowUtc)) }
  function CurrentMonth(nowUtc: int): Window { Since(nowUtc - 30 * DAY_MS) }
  function PreviousMonth(nowUtc: int): Window { Between(nowUtc - 60 * DAY_MS, nowUtc - 30 * DAY_MS) }

  /** The two weeks compared are adjacent: together they are exactly the
      rows since the previous week's start, with no row counted twice. */
  lemma WeeksPartition(rows: seq<Commit>, nowUtc: int)
    ensures CommitCount(rows, Since(PrevWeekStart(nowUtc)))
         == CommitCount(rows, PreviousWeek(nowUtc)) + CommitCount(rows, CurrentWeek(nowUtc))
    ensures Additions(rows, Since(PrevWeekStart(nowUtc)))
         == Additions(rows, PreviousWeek(nowUtc)) + Additions(rows, CurrentWeek(nowUtc))
  {
    SplitWindow(rows, PrevWeekStart(nowUtc), WeekStart(nowUtc));
  }

  /** The two 30-day periods are adjacent in the same way. */
  lemma MonthsPartition(rows: seq<Commit>, nowUtc: int)
    ensures CommitCount(rows, Since(nowUtc - 60 * DAY_MS))
         == CommitCount(rows, PreviousMonth(nowUtc)) + CommitCount(rows, CurrentMonth(nowUtc))
  {
    SplitWindow(rows, nowUtc - 60 * DAY_MS, nowUtc - 30 * DAY_MS);
  }

  // ---- velocity ----

  /** Average commits per active contributor this week, rounded; 0 without
      contributors. */
  function AvgCommitsPerContributor(commits: nat, contributors: nat): (r: int)
    ensures contributors == 0 ==> r == 0
    ensures contributors > 0 ==> (2 * r - 1) * contributors <= 2 * commits < (2 * r + 1) * contributors
  {
    if contributors > 0 then RoundDiv(commits, contributors) else 0
  }

  /** Over a real window the average is at least one as soon as anyone
      committed, since contributors never outnumber commits. */
  lemma AverageAtLeastOne(rows: seq<Commit>, w: Window)
    requires CommitCount(rows, w) > 0
    ensures AvgCommitsPerContributor(CommitCount(rows, w), Contributors(rows, w)) >= 1
  {
    ContributorsAtMostCommits(rows, w);
    RoundedAverageAtLeastOne(CommitCount(rows, w), Contributors(rows, w));
  }

  /** So the average of a window is 0 exactly when it has no commit. */
  lemma AverageZeroWithoutCommits(rows: seq<Commit>, w: Window)
    ensures AvgCommitsPerContributor(CommitCount(rows, w), Contributors(rows, w)) == 0 <==> CommitCount(rows, w) == 0
  {
    ContributorsAtMostCommits(rows, w);
    if CommitCount(rows, w) > 0 {
      AverageAtLeastOne(rows, w);
    }
  }

  lemma RoundedAverageAtLeastOne(c: nat, n: nat)
    requires 0 < n <= c
    ensures AvgCommitsPerContributor(c, n) >= 1
  {
    var r := AvgCommitsPerContributor(c, n);
    if r <= 0 {
      assert (2 * r + 1) * n <= n by { MulLeft(2 * r + 1, 1, n); }
    }
  }

  lemma MulLeft(a: int, b: int, n: nat)
    requires a <= b
    ensures a * n <= b * n
  {
  }

  /** `additions - deletions` of a window, each sum with NULL counted as 0. */
  function NetLines(rows: seq<Commit>, w: Window): int {
    Additions(rows, w) - Deletions(rows, w)
  }

  /** The net line count is the sum of every selected commit's own net
      change. */
  lemma {:induction false} NetLinesPerRow(rows: seq<Commit>, w: Window)
    ensures NetLines(rows, w) == SumOf(Selected(rows, w), (c: Commit) => c.additions.GetOr(0) - c.deletions.GetOr(0))
  {
    SumOfDifference(Selected(rows, w));
  }

  lemma {:induction false} SumOfDifference(xs: seq<Commit>)
    ensures SumOf(xs, (c: Commit) => c.additions.GetOr(0)) - SumOf(xs, (c: Commit) => c.deletions.GetOr(0))
         == SumOf(xs, (c: Commit) => c.additions.GetOr(0) - c.deletions.GetOr(0))
  {
    if xs != [] {
      SumOfDifference(xs[..|xs| - 1]);
    }
  }

  /** Net lines are additive over adjacent windows, so the two weeks
      compared account for every net line since the previous week began. */
  lemma NetLinesPartition(rows: seq<Commit>, nowUtc: int)
    ensures NetLines(rows, Since(PrevWeekStart(nowUtc)))
         == NetLines(rows, PreviousWeek(nowUtc)) + NetLines(rows, CurrentWeek(nowUtc))
  {
    SplitWindow(rows, PrevWeekStart(nowUtc), WeekStart(nowUtc));
  }

  // ---- new contributors ----

  /** Authors whose first commit (`min(pushed_at)`) is at or after `since`. */
  function NewAuthors(rows: seq<Commit>, since: int): set<string> {
    set c | c in rows && (forall d :: d in rows && d.authorUsername == c.authorUsername ==> d.pushedAt >= since)
      :: c.authorUsername
  }

  /** Every new contributor committed inside the window, so there are no
      more of them than distinct contributors in it. */
  lemma NewAuthorsAreActive(rows: seq<Commit>, since: int)
    ensures NewAuthors(rows, since) <= AuthorSet(Selected(rows, Since(since)))
    ensures |NewAuthors(rows, since)| <= Contributors(rows, Since(since))
  {
    var sel := Selected(rows, Since(since));
    forall u | u in NewAuthors(rows, since) ensures u in AuthorSet(sel) {
      var c :| c in rows && c.authorUsername == u
        && (forall d :: d in rows && d.authorUsername == c.authorUsername ==> d.pushedAt >= since);
      assert c in sel;
    }
    SubsetCardinality(NewAuthors(rows, since), AuthorSet(sel));
  }

  // ---- top growing repositories ----

  datatype RepoGrowth = RepoGrowth(name: string, currentCommits: nat, prevCommits: nat, growth: int)

  function RepoNames(rows: seq<Commit>): (r: seq<string>)
    ensures |r| == |rows| && forall i :: 0 <= i < |rows| ==> r[i] == rows[i].repoName
  {
    seq(|rows|, i requires 0 <= i < |rows| => rows[i].repoName)
  }

  lemma CountPositive(rows: seq<Commit>, p: Commit -> bool, c: Commit)
    requires c in rows && p(c)
    ensures CountWhere(rows, p) > 0
  {
    var i :| 0 <= i < |rows| && rows[i] == c;
  }

  /** One row of the join: a repository's commit counts in the two weeks. */
  function GrowthOf(rows: seq<Commit>, name: string, nowUtc: int): (g: RepoGrowth)
    ensures g.name == name
    ensures g.currentCommits == RepoCount(rows, name, CurrentWeek(nowUtc))
    ensures g.prevCommits == RepoCount(rows, name, PreviousWeek(nowUtc))
    ensures g.growth == g.currentCommits - g.prevCommits
  {
    var cur := RepoCount(rows, name, CurrentWeek(nowUtc));
    var prev := RepoCount(rows, name, PreviousWeek(nowUtc));
    RepoGrowth(name, cur, prev, cur - prev)
  }

  /** The repositories with a commit in either week, each once. */
  function ActiveRepoNames(rows: seq<Commit>, nowUtc: int): (names: seq<string>)
    ensures NoDup(names)
  {
    Distinct(RepoNames(Selected(rows, Since(PrevWeekStart(nowUtc)))))
  }

  /** Each name comes from a commit in either week. */
  lemma ActiveRepoNameSource(rows: seq<Commit>, nowUtc: int, i: int) returns (c: Commit)
    requires 0 <= i < |ActiveRepoNames(rows, nowUtc)|
    ensures c in rows && c.repoName == ActiveRepoNames(rows, nowUtc)[i]
    ensures InWindow(Since(PrevWeekStart(nowUtc)), c.pushedAt)
  {
    var both := Selected(rows, Since(PrevWeekStart(nowUtc)));
    var names := RepoNames(both);
    var j :| 0 <= j < |names| && names[j] == ActiveRepoNames(rows, nowUtc)[i];
    c := both[j];
  }

  /** Each commit in either week has its repository's name listed. */
  lemma ActiveRepoNameCovers(rows: seq<Commit>, nowUtc: int, c: Commit) returns (i: int)
    requires c in rows && InWindow(Since(PrevWeekStart(nowUtc)), c.pushedAt)
    ensures 0 <= i < |ActiveRepoNames(rows, nowUtc)| && ActiveRepoNames(rows, nowUtc)[i] == c.repoName
  {
    var both := Selected(rows, Since(PrevWeekStart(nowUtc)));
    var names := RepoNames(both);
    var k :| 0 <= k < |both| && both[k] == c;
    assert names[k] == c.repoName;
    i :| 0 <= i < |ActiveRepoNames(rows, nowUtc)| && ActiveRepoNames(rows, nowUtc)[i] == c.repoName;
  }

  /** A repository with a commit in either week has a positive count in one of them. */
  lemma ActiveRepoCounts(rows: seq<Commit>, c: Commit, nowUtc: int)
    requires c in rows && InWindow(Since(PrevWeekStart(nowUtc)), c.pushedAt)
    ensures GrowthOf(rows, c.repoName, nowUtc).currentCommits + GrowthOf(rows, c.repoName, nowUtc).prevCommits > 0
  {
    var name := c.repoName;
    if c.pushedAt < WeekStart(nowUtc) {
      CountPositive(rows, (x: Commit) => x.repoName == name && InWindow(PreviousWeek(nowUtc), x.pushedAt), c);
    } else {
      CountPositive(rows, (x: Commit) => x.repoName == name && InWindow(CurrentWeek(nowUtc), x.pushedAt), c);
    }
  }

  /** The full outer join of the two weekly per-repository counts. */
  function GrowthRows(rows: seq<Commit>, nowUtc: int): seq<RepoGrowth> {
    var names := ActiveRepoNames(rows, nowUtc);
    seq(|names|, i requires 0 <= i < |names| => GrowthOf(rows, names[i], nowUtc))
  }

  /** Each row of the join carries its repository's counts in the two
      weeks, at least one of them positive, and no repository appears twice. */
  lemma GrowthRowsSound(rows: seq<Commit>, nowUtc: int)
    ensures var r := GrowthRows(rows, nowUtc);
      forall i :: 0 <= i < |r| ==>
        && r[i] == GrowthOf(rows, r[i].name, nowUtc)
        && r[i].currentCommits + r[i].prevCommits > 0
        && (forall j :: 0 <= j < |r| && j != i ==> r[j].name != r[i].name)
  {
    var names := ActiveRepoNames(rows, nowUtc);
    var r := GrowthRows(rows, nowUtc);
    forall i | 0 <= i < |r| ensures r[i].currentCommits + r[i].prevCommits > 0 {
      var c := ActiveRepoNameSource(rows, nowUtc, i);
      ActiveRepoCounts(rows, c, nowUtc);
    }
  }

  /** Every repository with a commit in either week has a row in the join. */
  lemma GrowthRowsCover(rows: seq<Commit>, nowUtc: int, c: Commit)
    requires c in rows && InWindow(Since(PrevWeekStart(nowUtc)), c.pushedAt)
    ensures exists i :: 0 <= i < |GrowthRows(rows, nowUtc)| && GrowthRows(rows, nowUtc)[i].name == c.repoName
  {
    var i := ActiveRepoNameCovers(rows, nowUtc, c);
    assert GrowthRows(rows, nowUtc)[i].name == c.repoName;
  }

  function GrowthKey(g: RepoGrowth): (int, int) {
    (g.growth, 0)
  }

  /** The three repositories with the largest week-over-week growth: sorted
      by growth, each with the counts of the two weeks, and no repository
      active in either week left out while growing more than one listed. */
  function TopGrowingRepos(rows: seq<Commit>, nowUtc: int): (r: seq<RepoGrowth>)
    ensures |r| == Min(3, |GrowthRows(rows, nowUtc)|)
    ensures SortedDesc(r, GrowthKey)
    ensures forall i :: 0 <= i < |r| ==> r[i] in GrowthRows(rows, nowUtc)
    ensures forall i, g :: 0 <= i < |r| && g in multiset(GrowthRows(rows, nowUtc)) - multiset(r) ==>
      r[i].growth >= g.growth
  {
    var all := GrowthRows(rows, nowUtc);
    var r := TopN(all, GrowthKey, 3);
    GrowthDominates(all, r);
    r
  }

  lemma GrowthDominates(all: seq<RepoGrowth>, r: seq<RepoGrowth>)
    requires forall i, g :: 0 <= i < |r| && g in multiset(all) - multiset(r) ==> KeyGe(GrowthKey(r[i]), GrowthKey(g))
    ensures forall i, g :: 0 <= i < |r| && g in multiset(all) - multiset(r) ==> r[i].growth >= g.growth
  {
    forall i, g | 0 <= i < |r| && g in multiset(all) - multiset(r) ensures r[i].growth >= g.growth {
      assert KeyGe(GrowthKey(r[i]), GrowthKey(g));
    }
  }

  /** Each listed repository carries its own counts of the two weeks, at
      least one of them positive. */
  lemma TopGrowingReposRows(rows: seq<Commit>, nowUtc: int)
    ensures var r := TopGrowingRepos(rows, nowUtc);
      forall i :: 0 <= i < |r| ==>
        r[i] == GrowthOf(rows, r[i].name, nowUtc) && r[i].currentCommits + r[i].prevCommits > 0
  {
    GrowthRowsSound(rows, nowUtc);
  }

  // ---- the response ----

  /** One compared figure: `{current, previous, change}`. */
  datatype Comparison = Comparison(current: int, previous: int, change: int)

  /** The change a comparison reports is the percentage change between its
      own two figures. */
  predicate Consistent(c: Comparison) {
    c.change == PctChange(c.current, c.previous)
  }

  function Compare(current: int, previous: int): (c: Comparison)
    ensures Consistent(c) && c.current == current && c.previous == previous
  {
    Comparison(current, previous, PctChange(current, previous))
  }

  datatype WeekOverWeek = WeekOverWeek(commits: Comparison, additions: Comparison, deletions: Comparison,
                                       contributors: Comparison)
  datatype MonthOverMonth = MonthOverMonth(commits: Comparison, additions: Comparison, deletions: Comparison)
  datatype Totals = Totals(commits: nat, additions: int, deletions: int)
  datatype Velocity = Velocity(netLines: int, prevNetLines: int, change: int, avgCommitsPerContributor: int)
  datatype ContributorTrends = ContributorTrends(activeWoWChange: int, newThisMonth: nat)

  /** The route's JSON body, without the two chart series. */
  datatype AnalyticsResponse = AnalyticsResponse(
    wow: WeekOverWeek,
    mom: MonthOverMonth,
    ytd: Totals,
    velocity: Velocity,
    contributorTrends: ContributorTrends,
    topGrowingRepos: seq<RepoGrowth>)

  /** The body built from the figures the queries return: every change is
      the percentage change of the two figures beside it, the velocity is the
      week's additions minus deletions, and the contributor trend repeats the
      week-over-week contributor change. */
  function Respond(cw: WindowStats, pw: WindowStats, cm: WindowStats, pm: WindowStats, ytd: WindowStats,
                   newThisMonth: nat, top: seq<RepoGrowth>): (r: AnalyticsResponse)
    ensures Consistent(r.wow.commits) && Consistent(r.wow.additions) && Consistent(r.wow.deletions)
    ensures Consistent(r.wow.contributors)
    ensures Consistent(r.mom.commits) && Consistent(r.mom.additions) && Consistent(r.mom.deletions)
    ensures r.wow.commits.current == cw.commits && r.wow.commits.previous == pw.commits
    ensures r.wow.additions.current == cw.additions && r.wow.additions.previous == pw.additions
    ensures r.wow.deletions.current == cw.deletions && r.wow.deletions.previous == pw.deletions
    ensures r.wow.contributors.current == cw.contributors && r.wow.contributors.previous == pw.contributors
    ensures r.mom.commits.current == cm.commits && r.mom.commits.previous == pm.commits
    ensures r.mom.additions.current == cm.additions && r.mom.additions.previous == pm.additions
    ensures r.mom.deletions.current == cm.deletions && r.mom.deletions.previous == pm.deletions
    ensures r.ytd == Totals(ytd.commits, ytd.additions, ytd.deletions)
    ensures r.velocity.netLines == r.wow.additions.current - r.wow.deletions.current
    ensures r.velocity.prevNetLines == r.wow.additions.previous - r.wow.deletions.previous
    ensures r.velocity.change == PctChange(r.velocity.netLines, r.velocity.prevNetLines)
    ensures r.velocity.avgCommitsPerContributor == AvgCommitsPerContributor(cw.commits, cw.contributors)
    ensures r.contributorTrends == ContributorTrends(r.wow.contributors.change, newThisMonth)
    ensures r.topGrowingRepos == top
  {
    AnalyticsResponse(
      WeekOverWeek(Compare(cw.commits, pw.commits), Compare(cw.additions, pw.additions),
                   Compare(cw.deletions, pw.deletions), Compare(cw.contributors, pw.contributors)),
      MonthOverMonth(Compare(cm.commits, pm.commits), Compare(cm.additions, pm.additions),
                     Compare(cm.deletions, pm.deletions)),
      Totals(ytd.commits, ytd.additions, ytd.deletions),
      Velocity(cw.additions - cw.deletions, pw.additions - pw.deletions,
               PctChange(cw.additions - cw.deletions, pw.additions - pw.deletions),
               AvgCommitsPerContributor(cw.commits, cw.contributors)),
      ContributorTrends(PctChange(cw.contributors, pw.contributors), newThisMonth),
      top)
  }

  /** The route over the commits table at `nowUtc`. Besides the consistency
      of `Respond`: no week has more contributors than commits, the average
      is 0 exactly when the week has no commit, and the new contributors are
      among the month's contributors. */
  function GetAnalytics(rows: seq<Commit>, nowUtc: int): (r: AnalyticsResponse)
    ensures Consistent(r.wow.commits) && Consistent(r.wow.contributors) && Consistent(r.mom.commits)
    ensures r.velocity.change == PctChange(r.velocity.netLines, r.velocity.prevNetLines)
    ensures r.contributorTrends.activeWoWChange == r.wow.contributors.change
    ensures 0 <= r.wow.contributors.current <= r.wow.commits.current
    ensures 0 <= r.wow.contributors.previous <= r.wow.commits.previous
    ensures r.velocity.avgCommitsPerContributor == 0 <==> r.wow.commits.current == 0
    ensures r.contributorTrends.newThisMonth <= Contributors(rows, CurrentMonth(nowUtc))
  {
    var cur, prev := CurrentWeek(nowUtc), PreviousWeek(nowUtc);
    ContributorsAtMostCommits(rows, cur);
    ContributorsAtMostCommits(rows, prev);
    AverageZeroWithoutCommits(rows, cur);
    NewAuthorsAreActive(rows, nowUtc - 30 * DAY_MS);
    Respond(Stats(rows, cur), Stats(rows, prev), Stats(rows, CurrentMonth(nowUtc)), Stats(rows, PreviousMonth(nowUtc)),
            Stats(rows, Since(YtdStart())), |NewAuthors(rows, nowUtc - 30 * DAY_MS)|, TopGrowingRepos(rows, nowUtc))
  }

  /** The week-over-week figures count the current Lima week and the one
      before it. */
  lemma AnalyticsWeekWindows(rows: seq<Commit>, nowUtc: int)
    ensures var r := GetAnalytics(rows, nowUtc);
      && r.wow.commits.current == CommitCount(rows, CurrentWeek(nowUtc))
      && r.wow.commits.previous == CommitCount(rows, PreviousWeek(nowUtc))
      && r.wow.contributors.current == Contributors(rows, CurrentWeek(nowUtc))
      && r.wow.contributors.previous == Contributors(rows, PreviousWeek(nowUtc))
  {
  }

  /** The velocity's two figures are the net lines of the current Lima
      week and of the week before. */
  lemma AnalyticsNetLines(rows: seq<Commit>, nowUtc: int)
    ensures var r := GetAnalytics(rows, nowUtc);
      && r.velocity.netLines == NetLines(rows, CurrentWeek(nowUtc))
      && r.velocity.prevNetLines == NetLines(rows, PreviousWeek(nowUtc))
  {
    var r := GetAnalytics(rows, nowUtc);
    assert r.velocity.netLines == NetLines(rows, CurrentWeek(nowUtc)) by {
      assert r.wow.additions.current == Additions(rows, CurrentWeek(nowUtc));
      assert r.wow.deletions.current == Deletions(rows, CurrentWeek(nowUtc));
    }
    assert r.wow.additions.previous == Additions(rows, PreviousWeek(nowUtc));
    assert r.wow.deletions.previous == Deletions(rows, PreviousWeek(nowUtc));
  }

  /** So the velocity's change compares the two weeks' net lines. */
  lemma AnalyticsVelocity(rows: seq<Commit>, nowUtc: int)
    ensures GetAnalytics(rows, nowUtc).velocity.change
         == PctChange(NetLines(rows, CurrentWeek(nowUtc)), NetLines(rows, PreviousWeek(nowUtc)))
  {
    AnalyticsNetLines(rows, nowUtc);
  }

  /** The month-over-month figures count the last 30 days and the 30 before,
      the totals every row since Lima 1 January 2026, and the new
      contributors are the authors whose first commit is in the last 30 days. */
  lemma AnalyticsOtherWindows(rows: seq<Commit>, nowUtc: int)
    ensures var r := GetAnalytics(rows, nowUtc);
      && r.mom.commits.current == CommitCount(rows, CurrentMonth(nowUtc))
      && r.mom.commits.previous == CommitCount(rows, PreviousMonth(nowUtc))
      && r.ytd == Totals(CommitCount(rows, Since(YtdStart())), Additions(rows, Since(YtdStart())),
                         Deletions(rows, Since(YtdStart())))
      && r.contributorTrends.newThisMonth == |NewAuthors(rows, nowUtc - 30 * DAY_MS)|
      && r.topGrowingRepos == TopGrowingRepos(rows, nowUtc)
  {
    var r := GetAnalytics(rows, nowUtc);
    assert r.mom.commits.current == Stats(rows, CurrentMonth(nowUtc)).commits;
  }

  /** The two weeks the comparisons set side by side together hold every
      commit and every net line since the previous week began. */
  lemma WeekOverWeekCoversTwoWeeks(rows: seq<Commit>, nowUtc: int)
    ensures var r := GetAnalytics(rows, nowUtc);
      && r.wow.commits.current + r.wow.commits.previous == CommitCount(rows, Since(PrevWeekStart(nowUtc)))
      && r.velocity.netLines + r.velocity.prevNetLines == NetLines(rows, Since(PrevWeekStart(nowUtc)))
  {
    AnalyticsWeekWindows(rows, nowUtc);
    AnalyticsNetLines(rows, nowUtc);
    WeeksPartition(rows, nowUtc);
    NetLinesPartition(rows, nowUtc);
  }

  // ---- cumulative monthly series ----

  /** The running totals of the per-month counts, as the route's loop builds them. */
  method CumulativeTotals(monthly: seq<int>) returns (r: seq<int>)
    ensures |r| == |monthly|
    ensures forall i :: 0 <= i < |r| ==> r[i] == Sum(monthly[..i + 1])
  {
    var running := 0;
    r := [];
    var i := 0;
    while i < |monthly|
      invariant 0 <= i <= |monthly| && |r| == i
      invariant running == Sum(monthly[..i])
      invariant forall k :: 0 <= k < i ==> r[k] == Sum(monthly[..k + 1])
    {
      assert monthly[..i + 1][..i] == monthly[..i];
      running := running + monthly[i];
      r := r + [running];
      i := i + 1;
    }
  }

  /** With non-negative monthly counts the series never decreases, and its
      last value is the year-to-date total of the months listed. */
  lemma {:induction false} CumulativeShape(monthly: seq<int>, r: seq<int>)
    requires |r| == |monthly|
    requires forall i :: 0 <= i < |r| ==> r[i] == Sum(monthly[..i + 1])
    requires forall i :: 0 <= i < |monthly| ==> monthly[i] >= 0
    ensures forall i, j :: 0 <= i <= j < |r| ==> r[i] <= r[j]
    ensures |r| > 0 ==> r[|r| - 1] == Sum(monthly)
  {
    forall i, j | 0 <= i <= j < |r| ensures r[i] <= r[j] {
      var a := monthly[..i + 1];
      var b := monthly[i + 1..j + 1];
      assert monthly[..j + 1] == a + b;
      SumAppend(a, b);
      SumNonNegative(b);
    }
    if |r| > 0 {
      assert monthly[..|r|] == monthly;
    }
  }
}

=== FILE: backfill.dfy ===
/** The one-off backfill script: for each repository of the organisation,
    insert-or-ignore its repository row, then ingest the commits GitHub lists
    for it (first line of the message, zero line counts, contributor
    upsert). A failed commit listing skips that repository only. */
module Backfill {
  import opened Wrappers
  import opened Schema
  import opened GitHub
  import opened Statements
  import Text

  /** `commit.author?.login || commit.commit.author?.name || "unknown"` */
  function BackfillAuthor(c: ListedCommit): (a: string)
    ensures a != ""
  {
    StringOr(c.login, StringOr(c.gitAuthorName, "unknown"))
  }

  /** `commit.author?.avatar_url || null` */
  function BackfillAvatar(c: ListedCommit): (a: Option<string>)
    ensures a.Some? ==> a.value != ""
  {
    if c.loginAvatarUrl.Some? && c.loginAvatarUrl.value != "" then c.loginAvatarUrl else None
  }

  /** `message.split("\n")[0]` */
  function FirstLine(m: string): string {
    Text.Split(m, '\n')[0]
  }

  /** The first line of a message is a prefix of it without a line break,
      and a one-line message is its own first line. */
  lemma FirstLineOfMessage(m: string)
    ensures var f := FirstLine(m);
      && '\n' !in f
      && |f| <= |m| && m[..|f|] == f
      && ('\n' !in m ==> f == m)
  {
    var pieces := Text.Split(m, '\n');
    if |pieces| > 1 {
      assert m == pieces[0] + ['\n'] + Text.Join(pieces[1..], '\n');
    }
    if '\n' !in m {
      Text.SplitNoSep(m, '\n');
    }
  }

  /** Listed commits without a SHA or a message are passed over. */
  predicate Skipped(c: ListedCommit) {
    c.sha == "" || c.message == ""
  }

  /** The commit row the backfill builds; `now` stands in for a missing author date. */
  function BackfillRow(repoName: string, c: ListedCommit, now: int): (r: Commit)
    ensures r.id == c.sha && r.repoName == repoName && r.commitUrl == c.htmlUrl
    ensures r.authorUsername == BackfillAuthor(c) && r.authorAvatarUrl == BackfillAvatar(c)
    ensures r.pushedAt == c.gitAuthorDate.GetOr(now)
  {
    Commit(c.sha, repoName, BackfillAuthor(c), BackfillAvatar(c), FirstLine(c.message),
           Some(0), Some(0), c.htmlUrl, c.gitAuthorDate.GetOr(now), now)
  }

  function BackfillCommit(s: Store, repoName: string, c: ListedCommit, now: int): Store {
    if Skipped(c) then s
    else
      var row := BackfillRow(repoName, c, now);
      RecordContributorCommit(InsertCommitOrIgnore(s, row), row.authorUsername, row.authorAvatarUrl, row.pushedAt, now)
  }

  function BackfillCommits(s: Store, repoName: string, cs: seq<ListedCommit>, now: int): Store {
    if cs == [] then s
    else BackfillCommit(BackfillCommits(s, repoName, cs[..|cs| - 1], now), repoName, cs[|cs| - 1], now)
  }

  /** The repository row the backfill offers (defaults: active, public). */
  function RepoRow(r: OrgRepo, now: int): Repo {
    Repo(r.name, r.fullName, Some(true), Some(false), r.pushedAt, now, now)
  }

  function BackfillRepo(s: Store, r: OrgRepo, listCommits: string -> ListResult, now: int): Store {
    var s1 := InsertRepoOrIgnore(s, RepoRow(r, now));
    match listCommits(r.name)
    case ListFailed(_) => s1
    case Listed(cs) => BackfillCommits(s1, r.name, cs, now)
  }

  function BackfillRepos(s: Store, rs: seq<OrgRepo>, listCommits: string -> ListResult, now: int): Store {
    if rs == [] then s
    else BackfillRepo(BackfillRepos(s, rs[..|rs| - 1], listCommits, now), rs[|rs| - 1], listCommits, now)
  }

  /** The script: `orgRepos` is `None` when listing the organisation's
      repositories fails, in which case nothing is written. */
  function RunBackfill(s: Store, orgRepos: Option<seq<OrgRepo>>, listCommits: string -> ListResult, now: int): Store {
    match orgRepos
    case None => s
    case Some(rs) => BackfillRepos(s, rs, listCommits, now)
  }

  // ---- what the backfill keeps ----

  /** `t` extends `s`: every stored commit and repository row is kept as it
      was, and every commit row added has zero line counts, a non-empty
      author and a one-line message. */
  ghost predicate Extends(s: Store, t: Store) {
    && s.commits.Keys <= t.commits.Keys
    && (forall k :: k in s.commits ==> t.commits[k] == s.commits[k])
    && (forall k :: k in t.commits && k !in s.commits ==>
          && t.commits[k].additions == Some(0) && t.commits[k].deletions == Some(0)
          && t.commits[k].authorUsername != ""
          && '\n' !in t.commits[k].message)
    && s.repos.Keys <= t.repos.Keys
    && (forall k :: k in s.repos ==> t.repos[k] == s.repos[k])
    && t.weekly == s.weekly
  }

  lemma ExtendsTransitive(a: Store, b: Store, c: Store)
    requires Extends(a, b) && Extends(b, c)
    ensures Extends(a, c)
  {
  }

  lemma BackfillCommitExtends(s: Store, repoName: string, c: ListedCommit, now: int)
    ensures Extends(s, BackfillCommit(s, repoName, c, now))
  {
    if !Skipped(c) {
      FirstLineOfMessage(c.message);
    }
  }

  lemma {:induction false} BackfillCommitsExtends(s: Store, repoName: string, cs: seq<ListedCommit>, now: int)
    ensures Extends(s, BackfillCommits(s, repoName, cs, now))
  {
    if cs != [] {
      var m := BackfillCommits(s, repoName, cs[..|cs| - 1], now);
      BackfillCommitsExtends(s, repoName, cs[..|cs| - 1], now);
      BackfillCommitExtends(m, repoName, cs[|cs| - 1], now);
      ExtendsTransitive(s, m, BackfillCommits(s, repoName, cs, now));
    }
  }

  /** Re-running the backfill over existing data never rewrites a stored
      commit or repository row; the rows it adds have zero counts (left for
      the stats repair), a non-empty author and a one-line message; and every
      listed repository has a row afterwards. */
  lemma {:induction false} BackfillReposExtends(s: Store, rs: seq<OrgRepo>, listCommits: string -> ListResult, now: int)
    ensures var t := BackfillRepos(s, rs, listCommits, now);
      && Extends(s, t)
      && (forall i :: 0 <= i < |rs| ==> rs[i].name in t.repos)
  {
    if rs != [] {
      var init := rs[..|rs| - 1];
      var r := rs[|rs| - 1];
      var m := BackfillRepos(s, init, listCommits, now);
      BackfillReposExtends(s, init, listCommits, now);
      BackfillRepoExtends(m, r, listCommits, now);
      var t := BackfillRepos(s, rs, listCommits, now);
      assert t == BackfillRepo(m, r, listCommits, now);
      ExtendsTransitive(s, m, t);
      assert forall i :: 0 <= i < |rs| - 1 ==> rs[i] == init[i];
    }
  }

  /** One repository's step extends the store and leaves a row for it. */
  lemma BackfillRepoExtends(m: Store, r: OrgRepo, listCommits: string -> ListResult, now: int)
    ensures var t := BackfillRepo(m, r, listCommits, now);
      Extends(m, t) && r.name in t.repos
  {
    var s1 := InsertRepoOrIgnore(m, RepoRow(r, now));
    assert Extends(m, s1);
    if listCommits(r.name).Listed? {
      BackfillCommitsExtends(s1, r.name, listCommits(r.name).commits, now);
      ExtendsTransitive(m, s1, BackfillRepo(m, r, listCommits, now));
    }
  }

  // ---- contributor counters ----

  /** How many of `cs` the backfill ingests for author `u`. */
  function Ingested(cs: seq<ListedCommit>, u: string): nat {
    if cs == [] then 0
    else Ingested(cs[..|cs| - 1], u) + (if !Skipped(cs[|cs| - 1]) && BackfillAuthor(cs[|cs| - 1]) == u then 1 else 0)
  }

  /** The commits the script walks: each successfully listed repository's
      listing, in repository order. */
  function Walked(rs: seq<OrgRepo>, listCommits: string -> ListResult): seq<ListedCommit> {
    if rs == [] then []
    else
      Walked(rs[..|rs| - 1], listCommits)
      + Listing(rs[|rs| - 1], listCommits)
  }

  lemma {:induction false} IngestedAppend(a: seq<ListedCommit>, b: seq<ListedCommit>, u: string)
    ensures Ingested(a + b, u) == Ingested(a, u) + Ingested(b, u)
    decreases |b|
  {
    if b != [] {
      IngestedAppend(a, b[..|b| - 1], u);
      assert (a + b)[..|a + b| - 1] == a + b[..|b| - 1];
    } else {
      assert a + b == a;
    }
  }

  lemma {:induction false} BackfillCommitsCounter(s: Store, repoName: string, cs: seq<ListedCommit>, now: int, u: string)
    requires u in s.contributors
    ensures var t := BackfillCommits(s, repoName, cs, now);
      u in t.contributors
      && t.contributors[u].totalCommits == SqlAdd(s.contributors[u].totalCommits, Ingested(cs, u))
  {
    if cs != [] {
      BackfillCommitsCounter(s, repoName, cs[..|cs| - 1], now, u);
      var m := BackfillCommits(s, repoName, cs[..|cs| - 1], now);
      var before := s.contributors[u].totalCommits;
      assert SqlAdd(SqlAdd(before, Ingested(cs[..|cs| - 1], u)), 1)
          == SqlAdd(before, Ingested(cs[..|cs| - 1], u) + 1);
    }
  }

  /** The listing the script walks for one repository. */
  function Listing(r: OrgRepo, listCommits: string -> ListResult): seq<ListedCommit> {
    match listCommits(r.name)
    case ListFailed(_) => []
    case Listed(cs) => cs
  }

  lemma BackfillRepoCounter(m: Store, r: OrgRepo, listCommits: string -> ListResult, now: int, u: string)
    requires u in m.contributors
    ensures var t := BackfillRepo(m, r, listCommits, now);
      u in t.contributors
      && t.contributors[u].totalCommits == SqlAdd(m.contributors[u].totalCommits, Ingested(Listing(r, listCommits), u))
  {
    var s1 := InsertRepoOrIgnore(m, RepoRow(r, now));
    if listCommits(r.name).Listed? {
      BackfillCommitsCounter(s1, r.name, listCommits(r.name).commits, now, u);
    }
  }

  /** An existing contributor's counter rises by exactly the number of
      listed, non-skipped commits attributed to them (NULL stays NULL); run
      twice, the script counts the same commits twice. */
  lemma {:induction false} BackfillCounter(s: Store, rs: seq<OrgRepo>, listCommits: string -> ListResult, now: int, u: string)
    requires u in s.contributors
    ensures var t := BackfillRepos(s, rs, listCommits, now);
      u in t.contributors
      && t.contributors[u].totalCommits
         == SqlAdd(s.contributors[u].totalCommits, Ingested(Walked(rs, listCommits), u))
  {
    if rs != [] {
      var init := rs[..|rs| - 1];
      var r := rs[|rs| - 1];
      var m := BackfillRepos(s, init, listCommits, now);
      var t := BackfillRepos(s, rs, listCommits, now);
      var before := s.contributors[u].totalCommits;
      var a := Ingested(Walked(init, listCommits), u);
      var b := Ingested(Listing(r, listCommits), u);
      assert u in m.contributors && m.contributors[u].totalCommits == SqlAdd(before, a) by {
        BackfillCounter(s, init, listCommits, now, u);
      }
      assert u in t.contributors && t.contributors[u].totalCommits == SqlAdd(SqlAdd(before, a), b) by {
        assert t == BackfillRepo(m, r, listCommits, now);
        BackfillRepoCounter(m, r, listCommits, now, u);
      }
      assert Ingested(Walked(rs, listCommits), u) == a + b by {
        assert Walked(rs, listCommits) == Walked(init, listCommits) + Listing(r, listCommits);
        IngestedAppend(Walked(init, listCommits), Listing(r, listCommits), u);
      }
      SqlAddTwice(before, a, b);
    }
  }
  // ---- the commits the backfill stores ----

  /** The rows the backfill builds from one listing, in listing order, with
      the skipped commits left out. */
  function ListingRows(repoName: string, cs: seq<ListedCommit>, now: int): seq<Commit> {
    if cs == [] then []
    else
      var c := cs[|cs| - 1];
      ListingRows(repoName, cs[..|cs| - 1], now) + (if Skipped(c) then [] else [BackfillRow(repoName, c, now)])
  }

  /** The rows of every walked listing, in the order the script builds them. */
  function WalkedRows(rs: seq<OrgRepo>, listCommits: string -> ListResult, now: int): seq<Commit> {
    if rs == [] then []
    else
      var r := rs[|rs| - 1];
      WalkedRows(rs[..|rs| - 1], listCommits, now) + ListingRows(r.name, Listing(r, listCommits), now)
  }

  /** The SHAs of the listed commits that are not passed over. */
  function ListedIds(cs: seq<ListedCommit>): set<string> {
    if cs == [] then {}
    else
      var c := cs[|cs| - 1];
      ListedIds(cs[..|cs| - 1]) + (if Skipped(c) then {} else {c.sha})
  }

  lemma {:induction false} ListedIdsMeans(cs: seq<ListedCommit>)
    ensures ListedIds(cs) == set c | c in cs && !Skipped(c) :: c.sha
  {
    if cs != [] {
      var init := cs[..|cs| - 1];
      var c := cs[|cs| - 1];
      ListedIdsMeans(init);
      assert cs == init + [c];
      var want := set d | d in cs && !Skipped(d) :: d.sha;
      forall k | k in want ensures k in ListedIds(cs) {
        var d :| d in cs && !Skipped(d) && d.sha == k;
        if d != c {
          var j :| 0 <= j < |cs| && cs[j] == d;
          assert init[j] == d;
        }
      }
      forall k | k in ListedIds(cs) ensures k in want {
        if k in ListedIds(init) {
          var d :| d in init && !Skipped(d) && d.sha == k;
          assert d in cs;
        } else {
          assert c in cs;
        }
      }
    }
  }

  function RowIds(rows: seq<Commit>): set<string> {
    set c | c in rows :: c.id
  }

  /** The position of the first row with id `k`. */
  function FirstRow(rows: seq<Commit>, k: string): (i: nat)
    requires k in RowIds(rows)
    ensures i < |rows| && rows[i].id == k
    ensures forall j :: 0 <= j < i ==> rows[j].id != k
  {
    if rows[0].id == k then 0
    else
      assert k in RowIds(rows[1..]) by {
        var c :| c in rows && c.id == k;
        var j :| 0 <= j < |rows| && rows[j] == c;
        assert rows[1..][j - 1] == c;
      }
      1 + FirstRow(rows[1..], k)
  }

  lemma FirstRowUnique(rows: seq<Commit>, k: string, i: nat)
    requires i < |rows| && rows[i].id == k && forall j :: 0 <= j < i ==> rows[j].id != k
    ensures k in RowIds(rows) && FirstRow(rows, k) == i
  {
    assert rows[i] in rows;
  }

  /** The commits table after `INSERT … ON CONFLICT DO NOTHING` of each row
      in turn. */
  function InsertAll(m: map<string, Commit>, rows: seq<Commit>): map<string, Commit> {
    if rows == [] then m
    else
      var prev := InsertAll(m, rows[..|rows| - 1]);
      var c := rows[|rows| - 1];
      if c.id in prev then prev else prev[c.id := c]
  }

  /** `t` is `m` after inserting `rows` in order, ignoring ids already
      present: every stored row is kept, exactly the new ids are added, and
      each new id holds its first row. */
  ghost predicate InsertedInOrder(m: map<string, Commit>, rows: seq<Commit>, t: map<string, Commit>) {
    && t.Keys == m.Keys + RowIds(rows)
    && (forall k :: k in m ==> t[k] == m[k])
    && (forall k :: k in t && k !in m ==> k in RowIds(rows) && t[k] == rows[FirstRow(rows, k)])
  }

  lemma {:induction false} InsertAllSpec(m: map<string, Commit>, rows: seq<Commit>)
    ensures InsertedInOrder(m, rows, InsertAll(m, rows))
  {
    if rows != [] {
      var init := rows[..|rows| - 1];
      var c := rows[|rows| - 1];
      InsertAllSpec(m, init);
      InsertAllSnoc(m, init, c);
      assert init + [c] == rows;
    }
  }

  /** The inductive step of `InsertAllSpec`, on the table `p` before the
      last row. */
  lemma InsertAllSnoc(m: map<string, Commit>, init: seq<Commit>, c: Commit)
    requires InsertedInOrder(m, init, InsertAll(m, init))
    ensures InsertedInOrder(m, init + [c], InsertAll(m, init + [c]))
  {
    var rows := init + [c];
    assert rows[..|rows| - 1] == init;
    var p := InsertAll(m, init);
    InsertStep(m, init, p, c);
  }

  lemma InsertStep(m: map<string, Commit>, init: seq<Commit>, p: map<string, Commit>, c: Commit)
    requires InsertedInOrder(m, init, p)
    ensures InsertedInOrder(m, init + [c], if c.id in p then p else p[c.id := c])
  {
    var rows := init + [c];
    var t := if c.id in p then p else p[c.id := c];
    assert RowIds(rows) == RowIds(init) + {c.id} by {
      RowIdsAppend(init, [c]);
      assert RowIds([c]) == {c.id};
    }
    InsertStepNew(m, init, p, c);
  }

  lemma InsertStepNew(m: map<string, Commit>, init: seq<Commit>, p: map<string, Commit>, c: Commit)
    requires InsertedInOrder(m, init, p)
    ensures var t := if c.id in p then p else p[c.id := c];
      forall k :: k in t && k !in m ==> k in RowIds(init + [c]) && t[k] == (init + [c])[FirstRow(init + [c], k)]
  {
    var rows := init + [c];
    var t := if c.id in p then p else p[c.id := c];
    forall k | k in t && k !in m ensures k in RowIds(rows) && t[k] == rows[FirstRow(rows, k)] {
      if k in RowIds(init) {
        var i := FirstRow(init, k);
        assert rows[i] == init[i];
        FirstRowUnique(rows, k, i);
      } else {
        assert k == c.id && k !in p;
        FirstRowUnique(rows, k, |init|);
      }
    }
  }

  lemma {:induction false} InsertAllAppend(m: map<string, Commit>, a: seq<Commit>, b: seq<Commit>)
    ensures InsertAll(m, a + b) == InsertAll(InsertAll(m, a), b)
    decreases |b|
  {
    if b == [] {
      assert a + b == a;
    } else {
      InsertAllAppend(m, a, b[..|b| - 1]);
      assert (a + b)[..|a + b| - 1] == a + b[..|b| - 1];
    }
  }

  /** One commit goes into the table as its row, unless it is passed over
      or its id is already stored. */
  lemma BackfillCommitTable(s: Store, repoName: string, c: ListedCommit, now: int)
    ensures var row := BackfillRow(repoName, c, now);
      BackfillCommit(s, repoName, c, now).commits
      == if Skipped(c) || row.id in s.commits then s.commits else s.commits[row.id := row]
  {
  }

  /** One listing's commits go into the table as its rows, in order. */
  lemma {:induction false} BackfillCommitsTable(s: Store, repoName: string, cs: seq<ListedCommit>, now: int)
    ensures BackfillCommits(s, repoName, cs, now).commits == InsertAll(s.commits, ListingRows(repoName, cs, now))
  {
    if cs != [] {
      var init := cs[..|cs| - 1];
      var c := cs[|cs| - 1];
      BackfillCommitsTable(s, repoName, init, now);
      BackfillCommitTable(BackfillCommits(s, repoName, init, now), repoName, c, now);
      var a := ListingRows(repoName, init, now);
      if !Skipped(c) {
        var rows := a + [BackfillRow(repoName, c, now)];
        assert rows[..|rows| - 1] == a;
      } else {
        assert ListingRows(repoName, cs, now) == a + [] == a;
      }
    }
  }

  /** The whole walk goes into the table as the walked rows, in order. */
  lemma {:induction false} BackfillReposTable(s: Store, rs: seq<OrgRepo>, listCommits: string -> ListResult, now: int)
    ensures BackfillRepos(s, rs, listCommits, now).commits == InsertAll(s.commits, WalkedRows(rs, listCommits, now))
  {
    if rs != [] {
      var init := rs[..|rs| - 1];
      var r := rs[|rs| - 1];
      var m := BackfillRepos(s, init, listCommits, now);
      BackfillReposTable(s, init, listCommits, now);
      var s1 := InsertRepoOrIgnore(m, RepoRow(r, now));
      BackfillCommitsTable(s1, r.name, Listing(r, listCommits), now);
      assert BackfillRepo(m, r, listCommits, now).commits == InsertAll(m.commits, ListingRows(r.name, Listing(r, listCommits), now));
      InsertAllAppend(s.commits, WalkedRows(init, listCommits, now), ListingRows(r.name, Listing(r, listCommits), now));
    }
  }

  /** A listing's rows carry exactly the SHAs of its commits that are not
      passed over. */
  lemma {:induction false} ListingRowIds(repoName: string, cs: seq<ListedCommit>, now: int)
    ensures RowIds(ListingRows(repoName, cs, now)) == ListedIds(cs)
  {
    if cs != [] {
      var init := cs[..|cs| - 1];
      var c := cs[|cs| - 1];
      ListingRowIds(repoName, init, now);
      var a := ListingRows(repoName, init, now);
      var tail := if Skipped(c) then [] else [BackfillRow(repoName, c, now)];
      RowIdsAppend(a, tail);
      assert RowIds(tail) == if Skipped(c) then {} else {c.sha};
    }
  }

  lemma RowIdsAppend(a: seq<Commit>, b: seq<Commit>)
    ensures RowIds(a + b) == RowIds(a) + RowIds(b)
  {
    forall k | k in RowIds(a + b) ensures k in RowIds(a) + RowIds(b) {
      var d :| d in a + b && d.id == k;
    }
    forall k | k in RowIds(a) + RowIds(b) ensures k in RowIds(a + b) {
      if k in RowIds(a) {
        var d :| d in a && d.id == k;
        assert d in a + b;
      } else {
        var d :| d in b && d.id == k;
        assert d in a + b;
      }
    }
  }

  lemma {:induction false} ListedIdsAppend(a: seq<ListedCommit>, b: seq<ListedCommit>)
    ensures ListedIds(a + b) == ListedIds(a) + ListedIds(b)
    decreases |b|
  {
    if b == [] {
      assert a + b == a;
    } else {
      ListedIdsAppend(a, b[..|b| - 1]);
      assert (a + b)[..|a + b| - 1] == a + b[..|b| - 1];
    }
  }

  /** The walked rows carry exactly the SHAs of the walked commits that are
      not passed over. */
  lemma {:induction false} WalkedRowIds(rs: seq<OrgRepo>, listCommits: string -> ListResult, now: int)
    ensures RowIds(WalkedRows(rs, listCommits, now)) == ListedIds(Walked(rs, listCommits))
  {
    if rs != [] {
      var init := rs[..|rs| - 1];
      var r := rs[|rs| - 1];
      WalkedRowIds(init, listCommits, now);
      ListingRowIds(r.name, Listing(r, listCommits), now);
      RowIdsAppend(WalkedRows(init, listCommits, now), ListingRows(r.name, Listing(r, listCommits), now));
      ListedIdsAppend(Walked(init, listCommits), Listing(r, listCommits));
    }
  }

  /** The backfill stores every listed commit it does not pass over: the
      commit ids afterwards are the old ones and the SHAs of the walked,
      non-skipped commits. (That stored rows are kept is
      `BackfillReposExtends`.) */
  lemma BackfillStoresListedCommits(s: Store, rs: seq<OrgRepo>, listCommits: string -> ListResult, now: int)
    ensures BackfillRepos(s, rs, listCommits, now).commits.Keys == s.commits.Keys + ListedIds(Walked(rs, listCommits))
  {
    BackfillReposTable(s, rs, listCommits, now);
    InsertAllSpec(s.commits, WalkedRows(rs, listCommits, now));
    WalkedRowIds(rs, listCommits, now);
  }

  /** A commit id the backfill newly stores holds the row built from the
      first walked commit with that SHA. */
  lemma BackfillNewRowIsFirst(s: Store, rs: seq<OrgRepo>, listCommits: string -> ListResult, now: int, k: string)
    requires k in BackfillRepos(s, rs, listCommits, now).commits && k !in s.commits
    ensures var rows := WalkedRows(rs, listCommits, now);
      exists i ::
        && 0 <= i < |rows| && rows[i].id == k
        && BackfillRepos(s, rs, listCommits, now).commits[k] == rows[i]
        && forall j :: 0 <= j < i ==> rows[j].id != k
  {
    var rows := WalkedRows(rs, listCommits, now);
    BackfillReposTable(s, rs, listCommits, now);
    InsertAllSpec(s.commits, rows);
    var i := FirstRow(rows, k);
  }

  /** Each walked row is the backfill row of a non-skipped commit of a walked
      listing, under that listing's repository name. */
  lemma {:induction false} WalkedRowSource(rs: seq<OrgRepo>, listCommits: string -> ListResult, now: int, i: int)
    requires 0 <= i < |WalkedRows(rs, listCommits, now)|
    ensures exists j, c ::
              0 <= j < |rs| && c in Listing(rs[j], listCommits) && !Skipped(c)
              && WalkedRows(rs, listCommits, now)[i] == BackfillRow(rs[j].name, c, now)
  {
    var init := rs[..|rs| - 1];
    var r := rs[|rs| - 1];
    var a := WalkedRows(init, listCommits, now);
    if i < |a| {
      WalkedRowSource(init, listCommits, now, i);
      var j, c :| 0 <= j < |init| && c in Listing(init[j], listCommits) && !Skipped(c)
        && a[i] == BackfillRow(init[j].name, c, now);
      assert rs[j] == init[j];
    } else {
      var c := ListingRowSource(r.name, Listing(r, listCommits), now, i - |a|);
      assert rs[|rs| - 1] == r;
    }
  }

  lemma {:induction false} ListingRowSource(repoName: string, cs: seq<ListedCommit>, now: int, i: int) returns (c: ListedCommit)
    requires 0 <= i < |ListingRows(repoName, cs, now)|
    ensures c in cs && !Skipped(c) && ListingRows(repoName, cs, now)[i] == BackfillRow(repoName, c, now)
  {
    var init := cs[..|cs| - 1];
    var a := ListingRows(repoName, init, now);
    if i < |a| {
      c := ListingRowSource(repoName, init, now, i);
      assert c in cs by { assert cs == init + [cs[|cs| - 1]]; }
    } else {
      c := cs[|cs| - 1];
    }
  }

  // ---- first-time contributors ----

  /** One listing: an author without a row gets one exactly when the listing
      ingests a commit of theirs, counting those commits. */
  lemma {:induction false} BackfillCommitsNewContributor(s: Store, repoName: string, cs: seq<ListedCommit>, now: int, u: string)
    requires u !in s.contributors
    ensures var t := BackfillCommits(s, repoName, cs, now);
      && (u in t.contributors <==> Ingested(cs, u) > 0)
      && (u in t.contributors ==> t.contributors[u].totalCommits == Some(Ingested(cs, u)))
  {
    if cs != [] {
      var init := cs[..|cs| - 1];
      BackfillCommitsNewContributor(s, repoName, init, now, u);
    }
  }

  lemma BackfillRepoNewContributor(m: Store, r: OrgRepo, listCommits: string -> ListResult, now: int, u: string)
    requires u !in m.contributors
    ensures var t := BackfillRepo(m, r, listCommits, now);
      && (u in t.contributors <==> Ingested(Listing(r, listCommits), u) > 0)
      && (u in t.contributors ==> t.contributors[u].totalCommits == Some(Ingested(Listing(r, listCommits), u)))
  {
    var s1 := InsertRepoOrIgnore(m, RepoRow(r, now));
    if listCommits(r.name).Listed? {
      BackfillCommitsNewContributor(s1, r.name, listCommits(r.name).commits, now, u);
    }
  }

  /** `u` has a row in `st` exactly when `n` commits of theirs were counted
      into an empty start, and then the row holds `n`. */
  ghost predicate CountedFromNothing(st: Store, u: string, n: nat) {
    && (u in st.contributors <==> n > 0)
    && (u in st.contributors ==> st.contributors[u].totalCommits == Some(n))
  }

  /** The step of `BackfillNewContributor`: one more repository adds its
      listing's count. */
  lemma BackfillRepoCountedFromNothing(m: Store, r: OrgRepo, listCommits: string -> ListResult, now: int, u: string, a: nat)
    requires CountedFromNothing(m, u, a)
    ensures CountedFromNothing(BackfillRepo(m, r, listCommits, now), u, a + Ingested(Listing(r, listCommits), u))
  {
    var t := BackfillRepo(m, r, listCommits, now);
    var b := Ingested(Listing(r, listCommits), u);
    if u in m.contributors {
      BackfillRepoCounter(m, r, listCommits, now, u);
      assert t.contributors[u].totalCommits == SqlAdd(Some(a), b) == Some(a + b);
    } else {
      BackfillRepoNewContributor(m, r, listCommits, now, u);
      assert a == 0;
    }
  }

  /** A first-time author gets a row exactly when the backfill ingests a
      commit of theirs, and the row counts every such commit. */
  lemma {:induction false} BackfillNewContributor(s: Store, rs: seq<OrgRepo>, listCommits: string -> ListResult, now: int, u: string)
    requires u !in s.contributors
    ensures var t := BackfillRepos(s, rs, listCommits, now);
      && (u in t.contributors <==> Ingested(Walked(rs, listCommits), u) > 0)
      && (u in t.contributors ==> t.contributors[u].totalCommits == Some(Ingested(Walked(rs, listCommits), u)))
  {
    BackfillCountedFromNothing(s, rs, listCommits, now, u);
  }

  lemma {:induction false} BackfillCountedFromNothing(s: Store, rs: seq<OrgRepo>, listCommits: string -> ListResult, now: int, u: string)
    requires u !in s.contributors
    ensures CountedFromNothing(BackfillRepos(s, rs, listCommits, now), u, Ingested(Walked(rs, listCommits), u))
  {
    if rs != [] {
      var init := rs[..|rs| - 1];
      var r := rs[|rs| - 1];
      BackfillCountedFromNothing(s, init, listCommits, now, u);
      BackfillRepoCountedFromNothing(BackfillRepos(s, init, listCommits, now), r, listCommits, now, u, Ingested(Walked(init, listCommits), u));
      IngestedAppend(Walked(init, listCommits), Listing(r, listCommits), u);
    }
  }
}

=== FILE: calendar.dfy ===
/** Proleptic Gregorian calendar arithmetic on day numbers (days since
    1970-01-01), standing in for the JavaScript `Date` getters
    `getFullYear`, `getMonth`, `getDate` and `getDay` on a UTC clock. */
module Calendar {

  const SECOND_MS: int := 1000
  const MINUTE_MS: int := 60 * SECOND_MS
  const HOUR_MS: int := 60 * MINUTE_MS
  const DAY_MS: int := 24 * HOUR_MS

  /** Day number of the instant `ms` (milliseconds since the epoch). */
  function DayOf(ms: int): int {
    ms / DAY_MS
  }

  lemma DayOfBounds(ms: int)
    ensures DayOf(ms) * DAY_MS <= ms < DayOf(ms) * DAY_MS + DAY_MS
  {
  }

  lemma DayOfMonotone(a: int, b: int)
    requires a <= b
    ensures DayOf(a) <= DayOf(b)
  {
    DayOfBounds(a);
    DayOfBounds(b);
  }

  /** An instant inside day `d`'s span of milliseconds falls on day `d`. */
  lemma DayOfWithin(ms: int, d: int)
    requires d * DAY_MS <= ms < d * DAY_MS + DAY_MS
    ensures DayOf(ms) == d
  {
    DayOfBounds(ms);
  }

  /** `getDay()`: 0 = Sunday, 1 = Monday, ...; 1970-01-01 was a Thursday. */
  function Weekday(day: int): (wd: int)
    ensures 0 <= wd < 7
  {
    (day + 4) % 7
  }

  lemma WeekdayShift(day: int, k: int)
    requires 0 <= Weekday(day) + k < 7
    ensures Weekday(day + k) == Weekday(day) + k
  {
  }

  /** Counting `k` days on from a weekday lands on the weekday `k` days later. */
  lemma WeekdayAdd(day: int, k: nat)
    ensures (Weekday(day) + k) % 7 == Weekday(day + k)
  {
    var q := (day + 4) / 7;
    assert day + 4 == 7 * q + Weekday(day);
    assert Weekday(day) + k == (day + k + 4) - 7 * q;
    ModMinusMultiple(day + k + 4, q);
  }

  lemma ModMinusMultiple(x: int, q: int)
    ensures (x - 7 * q) % 7 == x % 7
  {
    var r := x % 7;
    assert x == 7 * (x / 7) + r;
    assert x - 7 * q == 7 * (x / 7 - q) + r;
  }

  /** Two days with the same weekday less than a week apart are the same day. */
  lemma SameWeekdayWithinWeek(a: int, b: int)
    requires Weekday(a) == Weekday(b)
    requires a - 7 < b < a + 7
    ensures a == b
  {
    var qa := (a + 4) / 7;
    var qb := (b + 4) / 7;
    assert a + 4 == 7 * qa + Weekday(a);
    assert b + 4 == 7 * qb + Weekday(b);
    assert a - b == 7 * (qa - qb);
  }

  predicate IsLeap(y: int) {
    y % 4 == 0 && (y % 100 != 0 || y % 400 == 0)
  }

  function DaysInYear(y: int): int {
    if IsLeap(y) then 366 else 365
  }

  /** Leap years among 1..n (counted by the same formula for n < 1). */
  function Leaps(n: int): int {
    n / 4 - n / 100 + n / 400
  }

  /** Day number of January 1 of year `y`. */
  function YearStart(y: int): int {
    365 * (y - 1970) + Leaps(y - 1) - Leaps(1969)
  }

  lemma DivStep(y: int, k: int)
    requires k == 4 || k == 100 || k == 400
    ensures y / k - (y - 1) / k == if y % k == 0 then 1 else 0
  {
  }

  /** Consecutive year starts are a year's length apart. */
  lemma YearLength(y: int)
    ensures YearStart(y + 1) - YearStart(y) == DaysInYear(y)
  {
    DivStep(y, 4);
    DivStep(y, 100);
    DivStep(y, 400);
    if y % 100 == 0 {
      assert y % 4 == 0 by {
        assert y == 100 * (y / 100);
        assert y == 4 * (25 * (y / 100));
      }
    }
    if y % 400 == 0 {
      assert y % 100 == 0 by {
        assert y == 400 * (y / 400);
        assert y == 100 * (4 * (y / 400));
      }
    }
  }

  /** The calendar year containing day `d` (`getFullYear()`). */
  function YearOf(d: int): (y: int)
    ensures YearStart(y) <= d < YearStart(y + 1)
  {
    if d >= 0 then YearUp(1970, d) else YearDown(1969, d)
  }

  function YearUp(y: int, d: int): (r: int)
    requires YearStart(y) <= d
    ensures YearStart(r) <= d < YearStart(r + 1)
    decreases d - YearStart(y)
  {
    YearLength(y);
    if d < YearStart(y + 1) then y else YearUp(y + 1, d)
  }

  function YearDown(y: int, d: int): (r: int)
    requires d < YearStart(y + 1)
    ensures YearStart(r) <= d < YearStart(r + 1)
    decreases YearStart(y + 1) - d
  {
    YearLength(y);
    if YearStart(y) <= d then y else YearDown(y - 1, d)
  }

  /** The year is determined by the bracketing year starts. */
  lemma YearOfUnique(d: int, y: int)
    requires YearStart(y) <= d < YearStart(y + 1)
    ensures YearOf(d) == y
  {
    YearBracketUnique(YearOf(d), y, d);
  }

  /** No day lies in two different years. */
  lemma YearBracketUnique(x: int, y: int, d: int)
    requires YearStart(x) <= d < YearStart(x + 1)
    requires YearStart(y) <= d < YearStart(y + 1)
    ensures x == y
  {
    if x < y {
      YearStartMonotone(x + 1, y);
    } else if y < x {
      YearStartMonotone(y + 1, x);
    }
  }

  lemma {:induction false} YearStartMonotone(a: int, b: int)
    requires a <= b
    ensures YearStart(a) <= YearStart(b)
    decreases b - a
  {
    if a < b {
      YearLength(a);
      YearStartMonotone(a + 1, b);
    }
  }

  function MonthLength(y: int, m: int): int
    requires 1 <= m <= 12
  {
    if m == 2 then (if IsLeap(y) then 29 else 28)
    else if m == 4 || m == 6 || m == 9 || m == 11 then 30
    else 31
  }

  /** Days of year `y` before the first of month `m` (month 13 = next year). */
  function DaysBeforeMonth(y: int, m: int): int
    requires 1 <= m <= 13
    decreases m
  {
    if m == 1 then 0 else DaysBeforeMonth(y, m - 1) + MonthLength(y, m - 1)
  }

  lemma MonthsFillYear(y: int)
    ensures DaysBeforeMonth(y, 13) == DaysInYear(y)
  {
  }

  function MonthFrom(y: int, doy: int, m: int): (r: int)
    requires 1 <= m <= 12
    requires DaysBeforeMonth(y, m) <= doy < DaysInYear(y)
    ensures m <= r <= 12
    ensures DaysBeforeMonth(y, r) <= doy < DaysBeforeMonth(y, r + 1)
    decreases 12 - m
  {
    MonthsFillYear(y);
    if doy < DaysBeforeMonth(y, m + 1) then m else MonthFrom(y, doy, m + 1)
  }

  /** Month 1..12 and day of month (`getMonth() + 1`, `getDate()`) of day `d`. */
  function MonthDay(d: int): (md: (int, int))
    ensures 1 <= md.0 <= 12
    ensures 1 <= md.1 <= MonthLength(YearOf(d), md.0)
  {
    var y := YearOf(d);
    var doy := d - YearStart(y);
    YearLength(y);
    var m := MonthFrom(y, doy, 1);
    (m, doy - DaysBeforeMonth(y, m) + 1)
  }
}

=== FILE: feed.dfy ===
/** The activity feed component's filters: by repository, by author and by
    a case-insensitive search in the message, each skipped when it is "all"
    (or an empty query); and the option lists of its two selectors. */
module Feed {
  import opened Wrappers
  import opened Seqs
  import opened Text
  import opened Activity

  const ALL: string := "all"

  predicate RepoMatches(it: Item, repo: string) { it.repo == repo }
  predicate AuthorMatches(it: Item, author: string) { it.author == author }
  predicate MessageMatches(it: Item, query: string) { Contains(ToLower(it.message), ToLower(query)) }

  /** The effect as written: up to three `filter` passes, one per active
      selection, in that order. */
  function Filtered(items: seq<Item>, repo: string, author: string, query: string): seq<Item> {
    var a := if repo != ALL then Filter(items, (it: Item) => RepoMatches(it, repo)) else items;
    var b := if author != ALL then Filter(a, (it: Item) => AuthorMatches(it, author)) else a;
    if query != "" then Filter(b, (it: Item) => MessageMatches(it, query)) else b
  }

  /** An item is kept when it passes every active selection. */
  predicate Keep(it: Item, repo: string, author: string, query: string) {
    && (repo == ALL || RepoMatches(it, repo))
    && (author == ALL || AuthorMatches(it, author))
    && (query == "" || MessageMatches(it, query))
  }

  /** `Filter` over a sequence with one more element. */
  lemma FilterSnoc<T>(xs: seq<T>, x: T, p: T -> bool)
    ensures Filter(xs + [x], p) == Filter(xs, p) + (if p(x) then [x] else [])
  {
    assert (xs + [x])[..|xs|] == xs;
  }

  /** The three passes keep exactly the items that pass every selection, in
      their original order. */
  lemma {:induction false} FilteredKeeps(items: seq<Item>, repo: string, author: string, query: string)
    ensures Filtered(items, repo, author, query) == Filter(items, (it: Item) => Keep(it, repo, author, query))
  {
    var keep := (it: Item) => Keep(it, repo, author, query);
    if items != [] {
      var init := items[..|items| - 1];
      var x := items[|items| - 1];
      assert items == init + [x];
      FilteredKeeps(init, repo, author, query);
      var pr := (it: Item) => RepoMatches(it, repo);
      var pa := (it: Item) => AuthorMatches(it, author);
      var pm := (it: Item) => MessageMatches(it, query);
      var a0 := if repo != ALL then Filter(init, pr) else init;
      var b0 := if author != ALL then Filter(a0, pa) else a0;
      var xa := if repo == ALL || pr(x) then [x] else [];
      var a := if repo != ALL then Filter(items, pr) else items;
      assert a == a0 + xa by {
        if repo != ALL { FilterSnoc(init, x, pr); }
      }
      var xb := if (repo == ALL || pr(x)) && (author == ALL || pa(x)) then [x] else [];
      var b := if author != ALL then Filter(a, pa) else a;
      assert b == b0 + xb by {
        if author != ALL {
          if xa == [] {
            assert a == a0;
          } else {
            FilterSnoc(a0, x, pa);
          }
        }
      }
      if query != "" {
        if xb == [] {
          assert b == b0;
        } else {
          FilterSnoc(b0, x, pm);
        }
      }
      FilterSnoc(init, x, keep);
    }
  }

  /** Each item is kept exactly when it passes every selection, and what is
      kept is an in-order subsequence of the feed. */
  lemma FilteredSpec(items: seq<Item>, repo: string, author: string, query: string)
    ensures var r := Filtered(items, repo, author, query);
      && IsSubsequence(r, items)
      && (forall i :: 0 <= i < |r| ==> Keep(r[i], repo, author, query))
      && (forall i :: 0 <= i < |items| && Keep(items[i], repo, author, query) ==> items[i] in r)
  {
    FilteredKeeps(items, repo, author, query);
  }

  /** With no selection the feed is shown unfiltered. */
  lemma NoSelectionShowsAll(items: seq<Item>)
    ensures Filtered(items, ALL, ALL, "") == items
  {
    FilteredKeeps(items, ALL, ALL, "");
    FilterAll(items, (it: Item) => Keep(it, ALL, ALL, ""));
  }

  function Repos(items: seq<Item>): (r: seq<string>)
    ensures |r| == |items| && forall i :: 0 <= i < |items| ==> r[i] == items[i].repo
  {
    seq(|items|, i requires 0 <= i < |items| => items[i].repo)
  }

  function Authors(items: seq<Item>): (r: seq<string>)
    ensures |r| == |items| && forall i :: 0 <= i < |items| ==> r[i] == items[i].author
  {
    seq(|items|, i requires 0 <= i < |items| => items[i].author)
  }

  /** `["all", ...new Set(values)]` */
  function Options(values: seq<string>): (r: seq<string>)
    ensures |r| >= 1 && r[0] == ALL
    ensures |r| <= |values| + 1
    ensures forall i :: 1 <= i < |r| ==> r[i] in values
  {
    [ALL] + Distinct(values)
  }

  /** After "all", every value is offered, and offered once. */
  lemma OptionsEachOnce(values: seq<string>)
    ensures var r := Options(values);
      && (forall i, j :: 1 <= i < j < |r| ==> r[i] != r[j])
      && (forall i :: 0 <= i < |values| ==> exists k :: 1 <= k < |r| && r[k] == values[i])
  {
    var d := Distinct(values);
    var r := Options(values);
    assert r == [ALL] + d;
    forall i | 0 <= i < |values| ensures exists k :: 1 <= k < |r| && r[k] == values[i] {
      var k :| 0 <= k < |d| && d[k] == values[i];
      assert r[k + 1] == values[i];
    }
  }

  /** The options after "all" list each value in the order the values
      first appear. */
  lemma {:induction false} OptionsFirstOccurrence(values: seq<string>, i: int, j: int)
    requires 1 <= i < j < |Options(values)|
    ensures FirstIndex(values, Options(values)[i]) < FirstIndex(values, Options(values)[j])
  {
    var o := Options(values);
    assert o == [ALL] + Distinct(values);
    DistinctOrderAt(values, i - 1, j - 1, o[i], o[j]);
  }
  // ---- the fetched feed ----

  /** What the component holds in its `activity` state: an item list, or,
      as written, the whole `{items, total, hasMore}` body of the route. */
  datatype Held = Items(items: seq<Item>) | Body(page: Page)

  /** What one render shows: the two option lists and the filtered items. */
  datatype View = View(repoOptions: seq<string>, authorOptions: seq<string>, shown: seq<Item>)

  /** `setActivity(data)` as written (components/ActivityFeed.tsx, line 35):
      a successful fetch stores the response body itself; a failed one
      keeps what was held. */
  function AfterFetchAsWritten(held: Held, fetched: Option<Page>): (r: Held)
    ensures fetched.None? ==> r == held
    ensures fetched.Some? ==> r.Body? && r.page == fetched.value
  {
    match fetched
    case None => held
    case Some(p) => Body(p)
  }

  /** A render as written: `activity.map(...)` on line 72 throws a
      `TypeError` (`None`) when the state is not a list. */
  function RenderAsWritten(held: Held, repo: string, author: string, query: string): (r: Option<View>)
    ensures r.None? <==> held.Body?
    ensures r.Some? ==> r.value.shown == Filter(held.items, (it: Item) => Keep(it, repo, author, query))
  {
    match held
    case Body(_) => None
    case Items(items) => Some(Render(items, repo, author, query))
  }

  /** The first render after any successful fetch throws, whatever page the
      route returned, although the render before it succeeded. */
  lemma FirstFetchThrows(p: Page, repo: string, author: string, query: string)
    ensures RenderAsWritten(Items([]), repo, author, query).Some?
    ensures RenderAsWritten(AfterFetchAsWritten(Items([]), Some(p)), repo, author, query).None?
  {
  }

  /** The fetch as intended: a successful one holds the page's `items`. */
  function AfterFetch(held: seq<Item>, fetched: Option<Page>): (r: seq<Item>)
    ensures fetched.None? ==> r == held
    ensures fetched.Some? ==> r == fetched.value.items
  {
    match fetched
    case None => held
    case Some(p) => p.items
  }

  /** A render of an item list: the options from all items, the items that
      pass every selection. */
  function Render(items: seq<Item>, repo: string, author: string, query: string): (v: View)
    ensures v.shown == Filter(items, (it: Item) => Keep(it, repo, author, query))
    ensures v.repoOptions == Options(Repos(items)) && v.authorOptions == Options(Authors(items))
  {
    FilteredKeeps(items, repo, author, query);
    View(Options(Repos(items)), Options(Authors(items)), Filtered(items, repo, author, query))
  }

  /** With the intended fetch, every successful fetch renders: the feed shows
      exactly the fetched items that pass every selection, in the route's
      order, and offers every fetched repository and author once. */
  lemma FetchedFeedRenders(held: seq<Item>, p: Page, repo: string, author: string, query: string)
    ensures var v := Render(AfterFetch(held, Some(p)), repo, author, query);
      && IsSubsequence(v.shown, p.items)
      && (forall i :: 0 <= i < |v.shown| ==> Keep(v.shown[i], repo, author, query))
      && (forall i :: 0 <= i < |p.items| && Keep(p.items[i], repo, author, query) ==> p.items[i] in v.shown)
      && (forall i :: 0 <= i < |p.items| ==> p.items[i].repo in v.repoOptions && p.items[i].author in v.authorOptions)
  {
    var items := p.items;
    assert AfterFetch(held, Some(p)) == items;
    var v := Render(items, repo, author, query);
    assert v.shown == Filtered(items, repo, author, query) by {
      FilteredKeeps(items, repo, author, query);
    }
    FilteredSpec(items, repo, author, query);
    OptionsOffered(items);
  }

  /** Every item's repository and author are among the options. */
  lemma OptionsOffered(items: seq<Item>)
    ensures forall i :: 0 <= i < |items| ==>
      items[i].repo in Options(Repos(items)) && items[i].author in Options(Authors(items))
  {
    var rs, au := Repos(items), Authors(items);
    OptionsEachOnce(rs);
    OptionsEachOnce(au);
    forall i | 0 <= i < |items|
      ensures items[i].repo in Options(rs) && items[i].author in Options(au)
    {
      assert rs[i] == items[i].repo && au[i] == items[i].author;
    }
  }
}

=== FILE: format.dfy ===
/** `formatNumber` of lib/utils/format.ts, for the integer counts it is given.
    The two branches that print through `toFixed(1)` keep the number and the
    unit; their decimal text is not modelled. */
module Format {
  import opened Text
  import opened Wrappers

  datatype FormattedNumber =
    | Plain(n: int)                 // num.toString()
    | WholeThousands(k: int)        // `${k}k`
    | FractionalThousands(n: int)   // `${(n / 1000).toFixed(1)}k`
    | Millions(n: int)              // `${(n / 1000000).toFixed(1)}M`

  function FormatNumber(num: int): (r: FormattedNumber)
    ensures r.Plain? <==> num < 1000
    ensures r.WholeThousands? <==> 1000 <= num < 1_000_000 && num % 1000 == 0
    ensures r.FractionalThousands? <==> 1000 <= num < 1_000_000 && num % 1000 != 0
    ensures r.Millions? <==> num >= 1_000_000
    ensures r.Plain? ==> r.n == num
    ensures r.WholeThousands? ==> r.k * 1000 == num
    ensures r.FractionalThousands? || r.Millions? ==> r.n == num
  {
    if num >= 1_000_000 then Millions(num)
    else if num >= 1000 then
      // `k % 1 === 0` holds exactly when num / 1000 has no fractional part
      if num % 1000 == 0 then WholeThousands(num / 1000) else FractionalThousands(num)
    else Plain(num)
  }

  /** The text of the two branches that print integers. */
  function Render(f: FormattedNumber): string
    requires f.Plain? || f.WholeThousands?
  {
    match f
    case Plain(n) => DecimalString(n)
    case WholeThousands(k) => DecimalString(k) + "k"
  }

  /** Below 1000 (negatives included) the text is the number itself with no
      suffix: reading it back gives `num`, and it ends in a digit. For whole
      thousands the text is the thousands count followed by "k". */
  lemma FormatNumberReadsBack(num: int)
    requires num < 1_000_000 && (num < 1000 || num % 1000 == 0)
    ensures FormatNumber(num).Plain? ==>
              ParseInt(Render(FormatNumber(num))) == Some(num)
              && IsDigit(Render(FormatNumber(num))[|Render(FormatNumber(num))| - 1])
    ensures FormatNumber(num).WholeThousands? ==>
              ParseInt(Render(FormatNumber(num))) == Some(num / 1000)
              && Render(FormatNumber(num))[|Render(FormatNumber(num))| - 1] == 'k'
  {
    var f := FormatNumber(num);
    if num < 1000 {
      assert Render(f) == DecimalString(num);
      ParseIntDecimalString(num);
      DecimalStringEndsInDigit(num);
    } else {
      var k := num / 1000;
      assert Render(f) == DecimalString(k) + "k";
      ParseIntDecimalWithSuffix(k, "k");
    }
  }

  lemma DecimalStringEndsInDigit(n: int)
    ensures IsDigit(DecimalString(n)[|DecimalString(n)| - 1])
  {
    var m: nat := if n < 0 then -n else n;
    var ds := NatDigits(m);
    assert DecimalString(n)[|DecimalString(n)| - 1] == ds[|ds| - 1];
  }
}

=== FILE: grouping.dfy ===
/** SQL `GROUP BY` over a table given in scan order: the distinct keys, each
    with its row count, and the fact that the groups partition the rows. */
module Grouping {
  import opened Seqs

  /** `count(*)` of the group with key `k`. */
  function CountKey<T, K(==)>(xs: seq<T>, key: T -> K, k: K): nat {
    CountWhere(xs, x => key(x) == k)
  }

  /** A group's count is the count of any test that picks exactly its rows. */
  lemma {:induction false} CountKeyIs<T, K>(xs: seq<T>, key: T -> K, k: K, p: T -> bool)
    requires forall i :: 0 <= i < |xs| ==> p(xs[i]) == (key(xs[i]) == k)
    ensures CountKey(xs, key, k) == CountWhere(xs, p)
  {
    if xs != [] {
      CountKeyIs(xs[..|xs| - 1], key, k, p);
    }
  }

  /** The distinct keys of `xs`, in first-occurrence order. */
  function KeysOf<T, K(==)>(xs: seq<T>, key: T -> K): (ks: seq<K>)
    ensures NoDup(ks)
    ensures forall i :: 0 <= i < |xs| ==> key(xs[i]) in ks
    ensures forall i :: 0 <= i < |ks| ==> exists j :: 0 <= j < |xs| && key(xs[j]) == ks[i]
  {
    var all := seq(|xs|, i requires 0 <= i < |xs| => key(xs[i]));
    var ks := Distinct(all);
    assert forall i :: 0 <= i < |xs| ==> key(xs[i]) in ks by {
      forall i | 0 <= i < |xs| ensures key(xs[i]) in ks {
        assert all[i] == key(xs[i]);
      }
    }
    assert forall i :: 0 <= i < |ks| ==> exists j :: 0 <= j < |xs| && key(xs[j]) == ks[i] by {
      forall i | 0 <= i < |ks| ensures exists j :: 0 <= j < |xs| && key(xs[j]) == ks[i] {
        var j :| 0 <= j < |all| && all[j] == ks[i];
      }
    }
    ks
  }

  /** The total row count of the groups whose key satisfies `g`. */
  function CountsOver<T, K(==)>(keys: seq<K>, xs: seq<T>, key: T -> K, g: K -> bool): nat {
    if keys == [] then 0
    else
      CountsOver(keys[..|keys| - 1], xs, key, g)
      + (if g(keys[|keys| - 1]) then CountKey(xs, key, keys[|keys| - 1]) else 0)
  }

  /** How many entries of `keys` equal `k`. */
  function Occurrences<K(==)>(keys: seq<K>, k: K): nat {
    if keys == [] then 0
    else Occurrences(keys[..|keys| - 1], k) + (if keys[|keys| - 1] == k then 1 else 0)
  }

  lemma {:induction false} OccursOnce<K>(keys: seq<K>, k: K)
    requires NoDup(keys) && k in keys
    ensures Occurrences(keys, k) == 1
  {
    var init := keys[..|keys| - 1];
    if keys[|keys| - 1] == k {
      assert k !in init;
      OccurrencesAbsent(init, k);
    } else {
      var i :| 0 <= i < |keys| && keys[i] == k;
      assert init[i] == k;
      OccursOnce(init, k);
    }
  }

  lemma {:induction false} OccurrencesAbsent<K>(keys: seq<K>, k: K)
    requires k !in keys
    ensures Occurrences(keys, k) == 0
  {
    if keys != [] {
      assert forall i :: 0 <= i < |keys| - 1 ==> keys[..|keys| - 1][i] == keys[i];
      OccurrencesAbsent(keys[..|keys| - 1], k);
    }
  }

  /** One more row adds one to its own group and to no other. */
  lemma {:induction false} CountsOverSnoc<T, K>(keys: seq<K>, xs: seq<T>, x: T, key: T -> K, g: K -> bool)
    ensures CountsOver(keys, xs + [x], key, g)
         == CountsOver(keys, xs, key, g) + (if g(key(x)) then Occurrences(keys, key(x)) else 0)
  {
    if keys != [] {
      var k := keys[|keys| - 1];
      CountsOverSnoc(keys[..|keys| - 1], xs, x, key, g);
      assert (xs + [x])[..|xs|] == xs;
      assert CountKey(xs + [x], key, k) == CountKey(xs, key, k) + (if key(x) == k then 1 else 0);
    }
  }

  /** Groups with distinct keys that cover every row partition the rows:
      the counts of the groups whose key satisfies `g` add up to the number
      of rows whose key satisfies it (`p` is that test on a row). */
  lemma {:induction false} CountsPartition<T, K>(keys: seq<K>, xs: seq<T>, key: T -> K, g: K -> bool, p: T -> bool)
    requires NoDup(keys)
    requires forall i :: 0 <= i < |xs| ==> key(xs[i]) in keys
    requires forall i :: 0 <= i < |xs| ==> p(xs[i]) == g(key(xs[i]))
    ensures CountsOver(keys, xs, key, g) == CountWhere(xs, p)
  {
    if xs == [] {
      CountsOverEmpty(keys, xs, key, g);
    } else {
      var init := xs[..|xs| - 1];
      var x := xs[|xs| - 1];
      assert xs == init + [x];
      assert forall i :: 0 <= i < |init| ==> init[i] == xs[i];
      CountsPartition(keys, init, key, g, p);
      CountsOverSnoc(keys, init, x, key, g);
      OccursOnce(keys, key(x));
    }
  }

  lemma {:induction false} CountsOverEmpty<T, K>(keys: seq<K>, xs: seq<T>, key: T -> K, g: K -> bool)
    requires xs == []
    ensures CountsOver(keys, xs, key, g) == 0
  {
    if keys != [] {
      CountsOverEmpty(keys[..|keys| - 1], xs, key, g);
    }
  }
}

=== FILE: heatmap.dfy ===
/** `GET /api/heatmap`: one entry per day of 2026, each with the number of
    commits pushed that (UTC) day, days without commits included with 0. A
    date is its day number; `toISOString` is not modelled. */
module HeatmapRoute {
  import opened Schema
  import opened Seqs
  import opened Grouping
  import opened Windows
  import opened Calendar

  const HEATMAP_YEAR: int := 2026

  /** One element of the response. */
  datatype HeatDay = HeatDay(date: int, count: int)

  /** One row of the `GROUP BY date(pushed_at)` query. */
  datatype DayCount = DayCount(day: int, count: nat)

  /** `new Date(2026, 0, 1)`, as a day number. */
  function FirstDay(): int {
    YearStart(HEATMAP_YEAR)
  }

  /** How many days the fill loop visits: January 1 through December 31. */
  function DaysInRange(): int {
    YearStart(HEATMAP_YEAR + 1) - YearStart(HEATMAP_YEAR)
  }

  lemma DaysInRangeIs365()
    ensures DaysInRange() == 365
  {
    YearLength(HEATMAP_YEAR);
  }

  function CommitDay(c: Commit): int {
    DayOf(c.pushedAt)
  }

  function DayGroupsOf(keys: seq<int>, sel: seq<Commit>): (g: seq<DayCount>)
    ensures |g| == |keys|
    ensures forall i :: 0 <= i < |g| ==> g[i] == DayCount(keys[i], CountKey(sel, CommitDay, keys[i]))
  {
    if keys == [] then []
    else DayGroupsOf(keys[..|keys| - 1], sel) + [DayCount(keys[|keys| - 1], CountKey(sel, CommitDay, keys[|keys| - 1]))]
  }

  /** The grouped query over the commits pushed since the first day. */
  function DailyGroups(rows: seq<Commit>): seq<DayCount> {
    var sel := Selected(rows, Since(FirstDay() * DAY_MS));
    DayGroupsOf(KeysOf(sel, CommitDay), sel)
  }

  /** `heatmapData[date] || 0`: the count the loop stored last for the day,
      or 0. */
  function Lookup(groups: seq<DayCount>, d: int): nat {
    if groups == [] then 0
    else if groups[|groups| - 1].day == d then groups[|groups| - 1].count
    else Lookup(groups[..|groups| - 1], d)
  }

  /** The zero-filled series over the grouped rows. */
  function Fill(groups: seq<DayCount>): seq<HeatDay> {
    seq(DaysInRange(), i requires 0 <= i < DaysInRange() => HeatDay(FirstDay() + i, Lookup(groups, FirstDay() + i)))
  }

  function GetHeatmap(rows: seq<Commit>): seq<HeatDay> {
    Fill(DailyGroups(rows))
  }

  /** Commits pushed on day `d`. */
  function CommitsOn(rows: seq<Commit>, d: int): nat {
    CountWhere(rows, (c: Commit) => DayOf(c.pushedAt) == d)
  }

  /** Commits pushed on a day in `[lo, hi)`. */
  function CommitsBetween(rows: seq<Commit>, lo: int, hi: int): nat {
    CountWhere(rows, (c: Commit) => lo <= DayOf(c.pushedAt) < hi)
  }

  lemma {:induction false} LookupGroups(keys: seq<int>, sel: seq<Commit>, d: int)
    ensures Lookup(DayGroupsOf(keys, sel), d) == if d in keys then CountKey(sel, CommitDay, d) else 0
  {
    if keys != [] {
      var g := DayGroupsOf(keys, sel);
      var init := keys[..|keys| - 1];
      assert g[..|g| - 1] == DayGroupsOf(init, sel);
      LookupGroups(init, sel, d);
      assert d in keys <==> d in init || d == keys[|keys| - 1];
    }
  }

  /** The looked-up count of a day in range is the number of commits that
      day, whether or not the query returned a row for it. */
  lemma DayCountIsCommits(rows: seq<Commit>, d: int)
    requires d >= FirstDay()
    ensures Lookup(DailyGroups(rows), d) == CommitsOn(rows, d)
  {
    var from := FirstDay() * DAY_MS;
    var inWindow := (c: Commit) => InWindow(Since(from), c.pushedAt);
    var sel := Selected(rows, Since(from));
    var key := CommitDay;
    var keys := KeysOf(sel, key);
    var onDay := (c: Commit) => CommitDay(c) == d;
    assert Lookup(DailyGroups(rows), d) == CountWhere(sel, onDay) by {
      LookupGroups(keys, sel, d);
      CountKeyIs(sel, key, d, onDay);
      if d !in keys {
        forall i | 0 <= i < |sel| ensures !onDay(sel[i]) {
          assert key(sel[i]) in keys;
        }
      }
    }
    assert CountWhere(sel, onDay) == CommitsOn(rows, d) by {
      forall i | 0 <= i < |rows|
        ensures (DayOf(rows[i].pushedAt) == d) == (inWindow(rows[i]) && onDay(rows[i]))
      {
        DayOfBounds(rows[i].pushedAt);
      }
      CountWhereFilter(rows, inWindow, onDay, (c: Commit) => DayOf(c.pushedAt) == d);
    }
  }

  /** One entry per day from January 1 to December 31, 2026, in order,
      each with that day's number of commits. */
  lemma HeatmapShape(rows: seq<Commit>)
    ensures var r := GetHeatmap(rows);
      && |r| == 365
      && (forall i :: 0 <= i < |r| ==> r[i].date == YearStart(HEATMAP_YEAR) + i)
      && (forall i :: 0 <= i < |r| ==> r[i].count == CommitsOn(rows, r[i].date))
  {
    var g := DailyGroups(rows);
    forall d | d >= FirstDay() ensures Lookup(g, d) == CommitsOn(rows, d) {
      DayCountIsCommits(rows, d);
    }
    FillShape(g, rows);
  }

  lemma FillShape(groups: seq<DayCount>, rows: seq<Commit>)
    requires forall d :: d >= FirstDay() ==> Lookup(groups, d) == CommitsOn(rows, d)
    ensures var r := Fill(groups);
      && |r| == 365
      && (forall i :: 0 <= i < |r| ==> r[i].date == YearStart(HEATMAP_YEAR) + i)
      && (forall i :: 0 <= i < |r| ==> r[i].count == CommitsOn(rows, r[i].date))
  {
    DaysInRangeIs365();
  }

  /** `data.reduce((sum, d) => sum + d.count, 0)` */
  function TotalCount(days: seq<HeatDay>): int {
    SumOf(days, (h: HeatDay) => h.count)
  }

  lemma {:induction false} PrefixTotal(rows: seq<Commit>, n: nat)
    requires n <= DaysInRange()
    ensures TotalCount(GetHeatmap(rows)[..n]) == CommitsBetween(rows, FirstDay(), FirstDay() + n)
  {
    var r := GetHeatmap(rows);
    var lo := FirstDay();
    if n == 0 {
      assert CommitsBetween(rows, lo, lo) == 0;
    } else {
      PrefixTotal(rows, n - 1);
      PrefixTotalStep(rows, n);
      CommitsBetweenStep(rows, lo, lo + n - 1);
    }
  }

  /** One more day of the series adds that day's commits. */
  lemma {:induction false} PrefixTotalStep(rows: seq<Commit>, n: nat)
    requires 1 <= n <= DaysInRange()
    ensures TotalCount(GetHeatmap(rows)[..n]) == TotalCount(GetHeatmap(rows)[..n - 1]) + CommitsOn(rows, FirstDay() + n - 1)
  {
    var r := GetHeatmap(rows);
    var d := FirstDay() + n - 1;
    assert r[..n][..n - 1] == r[..n - 1];
    assert TotalCount(r[..n]) == TotalCount(r[..n - 1]) + r[n - 1].count;
    assert r[n - 1].count == Lookup(DailyGroups(rows), d);
    DayCountIsCommits(rows, d);
  }

  /** Widening the range by one day adds that day's commits. */
  lemma {:induction false} CommitsBetweenStep(rows: seq<Commit>, lo: int, d: int)
    requires lo <= d
    ensures CommitsBetween(rows, lo, d + 1) == CommitsBetween(rows, lo, d) + CommitsOn(rows, d)
  {
    CountWhereSplit(rows, (c: Commit) => lo <= DayOf(c.pushedAt) < d,
                    (c: Commit) => DayOf(c.pushedAt) == d,
                    (c: Commit) => lo <= DayOf(c.pushedAt) < d + 1);
  }

  /** The counts add up to the number of commits pushed in 2026. */
  lemma HeatmapTotal(rows: seq<Commit>)
    ensures TotalCount(GetHeatmap(rows)) == CommitsBetween(rows, YearStart(HEATMAP_YEAR), YearStart(HEATMAP_YEAR + 1))
  {
    var r := GetHeatmap(rows);
    PrefixTotal(rows, |r|);
    assert r[..|r|] == r;
  }
}

/** The heatmap component's pure helpers: the colour bucket of a count, the
    grid of week columns (Sunday on top) padded so that the first day sits in
    its weekday's row, and the month label over a column. The browser's UTC
    offset is the parameter `tz` (milliseconds); `Date` parses a date-only
    string as UTC midnight and its getters read local time. */
module HeatmapView {
  import opened Wrappers
  import opened Seqs
  import opened Calendar
  import opened HeatmapRoute

  /** `getIntensity`: 0 for none, then 1, 2–5, 6–15, 16–30 and more than
      30; a negative count falls into the 2–5 bucket. */
  function Intensity(count: int): (level: nat)
    ensures level <= 5
  {
    if count == 0 then 0
    else if count == 1 then 1
    else if count <= 5 then 2
    else if count <= 15 then 3
    else if count <= 30 then 4
    else 5
  }

  /** More commits never look lighter; only a day without commits gets the
      empty colour, and only one commit the lightest. */
  lemma IntensityMonotone(a: int, b: int)
    requires 0 <= a <= b
    ensures Intensity(a) <= Intensity(b)
    ensures Intensity(a) == 0 <==> a == 0
    ensures Intensity(a) == 1 <==> a == 1
    ensures Intensity(a) == 5 <==> a > 30
  {
  }

  /** A grid cell: the `{date: "", count: -1}` placeholder or a day. */
  datatype Cell = Pad | Day(date: int, count: int)

  /** The day number the browser's local getters see for a date string. */
  function LocalDay(date: int, tz: int): int {
    DayOf(date * DAY_MS + tz)
  }

  /** `firstDate.getDay()` as written: the first date parsed as UTC midnight
      and read in local time (`now` when there is no data). */
  function PaddingAsWritten(data: seq<HeatDay>, now: int, tz: int): (pad: int)
    ensures 0 <= pad < 7
  {
    if |data| > 0 then Weekday(LocalDay(data[0].date, tz)) else Weekday(DayOf(now + tz))
  }

  /** The padding the grid needs: the weekday of the first date itself. */
  function Padding(data: seq<HeatDay>, now: int, tz: int): (pad: int)
    ensures 0 <= pad < 7
  {
    if |data| > 0 then Weekday(data[0].date) else Weekday(DayOf(now + tz))
  }

  function Padded(data: seq<HeatDay>, pad: nat): (r: seq<Cell>)
    ensures |r| == pad + |data|
    ensures forall k :: 0 <= k < pad ==> r[k] == Pad
    ensures forall k :: 0 <= k < |data| ==> r[pad + k] == Day(data[k].date, data[k].count)
  {
    seq(pad, _ => Pad) + seq(|data|, k requires 0 <= k < |data| => Day(data[k].date, data[k].count))
  }

  /** `slice(i, i + 7)` for `i = 0, 7, 14, ...` */
  function Chunks(xs: seq<Cell>): (weeks: seq<seq<Cell>>)
    decreases |xs|
  {
    if |xs| <= 7 then (if xs == [] then [] else [xs])
    else [xs[..7]] + Chunks(xs[7..])
  }

  function Flatten(weeks: seq<seq<Cell>>): seq<Cell> {
    if weeks == [] then [] else weeks[0] + Flatten(weeks[1..])
  }

  /** Every column has one to seven cells, all but the last exactly seven,
      there are ceil(n/7) of them, and read in order they give back the
      padded data. */
  lemma {:induction false} ChunksShape(xs: seq<Cell>)
    ensures var w := Chunks(xs);
      && |w| == (|xs| + 6) / 7
      && (forall i :: 0 <= i < |w| ==> 1 <= |w[i]| <= 7)
      && (forall i :: 0 <= i < |w| - 1 ==> |w[i]| == 7)
      && Flatten(w) == xs
    decreases |xs|
  {
    if |xs| > 7 {
      ChunksShape(xs[7..]);
      var w := Chunks(xs);
      assert w[1..] == Chunks(xs[7..]);
      assert xs[..7] + xs[7..] == xs;
    } else if xs != [] {
      assert Flatten([xs]) == xs + Flatten([]);
    }
  }

  /** Cell `k` of the padded data is row `k % 7` of column `k / 7`. */
  lemma {:induction false} ChunksIndex(xs: seq<Cell>, k: nat)
    requires k < |xs|
    ensures var w := Chunks(xs); k / 7 < |w| && k % 7 < |w[k / 7]| && w[k / 7][k % 7] == xs[k]
    decreases |xs|
  {
    var w := Chunks(xs);
    if |xs| <= 7 {
      assert w == [xs];
    } else {
      var rest := Chunks(xs[7..]);
      assert w == [xs[..7]] + rest;
      if k >= 7 {
        ChunksIndex(xs[7..], k - 7);
        var q := k / 7;
        assert (k - 7) / 7 == q - 1 && (k - 7) % 7 == k % 7;
        assert w[q] == rest[q - 1];
      }
    }
  }

  /** `groupByWeeks`, with the padding the grid needs (`Padding`, not
      `PaddingAsWritten`): columns of one to seven cells that read back as
      the days behind that many placeholders. */
  function GroupByWeeks(data: seq<HeatDay>, now: int, tz: int): (weeks: seq<seq<Cell>>)
    ensures |weeks| == (Padding(data, now, tz) + |data| + 6) / 7
    ensures forall i :: 0 <= i < |weeks| ==> 1 <= |weeks[i]| <= 7
    ensures Flatten(weeks) == Padded(data, Padding(data, now, tz))
  {
    var xs := Padded(data, Padding(data, now, tz));
    ChunksShape(xs);
    Chunks(xs)
  }

  /** Dates one day apart, as the route returns them. */
  ghost predicate Consecutive(data: seq<HeatDay>) {
    forall k :: 0 <= k < |data| ==> data[k].date == data[0].date + k
  }

  /** Every day lands in the row of its own weekday. */
  lemma DaysInWeekdayRows(data: seq<HeatDay>, now: int, tz: int, k: nat)
    requires Consecutive(data) && k < |data|
    ensures var pad := Padding(data, now, tz);
      var w := GroupByWeeks(data, now, tz);
      && (pad + k) / 7 < |w| && (pad + k) % 7 < |w[(pad + k) / 7]|
      && w[(pad + k) / 7][(pad + k) % 7] == Day(data[k].date, data[k].count)
      && (pad + k) % 7 == Weekday(data[k].date)
  {
    var pad := Padding(data, now, tz);
    var xs := Padded(data, pad);
    ChunksIndex(xs, pad + k);
    assert xs[pad + k] == Day(data[k].date, data[k].count);
    assert data[k].date == data[0].date + k;
    WeekdayAdd(data[0].date, k);
  }

  /** A browser five hours behind UTC reads 2026-01-01 as Wednesday, so as
      written January 1 (a Thursday) would be drawn in the Wednesday row. */
  lemma PaddingAsWrittenOffByOne()
    ensures var data := [HeatDay(YearStart(2026), 0)];
      var tz := -5 * HOUR_MS;
      && Weekday(data[0].date) == 4
      && PaddingAsWritten(data, 0, tz) == 3
      && PaddingAsWritten(data, 0, tz) != Weekday(data[0].date)
  {
    var d := YearStart(2026);
    assert d == 20454;
    assert LocalDay(d, -5 * HOUR_MS) == d - 1;
  }

  /** The first cell that is not a placeholder (`week.find(d => d.date !== "")`). */
  function FirstDayCell(week: seq<Cell>): (r: Option<Cell>)
    ensures r.Some? ==> r.value.Day? && r.value in week
    ensures r.None? <==> forall i :: 0 <= i < |week| ==> week[i] == Pad
    ensures r.Some? ==> exists i :: 0 <= i < |week| && week[i] == r.value && forall j :: 0 <= j < i ==> week[j] == Pad
  {
    if week == [] then None
    else if week[0].Day? then Some(week[0])
    else FirstDayCell(week[1..])
  }

  /** `getMonthLabel`: the month (1..12) of the column's first day, shown on
      the first column and on any column whose first day falls on the 1st
      to the 7th of its month. */
  function MonthLabel(weeks: seq<seq<Cell>>, weekIndex: nat, tz: int): (month: Option<int>)
    ensures weekIndex >= |weeks| ==> month.None?
    ensures weekIndex < |weeks| && (forall i :: 0 <= i < |weeks[weekIndex]| ==> weeks[weekIndex][i] == Pad) ==> month.None?
    ensures month.Some? ==> 1 <= month.value <= 12
    ensures month.Some? ==> exists c :: c in weeks[weekIndex] && c.Day? && MonthDay(LocalDay(c.date, tz)).0 == month.value
    ensures weekIndex == 0 && |weeks| > 0 && (exists i :: 0 <= i < |weeks[0]| && weeks[0][i].Day?) ==> month.Some?
    ensures month.Some? <==>
      && weekIndex < |weeks|
      && FirstDayCell(weeks[weekIndex]).Some?
      && (weekIndex == 0 || MonthDay(LocalDay(FirstDayCell(weeks[weekIndex]).value.date, tz)).1 <= 7)
    ensures month.Some? ==> month.value == MonthDay(LocalDay(FirstDayCell(weeks[weekIndex]).value.date, tz)).0
  {
    if weekIndex >= |weeks| then None
    else
      match FirstDayCell(weeks[weekIndex])
      case None => None
      case Some(c) =>
        var md := MonthDay(LocalDay(c.date, tz));
        if md.1 <= 7 || weekIndex == 0 then Some(md.0) else None
  }
}

=== FILE: leaderboard.dfy ===
/** The leaderboard query shared by the rolling leaderboard route and the
    weekly snapshot: commits since a start instant, grouped by
    (author username, author avatar), with the row count and both line-count
    sums per group, ten groups with the most commits first. */
module Leaderboard {
  import opened Wrappers
  import opened Schema
  import opened Seqs
  import opened Sorting
  import opened Grouping
  import opened Windows
  import Calendar

  const LIMIT: nat := 10

  /** The grouping key: the same username with two avatars is two groups. */
  datatype AuthorKey = AuthorKey(username: string, avatarUrl: Option<string>)

  datatype Member = Member(username: string, avatarUrl: Option<string>, commits: nat, additions: int, deletions: int)

  function AuthorOf(c: Commit): AuthorKey {
    AuthorKey(c.authorUsername, c.authorAvatarUrl)
  }

  /** `count(*)` and the two `coalesce(sum(..), 0)` of one group. */
  function Aggregate(sel: seq<Commit>, k: AuthorKey): Member {
    var own := Filter(sel, (c: Commit) => AuthorOf(c) == k);
    Member(k.username, k.avatarUrl, CountKey(sel, AuthorOf, k),
           SumOf(own, (c: Commit) => c.additions.GetOr(0)),
           SumOf(own, (c: Commit) => c.deletions.GetOr(0)))
  }

  function KeyOfMember(m: Member): AuthorKey {
    AuthorKey(m.username, m.avatarUrl)
  }

  function GroupsOf(keys: seq<AuthorKey>, sel: seq<Commit>): (g: seq<Member>)
    ensures |g| == |keys|
    ensures forall i :: 0 <= i < |g| ==> g[i] == Aggregate(sel, keys[i]) && KeyOfMember(g[i]) == keys[i]
  {
    if keys == [] then [] else GroupsOf(keys[..|keys| - 1], sel) + [Aggregate(sel, keys[|keys| - 1])]
  }

  /** The `GROUP BY` result over the selected rows (before ordering). */
  function Grouped(sel: seq<Commit>): seq<Member> {
    GroupsOf(KeysOf(sel, AuthorOf), sel)
  }

  /** Every group is the aggregate of its own key, has at least one commit,
      and no key is grouped twice. */
  lemma GroupedShape(sel: seq<Commit>)
    ensures var g := Grouped(sel);
      && (forall i :: 0 <= i < |g| ==> g[i] == Aggregate(sel, KeyOfMember(g[i])) && g[i].commits > 0)
      && (forall i, j :: 0 <= i < |g| && 0 <= j < |g| && i != j ==> KeyOfMember(g[i]) != KeyOfMember(g[j]))
  {
    var key := AuthorOf;
    var keys := KeysOf(sel, key);
    forall i | 0 <= i < |keys| ensures exists j :: 0 <= j < |sel| && AuthorOf(sel[j]) == keys[i] {
      var j :| 0 <= j < |sel| && key(sel[j]) == keys[i];
      assert AuthorOf(sel[j]) == keys[i];
    }
    GroupsShape(keys, sel);
    assert Grouped(sel) == GroupsOf(keys, sel);
  }

  /** Every selected row has its group. */
  lemma GroupedCoversRow(sel: seq<Commit>, c: Commit)
    requires c in sel
    ensures exists j :: 0 <= j < |Grouped(sel)| && KeyOfMember(Grouped(sel)[j]) == AuthorOf(c)
  {
    var key := AuthorOf;
    var keys := KeysOf(sel, key);
    var i :| 0 <= i < |sel| && sel[i] == c;
    assert key(sel[i]) in keys;
    var j :| 0 <= j < |keys| && keys[j] == AuthorOf(c);
    var g := GroupsOf(keys, sel);
    assert KeyOfMember(g[j]) == AuthorOf(c);
    assert Grouped(sel) == g;
  }

  lemma GroupsShape(keys: seq<AuthorKey>, sel: seq<Commit>)
    requires NoDup(keys)
    requires forall i :: 0 <= i < |keys| ==> exists j :: 0 <= j < |sel| && AuthorOf(sel[j]) == keys[i]
    ensures var g := GroupsOf(keys, sel);
      && (forall i :: 0 <= i < |g| ==> g[i] == Aggregate(sel, KeyOfMember(g[i])) && g[i].commits > 0)
      && (forall i, j :: 0 <= i < |g| && 0 <= j < |g| && i != j ==> KeyOfMember(g[i]) != KeyOfMember(g[j]))
  {
    var g := GroupsOf(keys, sel);
    forall i | 0 <= i < |g| ensures g[i].commits > 0 {
      var j :| 0 <= j < |sel| && AuthorOf(sel[j]) == keys[i];
      CountPositive(sel, keys[i], j);
    }
  }

  lemma CountPositive(sel: seq<Commit>, k: AuthorKey, j: nat)
    requires j < |sel| && AuthorOf(sel[j]) == k
    ensures CountKey(sel, AuthorOf, k) > 0
  {
  }

  function TotalCommits(g: seq<Member>): int {
    SumOf(g, (m: Member) => m.commits)
  }

  lemma {:induction false} TotalOfGroups(keys: seq<AuthorKey>, sel: seq<Commit>)
    ensures TotalCommits(GroupsOf(keys, sel)) == CountsOver(keys, sel, AuthorOf, (k: AuthorKey) => true)
  {
    if keys != [] {
      TotalOfGroups(keys[..|keys| - 1], sel);
    }
  }

  /** The groups partition the selected rows: their counts add up to the
      number of rows. */
  lemma GroupsPartitionRows(sel: seq<Commit>)
    ensures TotalCommits(Grouped(sel)) == |sel|
  {
    var keys := KeysOf(sel, AuthorOf);
    var any := (c: Commit) => true;
    TotalOfGroups(keys, sel);
    CountsPartition(keys, sel, AuthorOf, (k: AuthorKey) => true, any);
    FilterAll(sel, any);
  }

  function CommitsKey(m: Member): (int, int) {
    (m.commits, 0)
  }

  /** `ORDER BY count(*) DESC LIMIT 10` over the groups of the rows pushed at
      or after `from`. */
  function TopMembers(rows: seq<Commit>, from: int): (r: seq<Member>)
    ensures |r| == Min(LIMIT, |Grouped(Selected(rows, Since(from)))|)
    ensures SortedDesc(r, CommitsKey)
    ensures multiset(r) <= multiset(Grouped(Selected(rows, Since(from))))
  {
    TopN(Grouped(Selected(rows, Since(from))), CommitsKey, LIMIT)
  }

  /** No group left out of the list has more commits than a listed member. */
  lemma TopMembersDominate(rows: seq<Commit>, from: int)
    ensures var r := TopMembers(rows, from);
      var g := Grouped(Selected(rows, Since(from)));
      forall i, m :: 0 <= i < |r| && m in multiset(g) - multiset(r) ==> r[i].commits >= m.commits
  {
    TopDominates(Grouped(Selected(rows, Since(from))), TopMembers(rows, from));
  }

  lemma TopDominates(g: seq<Member>, r: seq<Member>)
    requires r == TopN(g, CommitsKey, LIMIT)
    ensures forall i, m :: 0 <= i < |r| && m in multiset(g) - multiset(r) ==> r[i].commits >= m.commits
  {
    forall i, m | 0 <= i < |r| && m in multiset(g) - multiset(r) ensures r[i].commits >= m.commits {
      assert KeyGe(CommitsKey(r[i]), CommitsKey(m));
    }
  }

  /** Each listed member carries the count and sums of exactly the rows in
      the window with its username and avatar; no member is listed twice. */
  lemma TopMembersAreGroups(rows: seq<Commit>, from: int)
    ensures var r := TopMembers(rows, from);
      var sel := Selected(rows, Since(from));
      && (forall i :: 0 <= i < |r| ==> r[i] == Aggregate(sel, KeyOfMember(r[i])) && r[i].commits > 0)
      && (forall i, j :: 0 <= i < j < |r| ==> KeyOfMember(r[i]) != KeyOfMember(r[j]))
  {
    SubGroupsAreGroups(Selected(rows, Since(from)), TopMembers(rows, from));
  }

  /** Any sub-multiset of the groups of `sel` holds aggregates of `sel`
      under pairwise different keys. */
  lemma SubGroupsAreGroups(sel: seq<Commit>, r: seq<Member>)
    requires multiset(r) <= multiset(Grouped(sel))
    ensures forall i :: 0 <= i < |r| ==> r[i] == Aggregate(sel, KeyOfMember(r[i])) && r[i].commits > 0
    ensures forall i, j :: 0 <= i < j < |r| ==> KeyOfMember(r[i]) != KeyOfMember(r[j])
  {
    var g := Grouped(sel);
    GroupedShape(sel);
    AggregatesInSubMultiset(r, g, sel);
    forall i, j | 0 <= i < j < |r| ensures KeyOfMember(r[i]) != KeyOfMember(r[j]) {
      DistinctInSubMultiset(r, g, i, j);
    }
  }

  lemma AggregatesInSubMultiset(r: seq<Member>, g: seq<Member>, sel: seq<Commit>)
    requires multiset(r) <= multiset(g)
    requires forall k :: 0 <= k < |g| ==> g[k] == Aggregate(sel, KeyOfMember(g[k])) && g[k].commits > 0
    ensures forall i :: 0 <= i < |r| ==> r[i] == Aggregate(sel, KeyOfMember(r[i])) && r[i].commits > 0
  {
    forall i | 0 <= i < |r| ensures r[i] == Aggregate(sel, KeyOfMember(r[i])) && r[i].commits > 0 {
      assert r[i] in multiset(r);
      var k :| 0 <= k < |g| && g[k] == r[i];
    }
  }

  /** Two positions of a sub-multiset of a key-distinct list hold different keys. */
  lemma DistinctInSubMultiset(r: seq<Member>, g: seq<Member>, i: nat, j: nat)
    requires multiset(r) <= multiset(g)
    requires forall a, b :: 0 <= a < |g| && 0 <= b < |g| && a != b ==> KeyOfMember(g[a]) != KeyOfMember(g[b])
    requires i < j < |r|
    ensures KeyOfMember(r[i]) != KeyOfMember(r[j])
  {
    assert NoDup(g);
    NoDupMultiplicity(g, r[i]);
    TwoPositions(r, i, j);
    assert r[i] != r[j];
    assert r[i] in multiset(r) && r[j] in multiset(r);
    var a :| 0 <= a < |g| && g[a] == r[i];
    var b :| 0 <= b < |g| && g[b] == r[j];
  }

  /** `GET /api/leaderboard`: the rolling seven days before `now`. */
  function RollingLeaderboard(rows: seq<Commit>, now: int): (r: seq<Member>)
    ensures |r| <= LIMIT
    ensures forall i, j :: 0 <= i < j < |r| ==> r[i].commits >= r[j].commits
  {
    var r := TopMembers(rows, now - 7 * Calendar.DAY_MS);
    CommitsDescending(r);
    r
  }

  lemma CommitsDescending(r: seq<Member>)
    requires SortedDesc(r, CommitsKey)
    ensures forall i, j :: 0 <= i < j < |r| ==> r[i].commits >= r[j].commits
  {
    forall i, j | 0 <= i < j < |r| ensures r[i].commits >= r[j].commits {
      assert KeyGe(CommitsKey(r[i]), CommitsKey(r[j]));
    }
  }
}

/** `POST /api/leaderboard/snapshot`: store the current Lima week's
    leaderboard in `weekly_leaderboards`, ranked 1..N. */
module Snapshot {
  import opened Wrappers
  import opened Schema
  import opened Seqs
  import opened Leaderboard
  import PeruTime
  import Sorting

  datatype SnapshotResponse =
    | NoCommitsThisWeek
    | Saved(year: int, week: int, members: nat)

  /** The rows inserted for `members` in order; `firstId` is the next value
      of the serial `id` sequence. */
  function SnapshotRows(members: seq<Member>, yw: PeruTime.YearWeek, now: int, firstId: int): (r: seq<WeeklyEntry>)
    ensures |r| == |members|
    ensures forall i :: 0 <= i < |r| ==>
      && r[i].rank == i + 1 && r[i].id == firstId + i
      && r[i].year == yw.year && r[i].week == yw.week
      && r[i].username == members[i].username && r[i].avatarUrl == members[i].avatarUrl
      && r[i].commits == members[i].commits
      && r[i].additions == Some(members[i].additions) && r[i].deletions == Some(members[i].deletions)
  {
    seq(|members|, i requires 0 <= i < |members| =>
      WeeklyEntry(firstId + i, yw.year, yw.week, members[i].username, members[i].avatarUrl,
                  members[i].commits, Some(members[i].additions), Some(members[i].deletions), i + 1, now))
  }

  /** Rows built from a leaderboard sorted by commits keep that order. */
  lemma SnapshotRowsOrdered(members: seq<Member>, yw: PeruTime.YearWeek, now: int, firstId: int)
    requires Sorting.SortedDesc(members, CommitsKey)
    ensures var r := SnapshotRows(members, yw, now, firstId);
      forall i, j :: 0 <= i < j < |r| ==> r[i].commits >= r[j].commits
  {
    var r := SnapshotRows(members, yw, now, firstId);
    forall i, j | 0 <= i < j < |r| ensures r[i].commits >= r[j].commits {
      assert Sorting.KeyGe(CommitsKey(members[i]), CommitsKey(members[j]));
    }
  }

  /** Writing a leaderboard for week `yw`: nothing for an empty board,
      otherwise its ranked rows are appended. */
  function AppendSnapshot(s: Store, members: seq<Member>, yw: PeruTime.YearWeek, now: int, firstId: int): (SnapshotResponse, Store) {
    if members == [] then (NoCommitsThisWeek, s)
    else (Saved(yw.year, yw.week, |members|), s.(weekly := s.weekly + SnapshotRows(members, yw, now, firstId)))
  }

  /** Appending a sorted board of at most ten members keeps the stored rows
      and adds one ranked row per member, best first. */
  lemma SnapshotOfBoard(s: Store, members: seq<Member>, yw: PeruTime.YearWeek, now: int, firstId: int, out: (SnapshotResponse, Store))
    requires Sorting.SortedDesc(members, CommitsKey) && |members| <= LIMIT
    requires out == AppendSnapshot(s, members, yw, now, firstId)
    ensures (out.0.NoCommitsThisWeek? <==> members == [])
      && (out.0.NoCommitsThisWeek? ==> out.1 == s)
      && |s.weekly| <= |out.1.weekly| && out.1.weekly[..|s.weekly|] == s.weekly
      && (out.0.Saved? ==>
            var added := out.1.weekly[|s.weekly|..];
            && out.0.members == |added| && 1 <= |added| <= LIMIT
            && (out.0.year, out.0.week) == (yw.year, yw.week)
            && (forall i :: 0 <= i < |added| ==>
                  added[i].rank == i + 1 && added[i].year == out.0.year && added[i].week == out.0.week)
            && (forall i, j :: 0 <= i < j < |added| ==> added[i].commits >= added[j].commits))
      && out.1.commits == s.commits && out.1.repos == s.repos && out.1.contributors == s.contributors
  {
    if members != [] {
      var added := SnapshotRows(members, yw, now, firstId);
      var t := s.weekly + added;
      assert t[..|s.weekly|] == s.weekly && t[|s.weekly|..] == added;
      SnapshotRowsOrdered(members, yw, now, firstId);
    }
  }

  /** The route: nothing is written when nobody committed since the week
      start; otherwise the ranked rows are appended, with no check for rows
      already stored for the same week. */
  function TakeSnapshot(s: Store, rows: seq<Commit>, now: int, firstId: int): (SnapshotResponse, Store) {
    AppendSnapshot(s, TopMembers(rows, PeruTime.WeekStart(now)), PeruTime.PeruWeekNumber(now), now, firstId)
  }

  /** What a snapshot writes: the week's leaderboard as ranked rows under
      the current Peru week number, appended after the stored rows. */
  lemma TakeSnapshotShape(s: Store, rows: seq<Commit>, now: int, firstId: int)
    ensures var out := TakeSnapshot(s, rows, now, firstId);
      && (out.0.NoCommitsThisWeek? <==> TopMembers(rows, PeruTime.WeekStart(now)) == [])
      && (out.0.NoCommitsThisWeek? ==> out.1 == s)
      && |s.weekly| <= |out.1.weekly| && out.1.weekly[..|s.weekly|] == s.weekly
      && (out.0.Saved? ==>
            var added := out.1.weekly[|s.weekly|..];
            && out.0.members == |added| && 1 <= |added| <= LIMIT
            && (out.0.year, out.0.week) == (PeruTime.PeruWeekNumber(now).year, PeruTime.PeruWeekNumber(now).week)
            && (forall i :: 0 <= i < |added| ==>
                  added[i].rank == i + 1 && added[i].year == out.0.year && added[i].week == out.0.week)
            && (forall i, j :: 0 <= i < j < |added| ==> added[i].commits >= added[j].commits))
      && out.1.commits == s.commits && out.1.repos == s.repos && out.1.contributors == s.contributors
  {
    var members := TopMembers(rows, PeruTime.WeekStart(now));
    var yw := PeruTime.PeruWeekNumber(now);
    SnapshotOfBoard(s, members, yw, now, firstId, TakeSnapshot(s, rows, now, firstId));
  }

  /** A stored row with its serial id blanked out. */
  function WithoutId(e: WeeklyEntry): WeeklyEntry {
    e.(id := 0)
  }

  function WithoutIds(es: seq<WeeklyEntry>): (r: seq<WeeklyEntry>)
    ensures |r| == |es| && forall i :: 0 <= i < |es| ==> r[i] == WithoutId(es[i])
  {
    seq(|es|, i requires 0 <= i < |es| => WithoutId(es[i]))
  }

  lemma AppendTwice(s: Store, members: seq<Member>, yw: PeruTime.YearWeek, now: int, id1: int, id2: int)
    requires members != []
    ensures var (res1, t1) := AppendSnapshot(s, members, yw, now, id1);
      var (res2, t2) := AppendSnapshot(t1, members, yw, now, id2);
      && res2 == res1
      && t1.weekly == s.weekly + SnapshotRows(members, yw, now, id1)
      && t2.weekly == t1.weekly + SnapshotRows(members, yw, now, id2)
      && WithoutIds(SnapshotRows(members, yw, now, id2)) == WithoutIds(SnapshotRows(members, yw, now, id1))
  {
  }

  /** Nothing stops a second snapshot in the same week: it answers the same
      and appends the same rows again, differing only in their serial ids. */
  lemma SnapshotTwice(s: Store, rows: seq<Commit>, now: int, id1: int, id2: int)
    requires TakeSnapshot(s, rows, now, id1).0.Saved?
    ensures var (res1, t1) := TakeSnapshot(s, rows, now, id1);
      var (res2, t2) := TakeSnapshot(t1, rows, now, id2);
      && res2 == res1
      && |t2.weekly| == |s.weekly| + 2 * res1.members
      && WithoutIds(t2.weekly[|t1.weekly|..]) == WithoutIds(t1.weekly[|s.weekly|..])
  {
    var members := TopMembers(rows, PeruTime.WeekStart(now));
    var yw := PeruTime.PeruWeekNumber(now);
    var out1 := TakeSnapshot(s, rows, now, id1);
    assert out1 == AppendSnapshot(s, members, yw, now, id1);
    var out2 := TakeSnapshot(out1.1, rows, now, id2);
    assert out2 == AppendSnapshot(out1.1, members, yw, now, id2);
    AppendTwice(s, members, yw, now, id1, id2);
    var r1 := SnapshotRows(members, yw, now, id1);
    var r2 := SnapshotRows(members, yw, now, id2);
    assert out2.1.weekly[|out1.1.weekly|..] == r2;
    assert out1.1.weekly[|s.weekly|..] == r1;
  }
}

/** `GET /api/leaderboard/history`: without both parameters, the latest
    twenty weeks that have a snapshot; with them, that week's stored rows
    by rank. */
module History {
  import opened Wrappers
  import opened Schema
  import opened Seqs
  import opened Sorting
  import Text

  const WEEKS_LIMIT: nat := 20

  datatype YearWeek = YearWeek(year: int, week: int)

  datatype HistoryResponse =
    | AvailableWeeks(weeks: seq<YearWeek>)
    | WeekMembers(year: int, week: int, members: seq<WeeklyEntry>)
    | NoDataForWeek
    | ServerError

  function WeekOf(e: WeeklyEntry): YearWeek {
    YearWeek(e.year, e.week)
  }

  function WeekKey(w: YearWeek): (int, int) {
    (w.year, w.week)
  }

  /** `SELECT DISTINCT year, week … ORDER BY year DESC, week DESC LIMIT 20`. */
  function LatestWeeks(weekly: seq<WeeklyEntry>): (r: seq<YearWeek>)
    ensures |r| <= WEEKS_LIMIT
    ensures SortedDesc(r, WeekKey)
  {
    TopN(Distinct(StoredWeeks(weekly)), WeekKey, WEEKS_LIMIT)
  }

  function StoredWeeks(weekly: seq<WeeklyEntry>): (r: seq<YearWeek>)
    ensures |r| == |weekly| && forall i :: 0 <= i < |weekly| ==> r[i] == WeekOf(weekly[i])
  {
    seq(|weekly|, i requires 0 <= i < |weekly| => WeekOf(weekly[i]))
  }

  /** Every listed week is stored, and a stored week is left out only when
      twenty weeks at least as late are listed. */
  lemma LatestWeeksComplete(weekly: seq<WeeklyEntry>)
    ensures var r := LatestWeeks(weekly);
      && (forall i :: 0 <= i < |r| ==> exists j :: 0 <= j < |weekly| && WeekOf(weekly[j]) == r[i])
      && (forall j :: 0 <= j < |weekly| && WeekOf(weekly[j]) !in r ==> |r| == WEEKS_LIMIT)
      && (forall i, j :: 0 <= i < |r| && 0 <= j < |weekly| && WeekOf(weekly[j]) !in r ==>
            KeyGe(WeekKey(r[i]), WeekKey(WeekOf(weekly[j]))))
  {
    var all := StoredWeeks(weekly);
    var d := Distinct(all);
    var r := LatestWeeks(weekly);
    forall i | 0 <= i < |r| ensures exists j :: 0 <= j < |weekly| && WeekOf(weekly[j]) == r[i] {
      var k :| 0 <= k < |all| && all[k] == r[i];
    }
    forall j | 0 <= j < |weekly| && WeekOf(weekly[j]) !in r
      ensures |r| == WEEKS_LIMIT
      ensures forall i :: 0 <= i < |r| ==> KeyGe(WeekKey(r[i]), WeekKey(WeekOf(weekly[j])))
    {
      var w := WeekOf(weekly[j]);
      assert all[j] == w;
      NotPickedIsLeftOver(d, r, w);
    }
  }

  /** `SELECT DISTINCT`: no week is listed twice. */
  lemma LatestWeeksDistinct(weekly: seq<WeeklyEntry>)
    ensures NoDup(LatestWeeks(weekly))
  {
    var d := Distinct(StoredWeeks(weekly));
    NoDupSubMultiset(TopN(d, WeekKey, WEEKS_LIMIT), d);
  }

  lemma NotPickedIsLeftOver(d: seq<YearWeek>, r: seq<YearWeek>, w: YearWeek)
    requires w in d && w !in r
    requires r == TopN(d, WeekKey, WEEKS_LIMIT)
    ensures |r| == WEEKS_LIMIT
    ensures forall i :: 0 <= i < |r| ==> KeyGe(WeekKey(r[i]), WeekKey(w))
  {
    assert w in multiset(d) && w !in multiset(r);
    assert w in multiset(d) - multiset(r);
    if |d| < WEEKS_LIMIT {
      assert |multiset(r)| == |multiset(d)|;
      assert multiset(r) == multiset(d) by {
        MultisetSubEq(multiset(r), multiset(d));
      }
    }
  }

  lemma MultisetSubEq(a: multiset<YearWeek>, b: multiset<YearWeek>)
    requires a <= b && |a| == |b|
    ensures a == b
  {
    assert b == a + (b - a);
    assert |b - a| == 0;
  }

  function RankKey(e: WeeklyEntry): (int, int) {
    (-e.rank, 0)
  }

  predicate InWeek(e: WeeklyEntry, year: int, week: int) {
    e.year == year && e.week == week
  }

  /** The range of the `integer` columns the parameters are compared with. */
  predicate IsInt4(n: int) {
    -0x8000_0000 <= n <= 0x7FFF_FFFF
  }

  /** A query parameter as the database receives it: `parseInt` without a
      radix, `None` when that gives `NaN` or a number no `integer` column can
      hold, either of which the database rejects. */
  function Int4Param(s: string): (r: Option<int>)
    ensures r.Some? <==> Text.ParseIntAnyRadix(s).Some? && IsInt4(Text.ParseIntAnyRadix(s).value)
    ensures r.Some? ==> r == Text.ParseIntAnyRadix(s)
  {
    match Text.ParseIntAnyRadix(s)
    case Some(n) => if IsInt4(n) then Some(n) else None
    case None => None
  }

  /** The route. `year` and `week` are the raw query parameters; an empty
      one counts as absent. A parameter the database cannot take as an
      integer makes the request fail. */
  function GetHistory(weekly: seq<WeeklyEntry>, year: Option<string>, week: Option<string>): (r: HistoryResponse)
    ensures (year.None? || year == Some("") || week.None? || week == Some("")) <==> r.AvailableWeeks?
    ensures r.AvailableWeeks? ==> r.weeks == LatestWeeks(weekly)
    ensures r.ServerError? <==>
      !r.AvailableWeeks? && (Int4Param(year.value).None? || Int4Param(week.value).None?)
    ensures r.WeekMembers? ==>
      && Some(r.year) == Text.ParseIntAnyRadix(year.value) && Some(r.week) == Text.ParseIntAnyRadix(week.value)
      && IsInt4(r.year) && IsInt4(r.week)
      && r.members != []
      && multiset(r.members) == multiset(Filter(weekly, e => InWeek(e, r.year, r.week)))
      && (forall i, j :: 0 <= i < j < |r.members| ==> r.members[i].rank <= r.members[j].rank)
    ensures r.NoDataForWeek? <==>
      && !r.AvailableWeeks? && !r.ServerError?
      && (forall i :: 0 <= i < |weekly| ==>
            !InWeek(weekly[i], Int4Param(year.value).value, Int4Param(week.value).value))
  {
    if year.None? || year == Some("") || week.None? || week == Some("") then AvailableWeeks(LatestWeeks(weekly))
    else
      match (Int4Param(year.value), Int4Param(week.value))
      case (Some(y), Some(w)) =>
        var found := Filter(weekly, e => InWeek(e, y, w));
        if found == [] then NoDataForWeek
        else
          var ordered := SortDesc(found, RankKey);
          assert |ordered| == |found|;
          WeekMembers(y, w, ordered)
      case _ => ServerError
  }

  /** A year written in hexadecimal finds the stored week. */
  lemma HexYearFindsWeek(weekly: seq<WeeklyEntry>, week: int)
    requires 0 <= week <= 54
    requires exists i :: 0 <= i < |weekly| && InWeek(weekly[i], 2026, week)
    ensures GetHistory(weekly, Some("0x7EA"), Some(Text.DecimalString(week))).WeekMembers?
  {
    Text.HexPrefixExample();
    Text.ParseIntAnyRadixDecimal(week);
    var w := Text.DecimalString(week);
    assert Int4Param("0x7EA") == Some(2026);
    assert Int4Param(w) == Some(week);
    StoredWeekFound(weekly, "0x7EA", w, 2026, week);
  }

  /** Parameters that read as a stored week find it. */
  lemma StoredWeekFound(weekly: seq<WeeklyEntry>, year: string, week: string, y: int, w: int)
    requires year != "" && week != "" && Int4Param(year) == Some(y) && Int4Param(week) == Some(w)
    requires exists i :: 0 <= i < |weekly| && InWeek(weekly[i], y, w)
    ensures GetHistory(weekly, Some(year), Some(week)).WeekMembers?
  {
    var i :| 0 <= i < |weekly| && InWeek(weekly[i], y, w);
    var r := GetHistory(weekly, Some(year), Some(week));
    assert !r.AvailableWeeks? && !r.ServerError?;
    assert !r.NoDataForWeek?;
  }

  /** A year past the `integer` range is a server error, not a missing week. */
  lemma OutOfRangeYearFails(weekly: seq<WeeklyEntry>, week: int)
    requires 0 <= week <= 54
    ensures GetHistory(weekly, Some(Text.DecimalString(3_000_000_000)), Some(Text.DecimalString(week))) == ServerError
  {
    Text.ParseIntAnyRadixDecimal(3_000_000_000);
    assert Int4Param(Text.DecimalString(3_000_000_000)).None?;
  }
}

=== FILE: peru_time.dfy ===
/** The Peru-time helpers of lib/utils/time.ts. Instants are UTC milliseconds;
    the server clock is UTC, so a `Date` built from a Lima wall-clock string
    carries the Lima wall-clock fields, and adding five hours turns a Lima
    wall-clock midnight back into the UTC instant used in queries. */
module PeruTime {
  import opened Calendar
  import Text

  /** Peru is UTC-5 (no daylight saving). */
  const PERU_UTC_OFFSET: int := -5

  /** The instant whose UTC fields equal the Lima wall clock at `nowUtc`, as
      `new Date(now.toLocaleString(..Lima..))` builds it: shifted by the offset
      and truncated to whole seconds, since the string carries no milliseconds. */
  function PeruWallClock(nowUtc: int): (w: int)
    ensures w % SECOND_MS == 0
    ensures w <= nowUtc + PERU_UTC_OFFSET * HOUR_MS < w + SECOND_MS
  {
    ((nowUtc + PERU_UTC_OFFSET * HOUR_MS) / SECOND_MS) * SECOND_MS
  }

  /** A Lima wall-clock instant turned back into UTC: subtracting the (negative)
      offset adds five hours. */
  function WallToUtc(wall: int): (u: int)
    ensures u == wall + 5 * HOUR_MS
  {
    wall - PERU_UTC_OFFSET * HOUR_MS
  }

  /** `getPeruTodayStart()`: Lima midnight of the current Lima day, as UTC. */
  function TodayStart(nowUtc: int): (r: int)
    ensures (r - 5 * HOUR_MS) % DAY_MS == 0
    ensures r - 5 * HOUR_MS <= PeruWallClock(nowUtc) < r - 5 * HOUR_MS + DAY_MS
    ensures r <= nowUtc < r + DAY_MS
  {
    var wall := PeruWallClock(nowUtc);
    DayOfBounds(wall);
    WallToUtc(DayOf(wall) * DAY_MS)
  }

  /** Days to add to reach the Monday that starts the week (Sunday belongs to
      the week that began six days earlier). */
  function DaysToMonday(dayOfWeek: int): (k: int)
    requires 0 <= dayOfWeek < 7
    ensures -6 <= k <= 0
    ensures dayOfWeek + k == 1 || (dayOfWeek == 0 && k == -6)
  {
    if dayOfWeek == 0 then -6 else 1 - dayOfWeek
  }

  /** The Monday of the Monday..Sunday week containing `day`. */
  function MondayOf(day: int): (m: int)
    ensures Weekday(m) == 1
    ensures m <= day < m + 7
  {
    var k := DaysToMonday(Weekday(day));
    WeekdayShift(day, k + (if Weekday(day) == 0 then 7 else 0));
    assert Weekday(day + k) == Weekday(day + k + 7);
    day + k
  }

  /** A Sunday maps to the Monday six days before, never the next one. */
  lemma SundayGoesBack(day: int)
    requires Weekday(day) == 0
    ensures MondayOf(day) == day - 6
  {
  }

  /** Every day from a Monday through the following Sunday shares that Monday. */
  lemma MondayOfWholeWeek(monday: int, k: int)
    requires Weekday(monday) == 1 && 0 <= k < 7
    ensures MondayOf(monday + k) == monday
  {
    var m := MondayOf(monday + k);
    SameWeekdayWithinWeek(m, monday);
  }

  /** Taking the week start of a week start changes nothing. */
  lemma MondayOfIdempotent(day: int)
    ensures MondayOf(MondayOf(day)) == MondayOf(day)
  {
    MondayOfWholeWeek(MondayOf(day), 0);
  }

  /** `getPeruWeekStart()`: Monday 00:00 Lima time of the current Lima week, as UTC. */
  function WeekStart(nowUtc: int): (r: int)
    ensures (r - 5 * HOUR_MS) % DAY_MS == 0
    ensures Weekday((r - 5 * HOUR_MS) / DAY_MS) == 1
    ensures r - 5 * HOUR_MS <= PeruWallClock(nowUtc) < r - 5 * HOUR_MS + 7 * DAY_MS
    ensures r <= nowUtc < r + 7 * DAY_MS
  {
    var wall := PeruWallClock(nowUtc);
    DayOfBounds(wall);
    var monday := MondayOf(DayOf(wall));
    assert (monday * DAY_MS) / DAY_MS == monday;
    WallToUtc(monday * DAY_MS)
  }

  /** The week start is the Lima midnight of the Monday on or before today. */
  lemma WeekStartBeforeTodayStart(nowUtc: int)
    ensures WeekStart(nowUtc) <= TodayStart(nowUtc)
    ensures (TodayStart(nowUtc) - WeekStart(nowUtc)) % DAY_MS == 0
    ensures TodayStart(nowUtc) - WeekStart(nowUtc) <= 6 * DAY_MS
  {
  }

  datatype YearWeek = YearWeek(year: int, week: int)

  /** ceil(a / b) for b > 0. */
  function CeilDiv(a: int, b: int): (q: int)
    requires b > 0
    ensures (q - 1) * b < a <= q * b
  {
    -((-a) / b)
  }

  /** `getPeruISOWeek(date)`: the Lima calendar year, and
      ceil((days elapsed since Lima Jan 1 + weekday(Jan 1) + 1) / 7). This counts
      Sunday-started weeks from January 1; it is not ISO-8601 numbering. */
  function PeruWeekNumber(dateUtc: int): (r: YearWeek)
    ensures YearStart(r.year) <= DayOf(PeruWallClock(dateUtc)) < YearStart(r.year + 1)
    ensures 1 <= r.week <= 54
  {
    var wall := PeruWallClock(dateUtc);
    var year := YearOf(DayOf(wall));
    WithinYear(wall, year);
    var elapsed := wall - YearStart(year) * DAY_MS;
    var a := elapsed + (Weekday(YearStart(year)) + 1) * DAY_MS;
    WeekNumberRange(elapsed, Weekday(YearStart(year)));
    YearWeek(year, CeilDiv(a, 7 * DAY_MS))
  }

  lemma WithinYear(wall: int, y: int)
    requires YearStart(y) <= DayOf(wall) < YearStart(y + 1)
    ensures YearStart(y) * DAY_MS <= wall < YearStart(y + 1) * DAY_MS
    ensures 0 <= wall - YearStart(y) * DAY_MS < 366 * DAY_MS
  {
    DayOfBounds(wall);
    YearLength(y);
    var d := DayOf(wall);
    assert YearStart(y) * DAY_MS <= d * DAY_MS;
    assert (d + 1) * DAY_MS <= YearStart(y + 1) * DAY_MS;
  }

  lemma WeekNumberRange(elapsed: int, wd: int)
    requires 0 <= elapsed < 366 * DAY_MS && 0 <= wd < 7
    ensures 1 <= CeilDiv(elapsed + (wd + 1) * DAY_MS, 7 * DAY_MS) <= 54
  {
    var a := elapsed + (wd + 1) * DAY_MS;
    assert 86_400_000 <= a < 373 * 86_400_000;
    var q := CeilDiv(a, 604_800_000);
    assert (q - 1) * 604_800_000 < a <= q * 604_800_000;
  }

  lemma WallClockMonotone(a: int, b: int)
    requires a <= b
    ensures PeruWallClock(a) <= PeruWallClock(b)
  {
    var x := PeruWallClock(a);
    var y := PeruWallClock(b);
    assert x < y + SECOND_MS;
  }

  /** Within one Lima year the week number never decreases as time advances. */
  lemma WeekNumberMonotone(t1: int, t2: int)
    requires t1 <= t2
    requires PeruWeekNumber(t1).year == PeruWeekNumber(t2).year
    ensures PeruWeekNumber(t1).week <= PeruWeekNumber(t2).week
  {
    var y := PeruWeekNumber(t1).year;
    var a1 := PeruWallClock(t1) + WeekOffset(y);
    var a2 := PeruWallClock(t2) + WeekOffset(y);
    assert a1 <= a2 by { WallClockMonotone(t1, t2); }
    assert PeruWeekNumber(t1).week == CeilDiv(a1, 7 * DAY_MS) by { WeekNumberFormula(t1); }
    assert PeruWeekNumber(t2).week == CeilDiv(a2, 7 * DAY_MS) by { WeekNumberFormula(t2); }
    CeilDivMonotone(a1, a2, 7 * DAY_MS);
  }

  /** What the week count adds to the Lima wall clock before dividing. */
  function WeekOffset(y: int): int {
    (Weekday(YearStart(y)) + 1) * DAY_MS - YearStart(y) * DAY_MS
  }

  lemma WeekNumberFormula(t: int)
    ensures var w := PeruWeekNumber(t);
      w.week == CeilDiv(PeruWallClock(t) + WeekOffset(w.year), 7 * DAY_MS)
  {
  }

  lemma CeilDivMonotone(a: int, b: int, d: int)
    requires a <= b && d > 0
    ensures CeilDiv(a, d) <= CeilDiv(b, d)
  {
  }

  /** `formatRelativeTime`: the elapsed time bucketed as the source prints it. */
  datatype RelativeTime =
    | JustNow
    | MinutesAgo(minutes: int)
    | HoursAgo(hours: int)
    | DaysAgo(days: int)
    | MonthsAgo(months: int)

  /** Elapsed time from `thenUtc` to `nowUtc`, floored to whole units; a future
      instant or one under a minute old is "just now", and months are 30 days. */
  function FormatRelativeTime(nowUtc: int, thenUtc: int): RelativeTime {
    var diffInMs := nowUtc - thenUtc;
    var diffInSeconds := diffInMs / 1000;
    if diffInSeconds < 0 then JustNow
    else if diffInSeconds < 60 then JustNow
    else
      var diffInMinutes := diffInSeconds / 60;
      if diffInMinutes < 60 then MinutesAgo(diffInMinutes)
      else
        var diffInHours := diffInMinutes / 60;
        if diffInHours < 24 then HoursAgo(diffInHours)
        else
          var diffInDays := diffInHours / 24;
          if diffInDays < 30 then DaysAgo(diffInDays)
          else MonthsAgo(diffInDays / 30)
  }

  /** Each bucket holds exactly the elapsed times its count stands for. */
  lemma RelativeTimeBuckets(nowUtc: int, thenUtc: int)
    ensures var r := FormatRelativeTime(nowUtc, thenUtc);
      && (r.JustNow? <==> nowUtc - thenUtc < MINUTE_MS)
      && (r.MinutesAgo? ==>
            1 <= r.minutes < 60 && r.minutes * MINUTE_MS <= nowUtc - thenUtc < (r.minutes + 1) * MINUTE_MS)
      && (r.HoursAgo? ==>
            1 <= r.hours < 24 && r.hours * HOUR_MS <= nowUtc - thenUtc < (r.hours + 1) * HOUR_MS)
      && (r.DaysAgo? ==>
            1 <= r.days < 30 && r.days * DAY_MS <= nowUtc - thenUtc < (r.days + 1) * DAY_MS)
      && (r.MonthsAgo? ==>
            r.months >= 1 && r.months * 30 * DAY_MS <= nowUtc - thenUtc < (r.months + 1) * 30 * DAY_MS)
  {
    var ms := nowUtc - thenUtc;
    SecondsBracket(ms);
    MinutesBracket(ms);
    HoursBracket(ms);
    DaysBracket(ms);
    MonthsBracket(ms);
  }

  lemma SecondsBracket(ms: int)
    ensures (ms / 1000) * 1000 <= ms < (ms / 1000 + 1) * 1000
  {
  }

  lemma MinutesBracket(ms: int)
    ensures ms / 1000 / 60 * MINUTE_MS <= ms < (ms / 1000 / 60 + 1) * MINUTE_MS
  {
    var sec := ms / 1000;
    SecondsBracket(ms);
    assert sec / 60 * 60 <= sec < (sec / 60 + 1) * 60;
  }

  lemma HoursBracket(ms: int)
    ensures ms / 1000 / 60 / 60 * HOUR_MS <= ms < (ms / 1000 / 60 / 60 + 1) * HOUR_MS
  {
    var mins := ms / 1000 / 60;
    MinutesBracket(ms);
    assert mins / 60 * 60 <= mins < (mins / 60 + 1) * 60;
  }

  lemma DaysBracket(ms: int)
    ensures ms / 1000 / 60 / 60 / 24 * DAY_MS <= ms < (ms / 1000 / 60 / 60 / 24 + 1) * DAY_MS
  {
    var hours := ms / 1000 / 60 / 60;
    HoursBracket(ms);
    assert hours / 24 * 24 <= hours < (hours / 24 + 1) * 24;
  }

  lemma MonthsBracket(ms: int)
    ensures ms / 1000 / 60 / 60 / 24 / 30 * 30 * DAY_MS <= ms < (ms / 1000 / 60 / 60 / 24 / 30 + 1) * 30 * DAY_MS
  {
    var days := ms / 1000 / 60 / 60 / 24;
    DaysBracket(ms);
    assert days / 30 * 30 <= days < (days / 30 + 1) * 30;
  }

  /** The label the feed shows: "just now", "5m ago", "3h ago", "2d ago", "1mo ago". */
  function RenderRelativeTime(r: RelativeTime): string {
    match r
    case JustNow => "just now"
    case MinutesAgo(n) => Text.DecimalString(n) + "m ago"
    case HoursAgo(n) => Text.DecimalString(n) + "h ago"
    case DaysAgo(n) => Text.DecimalString(n) + "d ago"
    case MonthsAgo(n) => Text.DecimalString(n) + "mo ago"
  }
}

=== FILE: repair.dfy ===
/** The stats repair script: re-fetch line counts for recent commits still
    showing zero additions and zero deletions, at most 200 per run. */
module StatsRepair {
  import opened Wrappers
  import opened Schema
  import opened GitHub
  import opened Seqs
  import Calendar

  const BATCH_LIMIT := 200

  /** The rows the script selects: zero counts, pushed within the last
      seven days. */
  predicate MissingStats(c: Commit, now: int) {
    && c.additions == Some(0)
    && c.deletions == Some(0)
    && c.pushedAt >= now - 7 * Calendar.DAY_MS
  }

  /** The selection query, `rows` being the table in its scan order: the
      first matching rows, at most `BATCH_LIMIT` of them. */
  function SelectMissing(rows: seq<Commit>, now: int): (r: seq<Commit>)
    ensures |r| == Min(BATCH_LIMIT, CountWhere(rows, c => MissingStats(c, now)))
    ensures forall i :: 0 <= i < |r| ==> MissingStats(r[i], now) && r[i] in rows
    ensures forall c :: c in rows && MissingStats(c, now) && c !in r ==> |r| == BATCH_LIMIT
  {
    var all := Filter(rows, c => MissingStats(c, now));
    if |all| <= BATCH_LIMIT then all else all[..BATCH_LIMIT]
  }

  /** The primary key makes the ids of selected rows distinct. */
  ghost predicate DistinctIds(rows: seq<Commit>) {
    forall i, j :: 0 <= i < j < |rows| ==> rows[i].id != rows[j].id
  }

  /** What one row becomes given the outcome of its GitHub call: a failure
      leaves it as it was, a success sets both counts (a missing count is 0). */
  function Repaired(row: Commit, f: Fetch): (r: Commit)
    ensures f.FetchFailed? ==> r == row
    ensures f.Fetched? ==>
      && r.additions == Some(CountOrZero(f.details.additions))
      && r.deletions == Some(CountOrZero(f.details.deletions))
      && r == row.(additions := r.additions, deletions := r.deletions)
  {
    match f
    case FetchFailed(_) => row
    case Fetched(d) => row.(additions := Some(CountOrZero(d.additions)), deletions := Some(CountOrZero(d.deletions)))
  }

  /** One iteration: `UPDATE commits SET additions, deletions WHERE id = …`
      after a successful call; a row deleted meanwhile is not recreated. */
  function RepairOne(s: Store, row: Commit, getCommit: (string, string) -> Fetch): Store {
    if row.id in s.commits
    then s.(commits := s.commits[row.id := Repaired(s.commits[row.id], getCommit(row.repoName, row.id))])
    else s
  }

  function RepairAll(s: Store, batch: seq<Commit>, getCommit: (string, string) -> Fetch): Store {
    if batch == [] then s
    else RepairOne(RepairAll(s, batch[..|batch| - 1], getCommit), batch[|batch| - 1], getCommit)
  }

  /** The script touches nothing but the two count columns of the rows it
      selected: no row appears or disappears and no other table changes. */
  lemma {:induction false} RepairTouchesOnlyCounts(s: Store, batch: seq<Commit>, getCommit: (string, string) -> Fetch)
    ensures var t := RepairAll(s, batch, getCommit);
      && t.commits.Keys == s.commits.Keys
      && (forall k :: k in s.commits ==>
            t.commits[k] == s.commits[k].(additions := t.commits[k].additions, deletions := t.commits[k].deletions))
      && (forall k :: k in s.commits && (forall i :: 0 <= i < |batch| ==> batch[i].id != k) ==>
            t.commits[k] == s.commits[k])
      && t.repos == s.repos && t.contributors == s.contributors && t.weekly == s.weekly
  {
    if batch != [] {
      RepairTouchesOnlyCounts(s, batch[..|batch| - 1], getCommit);
    }
  }

  /** Each selected row ends as its own GitHub call says: counts set after a
      success, unchanged after a failure. */
  lemma {:induction false} RepairOutcome(s: Store, batch: seq<Commit>, getCommit: (string, string) -> Fetch, i: nat)
    requires DistinctIds(batch) && i < |batch| && batch[i].id in s.commits
    ensures var t := RepairAll(s, batch, getCommit);
      batch[i].id in t.commits
      && t.commits[batch[i].id] == Repaired(s.commits[batch[i].id], getCommit(batch[i].repoName, batch[i].id))
  {
    var init := batch[..|batch| - 1];
    var last := batch[|batch| - 1];
    RepairTouchesOnlyCounts(s, init, getCommit);
    if i < |batch| - 1 {
      assert DistinctIds(init);
      RepairOutcome(s, init, getCommit, i);
      assert init[i] == batch[i];
    } else {
      assert forall j :: 0 <= j < |init| ==> init[j].id != last.id;
    }
  }
}

/** The avatar repair script: for up to 500 commits, store the avatar GitHub
    now reports when it is non-empty and differs from the stored one, and
    count the updates. */
module AvatarRepair {
  import opened Wrappers
  import opened Schema
  import opened GitHub
  import opened Seqs

  const BATCH_LIMIT := 500

  /** `select().from(commits).limit(500)` over the table in scan order. */
  function Batch(rows: seq<Commit>): (b: seq<Commit>)
    ensures |b| == Min(BATCH_LIMIT, |rows|) && b == rows[..|b|]
  {
    if |rows| <= BATCH_LIMIT then rows else rows[..BATCH_LIMIT]
  }

  /** The avatar a successful call reports, if it is non-empty. */
  function ReportedAvatar(f: Fetch): Option<string> {
    if f.Fetched? && f.details.authorAvatarUrl.Some? && f.details.authorAvatarUrl.value != ""
    then f.details.authorAvatarUrl else None
  }

  /** The script issues an update for `row` exactly when the reported avatar
      exists and differs from the value read in the batch. */
  predicate WillUpdate(row: Commit, getCommit: (string, string) -> Fetch) {
    var a := ReportedAvatar(getCommit(row.repoName, row.id));
    a.Some? && a != row.authorAvatarUrl
  }

  ghost predicate DistinctIds(rows: seq<Commit>) {
    forall i, j :: 0 <= i < j < |rows| ==> rows[i].id != rows[j].id
  }

  /** `UPDATE commits SET author_avatar_url = … WHERE id = …`. */
  function SetAvatar(t: Store, id: string, avatar: Option<string>): (u: Store)
    ensures u.commits.Keys == t.commits.Keys
    ensures forall k :: k in t.commits && k != id ==> u.commits[k] == t.commits[k]
    ensures id in t.commits ==> u.commits[id] == t.commits[id].(authorAvatarUrl := avatar)
    ensures u.repos == t.repos && u.contributors == t.contributors && u.weekly == t.weekly
  {
    if id in t.commits then t.(commits := t.commits[id := t.commits[id].(authorAvatarUrl := avatar)]) else t
  }

  /** One iteration: issue the update when `WillUpdate`, and count it. */
  function AvatarStep(acc: (Store, nat), row: Commit, getCommit: (string, string) -> Fetch): (Store, nat) {
    if WillUpdate(row, getCommit)
    then (SetAvatar(acc.0, row.id, ReportedAvatar(getCommit(row.repoName, row.id))), acc.1 + 1)
    else acc
  }

  /** The script's loop over the batch: the store afterwards and the
      `updated` counter it prints. */
  function AvatarPass(s: Store, batch: seq<Commit>, getCommit: (string, string) -> Fetch): (Store, nat) {
    if batch == [] then (s, 0)
    else AvatarStep(AvatarPass(s, batch[..|batch| - 1], getCommit), batch[|batch| - 1], getCommit)
  }

  function RepairAvatars(s: Store, rows: seq<Commit>, getCommit: (string, string) -> Fetch): (Store, nat) {
    AvatarPass(s, Batch(rows), getCommit)
  }

  /** The printed counter is the number of batch rows whose reported avatar
      exists and differs from the one read, so at most 500. */
  lemma {:induction false} AvatarCounter(s: Store, batch: seq<Commit>, getCommit: (string, string) -> Fetch)
    ensures AvatarPass(s, batch, getCommit).1 == CountWhere(batch, r => WillUpdate(r, getCommit))
    ensures AvatarPass(s, batch, getCommit).1 <= |batch|
  {
    if batch != [] {
      AvatarCounter(s, batch[..|batch| - 1], getCommit);
    }
  }

  /** The script changes no column but the avatar, adds or removes no row
      and leaves rows outside the batch alone. */
  lemma {:induction false} AvatarTouchesOnlyAvatars(s: Store, batch: seq<Commit>, getCommit: (string, string) -> Fetch)
    ensures var t := AvatarPass(s, batch, getCommit).0;
      && t.commits.Keys == s.commits.Keys
      && (forall k :: k in s.commits ==>
            t.commits[k] == s.commits[k].(authorAvatarUrl := t.commits[k].authorAvatarUrl))
      && (forall k :: k in s.commits && (forall i :: 0 <= i < |batch| ==> batch[i].id != k) ==>
            t.commits[k] == s.commits[k])
      && t.repos == s.repos && t.contributors == s.contributors && t.weekly == s.weekly
  {
    if batch != [] {
      AvatarTouchesOnlyAvatars(s, batch[..|batch| - 1], getCommit);
    }
  }

  /** Each batch row ends with the reported avatar when the script updated
      it, and with its stored avatar otherwise. */
  lemma {:induction false} AvatarOutcome(s: Store, batch: seq<Commit>, getCommit: (string, string) -> Fetch, i: nat)
    requires DistinctIds(batch) && i < |batch| && batch[i].id in s.commits
    ensures var t := AvatarPass(s, batch, getCommit).0;
      batch[i].id in t.commits
      && t.commits[batch[i].id].authorAvatarUrl
         == (if WillUpdate(batch[i], getCommit) then ReportedAvatar(getCommit(batch[i].repoName, batch[i].id))
             else s.commits[batch[i].id].authorAvatarUrl)
  {
    var init := batch[..|batch| - 1];
    var last := batch[|batch| - 1];
    AvatarTouchesOnlyAvatars(s, init, getCommit);
    if i < |batch| - 1 {
      assert DistinctIds(init);
      AvatarOutcome(s, init, getCommit, i);
      assert init[i] == batch[i];
    } else {
      assert forall j :: 0 <= j < |init| ==> init[j].id != last.id;
    }
  }
}

=== FILE: repos.dfy ===
/** `GET /api/repos`: the twelve active repositories pushed to most
    recently, each with its commit count since the Lima week start and the
    author with the most commits there. The per-author counts come from a
    grouped query; a loop folds them into one entry per repository. */
module Repos {
  import opened Wrappers
  import opened Schema
  import opened Seqs
  import opened Sorting
  import opened Grouping
  import opened Windows

  const MAX_REPOS: nat := 12

  // ---- the repository list ----

  /** `ORDER BY last_push_at DESC`: PostgreSQL puts NULLs first in a
      descending order, so a repository never pushed to outranks every push. */
  function PushKey(r: Repo): (int, int) {
    match r.lastPushAt
    case None => (1, 0)
    case Some(t) => (0, t)
  }

  /** `is_active = true`: a NULL flag does not match. */
  predicate IsActive(r: Repo) {
    r.isActive == Some(true)
  }

  /** The active repositories, latest push first, at most twelve; every
      active repository left out was pushed no later than every listed one. */
  function RepoList(repos: seq<Repo>): (r: seq<Repo>)
    ensures |r| == Min(MAX_REPOS, CountWhere(repos, IsActive))
    ensures forall i :: 0 <= i < |r| ==> IsActive(r[i]) && r[i] in repos
    ensures SortedDesc(r, PushKey)
    ensures forall i, x :: 0 <= i < |r| && x in multiset(Filter(repos, IsActive)) - multiset(r) ==>
      KeyGe(PushKey(r[i]), PushKey(x))
  {
    var active := Filter(repos, IsActive);
    var r := TopN(active, PushKey, MAX_REPOS);
    FromFilter(r, repos, IsActive);
    r
  }

  // ---- the grouped counts ----

  /** The grouping key `(repo_name, author_username, author_avatar_url)`. */
  datatype RepoAuthor = RepoAuthor(repo: string, username: string, avatarUrl: Option<string>)

  /** One row of the grouped query. */
  datatype GroupRow = GroupRow(repoName: string, authorUsername: string, authorAvatarUrl: Option<string>, commits: nat)

  function RepoAuthorOf(c: Commit): RepoAuthor {
    RepoAuthor(c.repoName, c.authorUsername, c.authorAvatarUrl)
  }

  function GroupRowsOf(keys: seq<RepoAuthor>, sel: seq<Commit>): (g: seq<GroupRow>)
    ensures |g| == |keys|
    ensures forall i :: 0 <= i < |g| ==>
      g[i] == GroupRow(keys[i].repo, keys[i].username, keys[i].avatarUrl, CountKey(sel, RepoAuthorOf, keys[i]))
  {
    if keys == [] then []
    else
      var k := keys[|keys| - 1];
      GroupRowsOf(keys[..|keys| - 1], sel) + [GroupRow(k.repo, k.username, k.avatarUrl, CountKey(sel, RepoAuthorOf, k))]
  }

  /** The grouped query over the commits pushed at or after `from`, before
      its `ORDER BY`. */
  function WeekGroups(rows: seq<Commit>, from: int): seq<GroupRow> {
    var sel := Selected(rows, Since(from));
    GroupRowsOf(KeysOf(sel, RepoAuthorOf), sel)
  }

  /** The sum of the counts of one repository's rows: what the loop should
      accumulate for it. */
  function RepoTotal(g: seq<GroupRow>, name: string): int {
    if g == [] then 0
    else RepoTotal(g[..|g| - 1], name) + (if g[|g| - 1].repoName == name then g[|g| - 1].commits else 0)
  }

  // ---- the aggregation loop ----

  datatype TopContributor = TopContributor(username: string, avatarUrl: Option<string>, commits: int)

  datatype RepoWeek = RepoWeek(commitsThisWeek: int, top: TopContributor)

  function TopOf(row: GroupRow): TopContributor {
    TopContributor(row.authorUsername, row.authorAvatarUrl, row.commits)
  }

  /** The `repoStats` map after the loop has read `g` in order: the first
      row of a repository creates its entry; later rows add their count and
      replace the top contributor only with a strictly larger count. */
  function Tally(g: seq<GroupRow>): map<string, RepoWeek> {
    if g == [] then map[]
    else
      var m := Tally(g[..|g| - 1]);
      var row := g[|g| - 1];
      if row.repoName !in m then m[row.repoName := RepoWeek(row.commits, TopOf(row))]
      else
        var e := m[row.repoName];
        m[row.repoName := RepoWeek(e.commitsThisWeek + row.commits,
                                   if row.commits > e.top.commits then TopOf(row) else e.top)]
  }

  /** Row `j` has the largest count among `name`'s rows and is the first
      row of `name` with that count. */
  ghost predicate IsFirstMax(g: seq<GroupRow>, name: string, j: int) {
    && 0 <= j < |g| && g[j].repoName == name
    && (forall k :: 0 <= k < |g| && g[k].repoName == name ==> g[k].commits <= g[j].commits)
    && (forall k :: 0 <= k < j && g[k].repoName == name ==> g[k].commits < g[j].commits)
  }

  /** The map has an entry exactly for the repositories with a row, and the
      entry's total is the sum of that repository's rows. */
  lemma {:induction false} TallyTotals(g: seq<GroupRow>, name: string)
    ensures name in Tally(g) <==> exists i :: 0 <= i < |g| && g[i].repoName == name
    ensures name in Tally(g) ==> Tally(g)[name].commitsThisWeek == RepoTotal(g, name)
    ensures name !in Tally(g) ==> RepoTotal(g, name) == 0
  {
    if g != [] {
      var init := g[..|g| - 1];
      TallyTotals(init, name);
      assert forall i :: 0 <= i < |init| ==> init[i] == g[i];
      if exists i :: 0 <= i < |init| && init[i].repoName == name {
        var i :| 0 <= i < |init| && init[i].repoName == name;
        assert g[i].repoName == name;
      }
    }
  }

  /** The entry's top contributor is the first row of the repository with
      the largest count, whatever order the rows arrive in. */
  lemma {:induction false} TallyTop(g: seq<GroupRow>, name: string)
    requires name in Tally(g)
    ensures exists j :: IsFirstMax(g, name, j) && Tally(g)[name].top == TopOf(g[j])
  {
    var init := g[..|g| - 1];
    var row := g[|g| - 1];
    var m := Tally(init);
    TallyStep(g, name);
    TallyTotals(init, name);
    if name in m {
      TallyTop(init, name);
      var j :| IsFirstMax(init, name, j) && m[name].top == TopOf(init[j]);
      assert init[j] == g[j];
      if row.repoName == name && row.commits > g[j].commits {
        forall k | 0 <= k < |g| - 1 && g[k].repoName == name ensures g[k].commits < row.commits {
          assert init[k] == g[k];
        }
        FirstMaxNew(g, name);
        assert Tally(g)[name].top == TopOf(g[|g| - 1]);
      } else {
        FirstMaxKept(g, name, j);
        assert Tally(g)[name].top == TopOf(g[j]);
      }
    } else {
      assert forall k :: 0 <= k < |g| - 1 ==> g[k] == init[k];
      FirstMaxNew(g, name);
      assert Tally(g)[name].top == TopOf(g[|g| - 1]);
    }
  }

  /** What the last row does to one repository's entry. */
  lemma TallyStep(g: seq<GroupRow>, name: string)
    requires g != []
    ensures var m := Tally(g[..|g| - 1]);
      var row := g[|g| - 1];
      && (name in Tally(g) <==> name in m || row.repoName == name)
      && (name in Tally(g) && row.repoName != name ==> Tally(g)[name] == m[name])
      && (name in Tally(g) && row.repoName == name && name !in m ==> Tally(g)[name].top == TopOf(row))
      && (name in Tally(g) && row.repoName == name && name in m ==>
            Tally(g)[name].top == if row.commits > m[name].top.commits then TopOf(row) else m[name].top)
  {
  }

  lemma FirstMaxKept(g: seq<GroupRow>, name: string, j: int)
    requires |g| > 0 && IsFirstMax(g[..|g| - 1], name, j)
    requires !(g[|g| - 1].repoName == name && g[|g| - 1].commits > g[j].commits)
    ensures IsFirstMax(g, name, j)
  {
    var init := g[..|g| - 1];
    assert forall i :: 0 <= i < |init| ==> init[i] == g[i];
  }

  lemma FirstMaxNew(g: seq<GroupRow>, name: string)
    requires |g| > 0 && g[|g| - 1].repoName == name
    requires forall k :: 0 <= k < |g| - 1 && g[k].repoName == name ==> g[k].commits < g[|g| - 1].commits
    ensures IsFirstMax(g, name, |g| - 1)
  {
  }

  /** With the rows in the query's order — each repository's rows by count,
      largest first — the top contributor is the repository's first row, so
      a tie goes to the author the order puts first. */
  lemma {:induction false} FirstRowWins(g: seq<GroupRow>, name: string, f: nat)
    requires forall i, j :: 0 <= i < j < |g| && g[i].repoName == name && g[j].repoName == name ==>
      g[i].commits >= g[j].commits
    requires f < |g| && g[f].repoName == name
    requires forall k :: 0 <= k < f ==> g[k].repoName != name
    ensures name in Tally(g) && Tally(g)[name].top == TopOf(g[f])
  {
    TallyTotals(g, name);
    TallyTop(g, name);
    var j :| IsFirstMax(g, name, j) && Tally(g)[name].top == TopOf(g[j]);
    assert f <= j;
  }

  // ---- the response ----

  datatype RepoSummary = RepoSummary(
    name: string,
    fullName: string,
    lastPushAt: Option<int>,
    commitsThisWeek: int,
    topContributorThisWeek: Option<TopContributor>)

  function Summarize(repo: Repo, stats: map<string, RepoWeek>): RepoSummary {
    if repo.name in stats then
      RepoSummary(repo.name, repo.fullName, repo.lastPushAt, stats[repo.name].commitsThisWeek, Some(stats[repo.name].top))
    else
      RepoSummary(repo.name, repo.fullName, repo.lastPushAt, 0, None)
  }

  /** The route over the repositories table and the grouped rows in the
      order the query returned them. */
  function GetRepos(repos: seq<Repo>, groups: seq<GroupRow>): seq<RepoSummary> {
    var list := RepoList(repos);
    var stats := Tally(groups);
    seq(|list|, i requires 0 <= i < |list| => Summarize(list[i], stats))
  }

  /** One summary per listed repository, in list order: its own columns,
      the sum of its grouped counts, and as top contributor the first of its
      rows with the largest count, or 0 and no contributor when it has no
      rows. */
  lemma GetReposShape(repos: seq<Repo>, groups: seq<GroupRow>)
    ensures var list := RepoList(repos);
      var r := GetRepos(repos, groups);
      && |r| == |list|
      && forall i :: 0 <= i < |r| ==>
        && r[i].name == list[i].name && r[i].fullName == list[i].fullName && r[i].lastPushAt == list[i].lastPushAt
        && r[i].commitsThisWeek == RepoTotal(groups, list[i].name)
        && (r[i].topContributorThisWeek.None? <==> forall k :: 0 <= k < |groups| ==> groups[k].repoName != list[i].name)
        && (r[i].topContributorThisWeek.Some? ==>
              exists j :: IsFirstMax(groups, list[i].name, j) && r[i].topContributorThisWeek.value == TopOf(groups[j]))
  {
    var list := RepoList(repos);
    var r := GetRepos(repos, groups);
    forall i | 0 <= i < |r|
      ensures r[i].commitsThisWeek == RepoTotal(groups, list[i].name)
      ensures r[i].topContributorThisWeek.None? <==> forall k :: 0 <= k < |groups| ==> groups[k].repoName != list[i].name
      ensures r[i].topContributorThisWeek.Some? ==>
        exists j :: IsFirstMax(groups, list[i].name, j) && r[i].topContributorThisWeek.value == TopOf(groups[j])
    {
      TallyTotals(groups, list[i].name);
      if list[i].name in Tally(groups) {
        TallyTop(groups, list[i].name);
      }
    }
  }

  // ---- the totals are the repositories' commit counts ----

  lemma {:induction false} RepoTotalOfGroups(keys: seq<RepoAuthor>, sel: seq<Commit>, name: string)
    ensures RepoTotal(GroupRowsOf(keys, sel), name) == CountsOver(keys, sel, RepoAuthorOf, (k: RepoAuthor) => k.repo == name)
  {
    if keys != [] {
      var g := GroupRowsOf(keys, sel);
      assert g[..|g| - 1] == GroupRowsOf(keys[..|keys| - 1], sel);
      RepoTotalOfGroups(keys[..|keys| - 1], sel, name);
    }
  }

  lemma {:induction false} RepoTotalAppend(a: seq<GroupRow>, b: seq<GroupRow>, name: string)
    ensures RepoTotal(a + b, name) == RepoTotal(a, name) + RepoTotal(b, name)
    decreases |b|
  {
    if b == [] {
      assert a + b == a;
    } else {
      assert (a + b)[..|a + b| - 1] == a + b[..|b| - 1];
      RepoTotalAppend(a, b[..|b| - 1], name);
    }
  }

  /** The total does not depend on the order of the rows. */
  lemma {:induction false} RepoTotalReordered(a: seq<GroupRow>, b: seq<GroupRow>, name: string)
    requires multiset(a) == multiset(b)
    ensures RepoTotal(a, name) == RepoTotal(b, name)
    decreases |a|
  {
    if a == [] {
      assert |b| == |multiset(b)| == 0;
    } else {
      var x := a[|a| - 1];
      var init := a[..|a| - 1];
      assert a == init + [x];
      RepoTotalAppend(init, [x], name);
      assert x in multiset(b);
      var k :| 0 <= k < |b| && b[k] == x;
      RemoveAt(b, k);
      RepoTotalReordered(init, b[..k] + b[k + 1..], name);
      RepoTotalRemoveAt(b, k, name);
    }
  }

  lemma RepoTotalRemoveAt(b: seq<GroupRow>, k: int, name: string)
    requires 0 <= k < |b|
    ensures RepoTotal(b, name) == RepoTotal(b[..k] + b[k + 1..], name) + RepoTotal([b[k]], name)
  {
    assert b == b[..k] + [b[k]] + b[k + 1..];
    RepoTotalAppend(b[..k] + [b[k]], b[k + 1..], name);
    RepoTotalAppend(b[..k], [b[k]], name);
    RepoTotalAppend(b[..k], b[k + 1..], name);
  }

  /** Whatever order the grouped query returns, a repository's total is the
      number of its commits pushed at or after `from`. */
  lemma GroupsCountRepoCommits(rows: seq<Commit>, from: int, groups: seq<GroupRow>, name: string)
    requires multiset(groups) == multiset(WeekGroups(rows, from))
    ensures RepoTotal(groups, name) == RepoCount(rows, name, Since(from))
  {
    var sel := Selected(rows, Since(from));
    var key := RepoAuthorOf;
    var keys := KeysOf(sel, key);
    var own := (c: Commit) => c.repoName == name;
    var g := (k: RepoAuthor) => k.repo == name;
    RepoTotalReordered(groups, WeekGroups(rows, from), name);
    RepoTotalOfGroups(keys, sel, name);
    CountsPartition(keys, sel, key, g, own);
    CountWhereFilter(rows, (c: Commit) => InWindow(Since(from), c.pushedAt), own,
                     (c: Commit) => c.repoName == name && InWindow(Since(from), c.pushedAt));
  }
}

=== FILE: schema.dfy ===
/** The four tables of the database, as immutable rows, and the store that
    holds them. Timestamps are UTC milliseconds; a nullable column is an
    `Option`. */
module Schema {
  import opened Wrappers

  /** A row of `commits`. The commit SHA `id` is the primary key. */
  datatype Commit = Commit(
    id: string,
    repoName: string,
    authorUsername: string,
    authorAvatarUrl: Option<string>,
    message: string,
    additions: Option<int>,
    deletions: Option<int>,
    commitUrl: string,
    pushedAt: int,
    createdAt: int)

  /** A row of `repos`; `name` is unique. The serial `id` is not modelled. */
  datatype Repo = Repo(
    name: string,
    fullName: string,
    isActive: Option<bool>,
    isPrivate: Option<bool>,
    lastPushAt: Option<int>,
    createdAt: int,
    updatedAt: int)

  /** A row of `contributors`; `username` is unique. */
  datatype Contributor = Contributor(
    username: string,
    avatarUrl: Option<string>,
    totalCommits: Option<int>,
    lastCommitAt: Option<int>,
    createdAt: int,
    updatedAt: int)

  /** A row of `weekly_leaderboards`. `id` is the serial key. */
  datatype WeeklyEntry = WeeklyEntry(
    id: int,
    year: int,
    week: int,
    username: string,
    avatarUrl: Option<string>,
    commits: int,
    additions: Option<int>,
    deletions: Option<int>,
    rank: int,
    createdAt: int)

  /** The database: each keyed table as a map from its unique column to the
      row, the snapshot table as the sequence of rows in insertion order. */
  datatype Store = Store(
    commits: map<string, Commit>,
    repos: map<string, Repo>,
    contributors: map<string, Contributor>,
    weekly: seq<WeeklyEntry>)

  /** Every map key is the row's own unique column. */
  ghost predicate Keyed(s: Store) {
    && (forall k :: k in s.commits ==> s.commits[k].id == k)
    && (forall k :: k in s.repos ==> s.repos[k].name == k)
    && (forall k :: k in s.contributors ==> s.contributors[k].username == k)
  }

  /** SQL `column + n`: NULL stays NULL. */
  function SqlAdd(x: Option<int>, n: int): Option<int> {
    match x
    case None => None
    case Some(v) => Some(v + n)
  }

  lemma SqlAddTwice(x: Option<int>, a: int, b: int)
    ensures SqlAdd(SqlAdd(x, a), b) == SqlAdd(x, a + b)
  {
  }
}

/** What the GitHub REST API hands back, as far as the core reads it. The
    calls themselves are parameters of the operations that make them. */
module GitHub {
  import opened Wrappers

  /** `repos.getCommit`: the optional `stats` counts and `author.avatar_url`. */
  datatype CommitDetails = CommitDetails(
    additions: Option<int>,
    deletions: Option<int>,
    authorAvatarUrl: Option<string>)

  /** A call either throws (with an HTTP status) or returns its data. */
  datatype Fetch = FetchFailed(status: int) | Fetched(details: CommitDetails)

  /** One element of `repos.listForOrg`. */
  datatype OrgRepo = OrgRepo(name: string, fullName: string, pushedAt: Option<int>)

  /** One element of `repos.listCommits`: `author` is the linked GitHub
      account (login and avatar), `commit.author` the git author line. */
  datatype ListedCommit = ListedCommit(
    sha: string,
    message: string,
    login: Option<string>,
    loginAvatarUrl: Option<string>,
    gitAuthorName: Option<string>,
    gitAuthorDate: Option<int>,
    htmlUrl: string)

  datatype ListResult = ListFailed(status: int) | Listed(commits: seq<ListedCommit>)

  /** JavaScript `x || fallback` on an optional string: empty counts as absent. */
  function StringOr(x: Option<string>, fallback: string): (r: string)
    ensures x.Some? && x.value != "" ==> r == x.value
    ensures x.None? || x.value == "" ==> r == fallback
  {
    if x.Some? && x.value != "" then x.value else fallback
  }

  /** JavaScript `n || 0` on an optional count. */
  function CountOrZero(x: Option<int>): (r: int)
    ensures x.Some? ==> r == x.value
    ensures x.None? ==> r == 0
  {
    x.GetOr(0)
  }
}

/** The SQL write statements the ingestion paths share. */
module Statements {
  import opened Wrappers
  import opened Schema

  /** `INSERT INTO commits … ON CONFLICT DO NOTHING`. */
  function InsertCommitOrIgnore(s: Store, c: Commit): (t: Store)
    ensures t.commits.Keys == s.commits.Keys + {c.id}
    ensures forall k :: k in s.commits ==> t.commits[k] == s.commits[k]
    ensures c.id !in s.commits ==> t.commits[c.id] == c
    ensures t.repos == s.repos && t.contributors == s.contributors && t.weekly == s.weekly
  {
    if c.id in s.commits then s else s.(commits := s.commits[c.id := c])
  }

  /** `INSERT INTO repos … ON CONFLICT DO NOTHING`. */
  function InsertRepoOrIgnore(s: Store, r: Repo): (t: Store)
    ensures t.repos.Keys == s.repos.Keys + {r.name}
    ensures forall k :: k in s.repos ==> t.repos[k] == s.repos[k]
    ensures r.name !in s.repos ==> t.repos[r.name] == r
    ensures t.commits == s.commits && t.contributors == s.contributors && t.weekly == s.weekly
  {
    if r.name in s.repos then s else s.(repos := s.repos[r.name := r])
  }

  /** The webhook's repository upsert: a new row takes the column defaults
      (active, public), an existing row only gets `lastPushAt` and
      `updatedAt` set to the request time. */
  function UpsertRepoPush(s: Store, name: string, fullName: string, now: int): (t: Store)
    ensures t.repos.Keys == s.repos.Keys + {name}
    ensures t.repos[name].lastPushAt == Some(now) && t.repos[name].updatedAt == now
    ensures name in s.repos ==>
      t.repos[name] == s.repos[name].(lastPushAt := Some(now), updatedAt := now)
    ensures name !in s.repos ==>
      t.repos[name] == Repo(name, fullName, Some(true), Some(false), Some(now), now, now)
    ensures forall k :: k in s.repos && k != name ==> t.repos[k] == s.repos[k]
    ensures t.commits == s.commits && t.contributors == s.contributors && t.weekly == s.weekly
  {
    var row :=
      if name in s.repos then s.repos[name].(lastPushAt := Some(now), updatedAt := now)
      else Repo(name, fullName, Some(true), Some(false), Some(now), now, now);
    s.(repos := s.repos[name := row])
  }

  /** The contributor upsert run once per ingested commit: a new row starts
      at one commit, an existing row's counter goes up by one (SQL
      arithmetic, so NULL stays NULL) and its last-commit time is
      overwritten. The avatar of an existing row is never touched. */
  function RecordContributorCommit(s: Store, username: string, avatarUrl: Option<string>,
                                   pushedAt: int, now: int): (t: Store)
    ensures t.contributors.Keys == s.contributors.Keys + {username}
    ensures t.contributors[username].lastCommitAt == Some(pushedAt)
    ensures username in s.contributors ==>
      && t.contributors[username].totalCommits == SqlAdd(s.contributors[username].totalCommits, 1)
      && t.contributors[username].avatarUrl == s.contributors[username].avatarUrl
      && t.contributors[username].createdAt == s.contributors[username].createdAt
    ensures username !in s.contributors ==>
      t.contributors[username] == Contributor(username, avatarUrl, Some(1), Some(pushedAt), now, now)
    ensures forall k :: k in s.contributors && k != username ==> t.contributors[k] == s.contributors[k]
    ensures t.commits == s.commits && t.repos == s.repos && t.weekly == s.weekly
  {
    var row :=
      if username in s.contributors then
        var prev := s.contributors[username];
        prev.(totalCommits := SqlAdd(prev.totalCommits, 1), lastCommitAt := Some(pushedAt), updatedAt := now)
      else Contributor(username, avatarUrl, Some(1), Some(pushedAt), now, now);
    s.(contributors := s.contributors[username := row])
  }
}

=== FILE: seqs.dfy ===
/** Sequence helpers shared by the aggregation queries: duplicate-free
    first-occurrence lists (`Array.from(new Set(xs))`, `SELECT DISTINCT`),
    counting and summing. */
module Seqs {

  ghost predicate NoDup<T>(xs: seq<T>) {
    forall i, j :: 0 <= i < j < |xs| ==> xs[i] != xs[j]
  }

  function Min(a: int, b: int): int {
    if a <= b then a else b
  }

  function Max(a: int, b: int): int {
    if a >= b then a else b
  }

  /** Position of the first occurrence of `x` in `xs`. */
  function FirstIndex<T(==)>(xs: seq<T>, x: T): (i: nat)
    requires x in xs
    ensures i < |xs| && xs[i] == x
    ensures forall k :: 0 <= k < i ==> xs[k] != x
  {
    if xs[0] == x then 0 else 1 + FirstIndex(xs[1..], x)
  }

  /** The distinct elements of `xs` in first-occurrence order. */
  function Distinct<T(==)>(xs: seq<T>): (r: seq<T>)
    ensures forall i :: 0 <= i < |r| ==> r[i] in xs
    ensures forall i :: 0 <= i < |xs| ==> xs[i] in r
    ensures NoDup(r)
    ensures |r| <= |xs|
  {
    if xs == [] then []
    else
      var d := Distinct(xs[..|xs| - 1]);
      var x := xs[|xs| - 1];
      assert xs == xs[..|xs| - 1] + [x];
      if x in d then d else d + [x]
  }

  /** Distinct lists elements in the order of their first occurrence. */
  lemma {:induction false} DistinctFirstOccurrenceOrder<T>(xs: seq<T>, i: int, j: int)
    requires 0 <= i < j < |Distinct(xs)|
    ensures FirstIndex(xs, Distinct(xs)[i]) < FirstIndex(xs, Distinct(xs)[j])
  {
    var n := |xs| - 1;
    var pre := xs[..n];
    var d := Distinct(pre);
    var x := xs[n];
    var r := Distinct(xs);
    var a := r[i];
    var b := r[j];
    assert xs == pre + [x];
    assert i < |d| && a == d[i] && a in pre
      && (j < |d| ==> b == d[j])
      && (j >= |d| ==> b == x && x !in pre) by {
      assert r == if x in d then d else d + [x];
    }
    FirstIndexPrefix(pre, x, a);
    if j < |d| {
      DistinctFirstOccurrenceOrder(pre, i, j);
      FirstIndexPrefix(pre, x, b);
    } else {
      FirstIndexLast(pre, x);
    }
  }

  /** The same order, for two elements named by the caller. */
  lemma DistinctOrderAt<T>(xs: seq<T>, i: int, j: int, x: T, y: T)
    requires 0 <= i < j < |Distinct(xs)| && x == Distinct(xs)[i] && y == Distinct(xs)[j]
    ensures x in xs && y in xs && FirstIndex(xs, x) < FirstIndex(xs, y)
  {
    DistinctFirstOccurrenceOrder(xs, i, j);
  }

  lemma FirstIndexLast<T>(pre: seq<T>, x: T)
    requires x !in pre
    ensures FirstIndex(pre + [x], x) == |pre|
  {
    assert (pre + [x])[|pre|] == x;
  }

  lemma FirstIndexPrefix<T>(pre: seq<T>, x: T, y: T)
    requires y in pre
    ensures FirstIndex(pre + [x], y) == FirstIndex(pre, y)
  {
    var k := FirstIndex(pre, y);
    var k' := FirstIndex(pre + [x], y);
    assert (pre + [x])[k] == y;
  }

  /** Number of positions of `xs` satisfying `p`. */
  function CountWhere<T>(xs: seq<T>, p: T -> bool): (n: nat)
    ensures n <= |xs|
    ensures n == 0 <==> forall i :: 0 <= i < |xs| ==> !p(xs[i])
  {
    if xs == [] then 0
    else CountWhere(xs[..|xs| - 1], p) + (if p(xs[|xs| - 1]) then 1 else 0)
  }

  /** Two tests that agree on every element count the same. */
  lemma {:induction false} CountWhereSame<T>(xs: seq<T>, p: T -> bool, q: T -> bool)
    requires forall i :: 0 <= i < |xs| ==> p(xs[i]) == q(xs[i])
    ensures CountWhere(xs, p) == CountWhere(xs, q)
  {
    if xs != [] {
      CountWhereSame(xs[..|xs| - 1], p, q);
    }
  }

  /** Counting among the filtered elements counts where both tests hold. */
  lemma {:induction false} CountWhereFilter<T>(xs: seq<T>, p: T -> bool, q: T -> bool, both: T -> bool)
    requires forall i :: 0 <= i < |xs| ==> both(xs[i]) == (p(xs[i]) && q(xs[i]))
    ensures CountWhere(Filter(xs, p), q) == CountWhere(xs, both)
  {
    if xs != [] {
      var init := xs[..|xs| - 1];
      var x := xs[|xs| - 1];
      CountWhereFilter(init, p, q, both);
      var f := Filter(init, p);
      if p(x) {
        assert (f + [x])[..|f|] == f;
      }
    }
  }

  /** Counting with a test that is one of two exclusive tests adds up. */
  lemma {:induction false} CountWhereSplit<T>(xs: seq<T>, p: T -> bool, q: T -> bool, either: T -> bool)
    requires forall i :: 0 <= i < |xs| ==> either(xs[i]) == (p(xs[i]) || q(xs[i])) && !(p(xs[i]) && q(xs[i]))
    ensures CountWhere(xs, either) == CountWhere(xs, p) + CountWhere(xs, q)
  {
    if xs != [] {
      CountWhereSplit(xs[..|xs| - 1], p, q, either);
    }
  }

  /** Sum of `f` over `xs`. */
  function SumOf<T>(xs: seq<T>, f: T -> int): int
  {
    if xs == [] then 0 else SumOf(xs[..|xs| - 1], f) + f(xs[|xs| - 1])
  }

  function Sum(xs: seq<int>): int
  {
    if xs == [] then 0 else Sum(xs[..|xs| - 1]) + xs[|xs| - 1]
  }

  lemma {:induction false} SumNonNegative(xs: seq<int>)
    requires forall i :: 0 <= i < |xs| ==> xs[i] >= 0
    ensures Sum(xs) >= 0
  {
    if xs != [] {
      SumNonNegative(xs[..|xs| - 1]);
    }
  }

  lemma {:induction false} SumAppend(a: seq<int>, b: seq<int>)
    ensures Sum(a + b) == Sum(a) + Sum(b)
    decreases |b|
  {
    if b == [] {
      assert a + b == a;
    } else {
      assert (a + b)[..|a + b| - 1] == a + b[..|b| - 1];
      SumAppend(a, b[..|b| - 1]);
    }
  }

  lemma {:induction false} CountWhereAppend<T>(a: seq<T>, b: seq<T>, p: T -> bool)
    ensures CountWhere(a + b, p) == CountWhere(a, p) + CountWhere(b, p)
    decreases |b|
  {
    if b == [] {
      assert a + b == a;
    } else {
      assert (a + b)[..|a + b| - 1] == a + b[..|b| - 1];
      CountWhereAppend(a, b[..|b| - 1], p);
    }
  }

  /** `a` occurs in `b` in order, possibly with gaps. */
  ghost predicate IsSubsequence<T>(a: seq<T>, b: seq<T>)
    decreases |b|
  {
    if a == [] then true
    else if b == [] then false
    else if a[|a| - 1] == b[|b| - 1] then IsSubsequence(a[..|a| - 1], b[..|b| - 1])
    else IsSubsequence(a, b[..|b| - 1])
  }

  /** `xs.map(f)`. */
  function Map<A, B>(xs: seq<A>, f: A -> B): (r: seq<B>)
    ensures |r| == |xs| && forall i :: 0 <= i < |xs| ==> r[i] == f(xs[i])
  {
    seq(|xs|, i requires 0 <= i < |xs| => f(xs[i]))
  }

  /** `xs.filter(p)`: the elements satisfying `p`, in their original order. */
  function Filter<T>(xs: seq<T>, p: T -> bool): (r: seq<T>)
    ensures |r| == CountWhere(xs, p)
    ensures forall i :: 0 <= i < |r| ==> p(r[i]) && r[i] in xs
    ensures forall i :: 0 <= i < |xs| && p(xs[i]) ==> xs[i] in r
    ensures IsSubsequence(r, xs)
  {
    if xs == [] then []
    else
      var init := xs[..|xs| - 1];
      var x := xs[|xs| - 1];
      var f := Filter(init, p);
      assert forall i :: 0 <= i < |xs| - 1 ==> xs[i] == init[i];
      if p(x) then
        assert (f + [x])[..|f|] == f;
        f + [x]
      else f
  }

  /** Filtering twice keeps exactly what both predicates accept. */
  lemma {:induction false} FilterFilter<T>(xs: seq<T>, p: T -> bool, q: T -> bool)
    ensures Filter(Filter(xs, p), q) == Filter(xs, x => p(x) && q(x))
  {
    if xs != [] {
      var init := xs[..|xs| - 1];
      FilterFilter(init, p, q);
      var f := Filter(init, p);
      if p(xs[|xs| - 1]) {
        assert (f + [xs[|xs| - 1]])[..|f|] == f;
      }
    }
  }

  /** Filtering with a predicate that holds everywhere changes nothing. */
  lemma {:induction false} FilterAll<T>(xs: seq<T>, p: T -> bool)
    requires forall i :: 0 <= i < |xs| ==> p(xs[i])
    ensures Filter(xs, p) == xs
  {
    if xs != [] {
      FilterAll(xs[..|xs| - 1], p);
      assert xs[..|xs| - 1] + [xs[|xs| - 1]] == xs;
    }
  }

  lemma {:induction false} SumOfFilter<T>(xs: seq<T>, p: T -> bool, f: T -> int)
    ensures SumOf(Filter(xs, p), f) == SumOf(xs, x => if p(x) then f(x) else 0)
  {
    if xs != [] {
      var init := xs[..|xs| - 1];
      SumOfFilter(init, p, f);
      var fl := Filter(init, p);
      if p(xs[|xs| - 1]) {
        assert (fl + [xs[|xs| - 1]])[..|fl|] == fl;
      }
    }
  }

  /** A sequence without duplicates holds each value at most once. */
  lemma {:induction false} NoDupMultiplicity<T>(g: seq<T>, x: T)
    requires NoDup(g)
    ensures multiset(g)[x] <= 1
  {
    if g != [] {
      var init := g[..|g| - 1];
      assert g == init + [g[|g| - 1]];
      assert NoDup(init);
      NoDupMultiplicity(init, x);
      assert g[|g| - 1] !in init;
    }
  }

  /** Two positions holding the same value count twice in the multiset. */
  lemma TwoPositions<T>(r: seq<T>, i: nat, j: nat)
    requires i < j < |r|
    ensures multiset(r)[r[i]] >= (if r[i] == r[j] then 2 else 1)
  {
    assert r == r[..i] + [r[i]] + r[i + 1..j] + [r[j]] + r[j + 1..];
  }

  /** Any selection from a sequence without duplicates has none either. */
  lemma NoDupSubMultiset<T>(r: seq<T>, d: seq<T>)
    requires NoDup(d) && multiset(r) <= multiset(d)
    ensures NoDup(r)
  {
    forall i, j | 0 <= i < j < |r| ensures r[i] != r[j] {
      NoDupMultiplicity(d, r[i]);
      TwoPositions(r, i, j);
    }
  }

  /** Every element of a slice of a permutation of `xs` is in `xs`. */
  lemma SliceMembers<T>(s: seq<T>, xs: seq<T>, from: int, to: int)
    requires multiset(s) == multiset(xs) && 0 <= from <= to <= |s|
    ensures forall i :: 0 <= i < to - from ==> s[from..to][i] in xs
  {
    forall i | 0 <= i < to - from ensures s[from..to][i] in xs {
      assert s[from + i] in multiset(xs);
    }
  }

  /** A slice holds no more copies of anything than the whole sequence. */
  lemma SliceSubMultiset<T>(s: seq<T>, from: int, to: int)
    requires 0 <= from <= to <= |s|
    ensures multiset(s[from..to]) <= multiset(s)
  {
    assert s == s[..from] + s[from..to] + s[to..];
  }

  /** A subset is no larger than its superset. */
  lemma SubsetCardinality<T>(a: set<T>, b: set<T>)
    requires a <= b
    ensures |a| <= |b|
  {
    assert b == a + (b - a);
  }

  /** What is drawn from a filtered sequence passes the filter and comes from
      the original. */
  lemma FromFilter<T>(r: seq<T>, xs: seq<T>, p: T -> bool)
    requires forall i :: 0 <= i < |r| ==> r[i] in Filter(xs, p)
    ensures forall i :: 0 <= i < |r| ==> p(r[i]) && r[i] in xs
  {
    var f := Filter(xs, p);
    forall i | 0 <= i < |r| ensures p(r[i]) && r[i] in xs {
      var x := r[i];
      assert x in f;
      var j :| 0 <= j < |f| && f[j] == x;
    }
  }

  /** Removing position `k` removes one copy of `xs[k]` from the multiset. */
  lemma RemoveAt<T>(xs: seq<T>, k: int)
    requires 0 <= k < |xs|
    ensures xs == xs[..k] + [xs[k]] + xs[k + 1..]
    ensures multiset(xs[..k] + xs[k + 1..]) == multiset(xs) - multiset{xs[k]}
  {
    assert xs == xs[..k] + [xs[k]] + xs[k + 1..];
  }
}

=== FILE: sorting.dfy ===
/** Stable descending insertion sort on sequences, keyed by a pair compared
    lexicographically. It stands in for SQL `ORDER BY ... DESC`: the database
    leaves ties unordered, so the contracts state only sortedness and that the
    result is a permutation of the input. */
module Sorting {

  /** Lexicographic `a >= b` on (major, minor) keys. */
  predicate KeyGe(a: (int, int), b: (int, int)) {
    a.0 > b.0 || (a.0 == b.0 && a.1 >= b.1)
  }

  ghost predicate SortedDesc<T>(s: seq<T>, key: T -> (int, int)) {
    forall i, j :: 0 <= i < j < |s| ==> KeyGe(key(s[i]), key(s[j]))
  }

  function Insert<T>(x: T, s: seq<T>, key: T -> (int, int)): (r: seq<T>)
    requires SortedDesc(s, key)
    ensures SortedDesc(r, key)
    ensures multiset(r) == multiset(s) + multiset{x}
    ensures |r| == |s| + 1
  {
    if s == [] then [x]
    else if KeyGe(key(x), key(s[0])) then
      assert s == [s[0]] + s[1..];
      [x] + s
    else
      var rest := Insert(x, s[1..], key);
      HeadDominates(x, s, rest, key);
      SortedCons(s[0], rest, key);
      assert multiset([s[0]] + rest) == multiset(s) + multiset{x} by {
        assert s == [s[0]] + s[1..];
      }
      [s[0]] + rest
  }

  /** Inserting below the head of a sorted sequence keeps the head on top. */
  lemma HeadDominates<T>(x: T, s: seq<T>, rest: seq<T>, key: T -> (int, int))
    requires s != [] && SortedDesc(s, key) && !KeyGe(key(x), key(s[0]))
    requires multiset(rest) == multiset(s[1..]) + multiset{x}
    ensures forall k :: 0 <= k < |rest| ==> KeyGe(key(s[0]), key(rest[k]))
  {
    forall k | 0 <= k < |rest|
      ensures KeyGe(key(s[0]), key(rest[k]))
    {
      assert rest[k] in multiset(rest);
      if rest[k] != x {
        assert rest[k] in multiset(s[1..]);
        var m :| 0 <= m < |s[1..]| && s[1..][m] == rest[k];
        assert s[1 + m] == rest[k];
      }
    }
  }

  lemma SortedCons<T>(h: T, rest: seq<T>, key: T -> (int, int))
    requires SortedDesc(rest, key)
    requires forall k :: 0 <= k < |rest| ==> KeyGe(key(h), key(rest[k]))
    ensures SortedDesc([h] + rest, key)
  {
    var r := [h] + rest;
    forall i, j | 0 <= i < j < |r| ensures KeyGe(key(r[i]), key(r[j])) {
      assert r[j] == rest[j - 1];
      if i > 0 {
        assert r[i] == rest[i - 1];
      }
    }
  }

  /** The input reordered so that keys are nonincreasing. */
  function SortDesc<T>(xs: seq<T>, key: T -> (int, int)): (r: seq<T>)
    ensures SortedDesc(r, key)
    ensures multiset(r) == multiset(xs)
    ensures |r| == |xs|
  {
    if xs == [] then []
    else
      assert xs == [xs[0]] + xs[1..];
      Insert(xs[0], SortDesc(xs[1..], key), key)
  }

  /** The first `n` entries of the sorted input: every kept entry's key is at
      least the key of every entry left out. */
  function TopN<T>(xs: seq<T>, key: T -> (int, int), n: nat): (r: seq<T>)
    ensures |r| == if |xs| < n then |xs| else n
    ensures SortedDesc(r, key)
    ensures multiset(r) <= multiset(xs)
    ensures forall i :: 0 <= i < |r| ==> r[i] in xs
    ensures forall i, y :: 0 <= i < |r| && y in multiset(xs) - multiset(r) ==> KeyGe(key(r[i]), key(y))
  {
    var s := SortDesc(xs, key);
    var k := if |s| < n then |s| else n;
    PrefixDominates(s, key, k);
    SubMultisetMembers(s[..k], xs);
    s[..k]
  }

  lemma SubMultisetMembers<T>(a: seq<T>, b: seq<T>)
    requires multiset(a) <= multiset(b)
    ensures forall i :: 0 <= i < |a| ==> a[i] in b
  {
    forall i | 0 <= i < |a| ensures a[i] in b {
      assert a[i] in multiset(a);
    }
  }

  lemma PrefixDominates<T>(s: seq<T>, key: T -> (int, int), k: nat)
    requires SortedDesc(s, key) && k <= |s|
    ensures multiset(s[..k]) <= multiset(s)
    ensures forall i, y :: 0 <= i < k && y in multiset(s) - multiset(s[..k]) ==> KeyGe(key(s[i]), key(y))
  {
    assert s == s[..k] + s[k..];
    assert multiset(s) == multiset(s[..k]) + multiset(s[k..]);
    forall i, y | 0 <= i < k && y in multiset(s) - multiset(s[..k])
      ensures KeyGe(key(s[i]), key(y))
    {
      assert y in multiset(s[k..]);
      var m :| 0 <= m < |s[k..]| && s[k..][m] == y;
      assert s[k + m] == y;
    }
  }
}

=== FILE: stats.dfy ===
/** The stats route: today's commits, active repositories, the team's
    daily streak, all-time, weekly and monthly totals and the week's active
    contributors. "Today" is the server's (UTC) calendar day; the week and
    month are the last 7 and 30 days before `now`. */
module Stats {
  import opened Wrappers
  import opened Schema
  import opened Seqs
  import opened Windows
  import opened Calendar

  /** How many days back the streak query looks (`current_date - interval '90 days'`). */
  const STREAK_LOOKBACK_DAYS: int := 90

  datatype Totals = Totals(commits: nat, additions: int, deletions: int)

  datatype StatsResponse = StatsResponse(
    commitsToday: nat,
    activeRepos: nat,
    teamStreak: nat,
    totalCommits: nat,
    weekStats: Totals,
    monthStats: Totals,
    activeContributors: nat)

  /** Midnight of the server's calendar day, as `new Date(y, m, d)` on a UTC clock. */
  function TodayStartUtc(now: int): (r: int)
    ensures r % DAY_MS == 0 && r <= now < r + DAY_MS
  {
    DayOfBounds(now);
    DayOf(now) * DAY_MS
  }

  function WeekAgo(now: int): int { now - 7 * DAY_MS }
  function MonthAgo(now: int): int { now - 30 * DAY_MS }

  function TotalsOf(rows: seq<Commit>, w: Window): Totals {
    Totals(CommitCount(rows, w), Additions(rows, w), Deletions(rows, w))
  }

  /** The repositories pushed to in the last seven days; a NULL
      `last_push_at` never matches. */
  function RecentRepoNames(repos: seq<Repo>, now: int): set<string> {
    set r | r in repos && r.lastPushAt.Some? && r.lastPushAt.value >= WeekAgo(now) :: r.name
  }

  /** `count(distinct name)` over those repositories. */
  function ActiveRepos(repos: seq<Repo>, now: int): (n: nat)
    ensures n <= |repos|
    ensures n == 0 <==> forall i :: 0 <= i < |repos| ==>
      repos[i].lastPushAt.None? || repos[i].lastPushAt.value < WeekAgo(now)
  {
    RecentNamesBound(repos, now);
    RecentNamesEmpty(repos, now);
    |RecentRepoNames(repos, now)|
  }

  lemma RecentNamesEmpty(repos: seq<Repo>, now: int)
    ensures |RecentRepoNames(repos, now)| == 0 <==> forall i :: 0 <= i < |repos| ==>
      repos[i].lastPushAt.None? || repos[i].lastPushAt.value < WeekAgo(now)
  {
    if exists i :: 0 <= i < |repos| && repos[i].lastPushAt.Some? && repos[i].lastPushAt.value >= WeekAgo(now) {
      var i :| 0 <= i < |repos| && repos[i].lastPushAt.Some? && repos[i].lastPushAt.value >= WeekAgo(now);
      assert repos[i].name in RecentRepoNames(repos, now);
    }
  }

  lemma {:induction false} RecentNamesBound(repos: seq<Repo>, now: int)
    ensures |RecentRepoNames(repos, now)| <= |repos|
  {
    if repos != [] {
      var init := repos[..|repos| - 1];
      var last := repos[|repos| - 1];
      RecentNamesBound(init, now);
      assert repos == init + [last];
      assert RecentRepoNames(repos, now) <= RecentRepoNames(init, now) + {last.name};
      SubsetCardinality(RecentRepoNames(repos, now), RecentRepoNames(init, now) + {last.name});
    }
  }

  // ---- team streak ----

  /** The distinct days (`date(pushed_at)`) with a commit since midnight
      ninety days before today. */
  function CommitDays(rows: seq<Commit>, now: int): set<int> {
    set c | c in rows && c.pushedAt >= (DayOf(now) - STREAK_LOOKBACK_DAYS) * DAY_MS :: DayOf(c.pushedAt)
  }

  lemma CommitDaysFloor(rows: seq<Commit>, now: int, d: int)
    requires d in CommitDays(rows, now)
    ensures d >= DayOf(now) - STREAK_LOOKBACK_DAYS
  {
    var c :| c in rows && c.pushedAt >= (DayOf(now) - STREAK_LOOKBACK_DAYS) * DAY_MS && DayOf(c.pushedAt) == d;
    DayOfMonotone((DayOf(now) - STREAK_LOOKBACK_DAYS) * DAY_MS, c.pushedAt);
  }

  /** `n` consecutive days ending today each have a commit. */
  ghost predicate RunEndsToday(days: set<int>, today: int, n: nat) {
    forall d :: today - n < d <= today ==> d in days
  }

  /** The streak loop: walk back from today while the day has a commit. The
      result is the length of the longest run of commit days ending today,
      which the ninety-day lookback caps at 91. */
  method TeamStreak(rows: seq<Commit>, now: int) returns (streak: nat)
    ensures streak <= STREAK_LOOKBACK_DAYS + 1
    ensures RunEndsToday(CommitDays(rows, now), DayOf(now), streak)
    ensures DayOf(now) - streak !in CommitDays(rows, now)
  {
    var days := CommitDays(rows, now);
    var today := DayOf(now);
    streak := 0;
    var check := today;
    while check in days
      invariant check == today - streak
      invariant streak <= STREAK_LOOKBACK_DAYS + 1
      invariant RunEndsToday(days, today, streak)
      decreases check - (today - STREAK_LOOKBACK_DAYS)
    {
      CommitDaysFloor(rows, now, check);
      streak := streak + 1;
      check := check - 1;
    }
  }

  /** A run is only as long as its first missing day allows: the two
      postconditions of the streak loop pin the result down. */
  lemma StreakIsDetermined(days: set<int>, today: int, n: nat, m: nat)
    requires RunEndsToday(days, today, n) && today - n !in days
    requires RunEndsToday(days, today, m) && today - m !in days
    ensures n == m
  {
    assert !(n < m) || today - n in days;
    assert !(m < n) || today - m in days;
  }

  /** A streak needs a commit today. */
  lemma StreakNeedsToday(rows: seq<Commit>, now: int)
    requires DayOf(now) in CommitDays(rows, now)
    ensures CommitCount(rows, Since(TodayStartUtc(now))) > 0
  {
    var c :| c in rows && c.pushedAt >= (DayOf(now) - STREAK_LOOKBACK_DAYS) * DAY_MS && DayOf(c.pushedAt) == DayOf(now);
    DayOfBounds(c.pushedAt);
    var i :| 0 <= i < |rows| && rows[i] == c;
    assert c in Selected(rows, Since(TodayStartUtc(now)));
  }

  /** A commit today starts a streak, provided no commit is dated after today. */
  lemma {:induction false} TodayStartsStreak(rows: seq<Commit>, now: int)
    requires forall i :: 0 <= i < |rows| ==> rows[i].pushedAt < TodayStartUtc(now) + DAY_MS
    requires CommitCount(rows, Since(TodayStartUtc(now))) > 0
    ensures DayOf(now) in CommitDays(rows, now)
  {
    var c := Selected(rows, Since(TodayStartUtc(now)))[0];
    assert c in rows && c.pushedAt >= TodayStartUtc(now);
    assert c.pushedAt < TodayStartUtc(now) + DAY_MS by {
      var i :| 0 <= i < |rows| && rows[i] == c;
    }
    DayOfWithin(c.pushedAt, DayOf(now));
  }

  // ---- the response ----

  /** The route's response: `rows` is the commits table, `repos` the
      repositories table, `now` the request time. */
  method GetStats(rows: seq<Commit>, repos: seq<Repo>, now: int) returns (r: StatsResponse)
    ensures r.commitsToday == CommitCount(rows, Since(TodayStartUtc(now)))
    ensures r.activeRepos == ActiveRepos(repos, now)
    ensures r.totalCommits == |rows|
    ensures r.weekStats == TotalsOf(rows, Since(WeekAgo(now)))
    ensures r.monthStats == TotalsOf(rows, Since(MonthAgo(now)))
    ensures r.activeContributors == Contributors(rows, Since(WeekAgo(now)))
    ensures RunEndsToday(CommitDays(rows, now), DayOf(now), r.teamStreak)
    ensures DayOf(now) - r.teamStreak !in CommitDays(rows, now)
    ensures r.commitsToday <= r.weekStats.commits <= r.monthStats.commits <= r.totalCommits
    ensures r.activeContributors <= r.weekStats.commits
  {
    var today := CommitCount(rows, Since(TodayStartUtc(now)));
    var week := TotalsOf(rows, Since(WeekAgo(now)));
    var month := TotalsOf(rows, Since(MonthAgo(now)));
    var contributors := Contributors(rows, Since(WeekAgo(now)));
    var streak := TeamStreak(rows, now);
    r := StatsResponse(today, ActiveRepos(repos, now), streak, |rows|, week, month, contributors);
    assert r.commitsToday <= r.weekStats.commits <= r.monthStats.commits <= r.totalCommits by {
      NestedCounts(rows, now);
    }
    assert r.activeContributors <= r.weekStats.commits by {
      ContributorsAtMostCommits(rows, Since(WeekAgo(now)));
    }
  }

  /** Today lies inside the last week, which lies inside the last month,
      which lies inside all time: the counts nest. */
  lemma NestedCounts(rows: seq<Commit>, now: int)
    ensures CommitCount(rows, Since(TodayStartUtc(now))) <= CommitCount(rows, Since(WeekAgo(now)))
    ensures CommitCount(rows, Since(WeekAgo(now))) <= CommitCount(rows, Since(MonthAgo(now)))
    ensures CommitCount(rows, Since(MonthAgo(now))) <= |rows|
  {
    SplitWindow(rows, WeekAgo(now), TodayStartUtc(now));
    SplitWindow(rows, MonthAgo(now), WeekAgo(now));
  }
}

=== FILE: text.dfy ===
/** String operations the routes rely on, written over `seq<char>` with the
    JavaScript semantics the source uses: `includes`, `split`/`join` on one
    separator character, `trim`, `toLowerCase` on Basic Latin and Latin-1
    letters, integer `toString`, and `parseInt` with radix 10 and without
    one. */
module Text {
  import opened Wrappers

  // ---------------------------------------------------------------------------
  // Substring search (`String.prototype.includes`)

  predicate StartsWith(s: string, p: string) {
    |p| <= |s| && s[..|p|] == p
  }

  predicate Contains(s: string, p: string)
    decreases |s|
  {
    StartsWith(s, p) || (|s| > 0 && Contains(s[1..], p))
  }

  lemma {:induction false} ContainsExtendRight(x: string, b: string, p: string)
    requires Contains(x, p)
    ensures Contains(x + b, p)
    decreases |x|
  {
    if StartsWith(x, p) {
      assert (x + b)[..|p|] == x[..|p|];
    } else {
      assert (x + b)[1..] == x[1..] + b;
      ContainsExtendRight(x[1..], b, p);
    }
  }

  lemma {:induction false} ContainsExtendLeft(a: string, x: string, p: string)
    requires Contains(x, p)
    ensures Contains(a + x, p)
    decreases |a|
  {
    if a != [] {
      assert (a + x)[1..] == a[1..] + x;
      ContainsExtendLeft(a[1..], x, p);
    } else {
      assert a + x == x;
    }
  }

  /** An occurrence of `p` cannot straddle a character that `p` does not contain. */
  lemma {:induction false} ContainsAcross(a: string, c: char, b: string, p: string)
    requires |p| > 0 && c !in p
    requires Contains(a + [c] + b, p)
    ensures Contains(a, p) || Contains(b, p)
    decreases |a|
  {
    var s := a + [c] + b;
    assert |a| < |p| <= |s| ==> s[..|p|][|a|] == c;
    assert |a| < |p| ==> !StartsWith(s, p);
    if a == [] {
      assert s[1..] == b;
    } else if StartsWith(s, p) {
      assert a[..|p|] == s[..|p|];
    } else {
      assert s[1..] == a[1..] + [c] + b;
      ContainsAcross(a[1..], c, b, p);
      if Contains(a[1..], p) {
        assert a == [a[0]] + a[1..];
        ContainsExtendLeft([a[0]], a[1..], p);
      }
    }
  }

  // ---------------------------------------------------------------------------
  // `split(sep)` and `join(sep)` on a single-character separator

  function Join(lines: seq<string>, sep: char): string
  {
    if |lines| == 0 then ""
    else if |lines| == 1 then lines[0]
    else lines[0] + [sep] + Join(lines[1..], sep)
  }

  /** `s.split(sep)`: never empty, no piece contains the separator, and joining
      the pieces restores `s`. */
  function Split(s: string, sep: char): (r: seq<string>)
    ensures |r| >= 1
    ensures forall k :: 0 <= k < |r| ==> sep !in r[k]
    ensures Join(r, sep) == s
  {
    if s == [] then [""]
    else
      var rest := Split(s[1..], sep);
      assert s == [s[0]] + s[1..];
      if s[0] == sep then [""] + rest
      else [[s[0]] + rest[0]] + rest[1..]
  }

  lemma {:induction false} SplitNoSep(s: string, sep: char)
    requires sep !in s
    ensures Split(s, sep) == [s]
    decreases |s|
  {
    if s != [] {
      SplitNoSep(s[1..], sep);
      assert s == [s[0]] + s[1..];
    }
  }

  lemma {:induction false} SplitAtSep(a: string, sep: char, b: string)
    requires sep !in a
    ensures Split(a + [sep] + b, sep) == [a] + Split(b, sep)
    decreases |a|
  {
    var s := a + [sep] + b;
    if a == [] {
      assert s[1..] == b;
    } else {
      assert s[1..] == a[1..] + [sep] + b;
      SplitAtSep(a[1..], sep, b);
      assert a == [a[0]] + a[1..];
    }
  }

  /** Splitting a join of separator-free pieces gives the pieces back. */
  lemma {:induction false} SplitJoin(lines: seq<string>, sep: char)
    requires |lines| >= 1
    requires forall k :: 0 <= k < |lines| ==> sep !in lines[k]
    ensures Split(Join(lines, sep), sep) == lines
    decreases |lines|
  {
    if |lines| == 1 {
      SplitNoSep(lines[0], sep);
    } else {
      SplitJoin(lines[1..], sep);
      SplitAtSep(lines[0], sep, Join(lines[1..], sep));
      assert lines == [lines[0]] + lines[1..];
    }
  }

  lemma {:induction false} JoinAvoids(lines: seq<string>, sep: char, p: string)
    requires |p| > 0 && sep !in p
    requires forall k :: 0 <= k < |lines| ==> !Contains(lines[k], p)
    ensures !Contains(Join(lines, sep), p)
    decreases |lines|
  {
    if |lines| == 0 {
      assert !StartsWith("", p);
    } else if |lines| > 1 {
      JoinAvoids(lines[1..], sep, p);
      if Contains(Join(lines, sep), p) {
        ContainsAcross(lines[0], sep, Join(lines[1..], sep), p);
      }
    }
  }

  lemma {:induction false} JoinContainsLine(lines: seq<string>, sep: char, k: nat, p: string)
    requires k < |lines| && Contains(lines[k], p)
    ensures Contains(Join(lines, sep), p)
    decreases |lines|
  {
    if |lines| > 1 {
      if k == 0 {
        ContainsExtendRight(lines[0], [sep] + Join(lines[1..], sep), p);
        assert lines[0] + [sep] + Join(lines[1..], sep) == lines[0] + ([sep] + Join(lines[1..], sep));
      } else {
        JoinContainsLine(lines[1..], sep, k - 1, p);
        ContainsExtendLeft(lines[0] + [sep], Join(lines[1..], sep), p);
      }
    }
  }

  // ---------------------------------------------------------------------------
  // `trim()`: JavaScript's WhiteSpace and LineTerminator characters

  predicate IsJsSpace(c: char) {
    || c == ' ' || c == '\t' || c == '\n' || c == '\r'
    || c == '\U{000B}' || c == '\U{000C}' || c == '\U{00A0}' || c == '\U{FEFF}'
    || c == '\U{1680}' || ('\U{2000}' <= c <= '\U{200A}')
    || c == '\U{2028}' || c == '\U{2029}' || c == '\U{202F}' || c == '\U{205F}' || c == '\U{3000}'
  }

  function TrimStart(s: string): (r: string)
    ensures |r| <= |s| && r == s[|s| - |r|..]
    ensures r == [] || !IsJsSpace(r[0])
  {
    if |s| > 0 && IsJsSpace(s[0]) then TrimStart(s[1..]) else s
  }

  function TrimEnd(s: string): (r: string)
    ensures |r| <= |s| && r == s[..|r|]
    ensures r == [] || !IsJsSpace(r[|r| - 1])
  {
    if |s| > 0 && IsJsSpace(s[|s| - 1]) then TrimEnd(s[..|s| - 1]) else s
  }

  /** Both ends stripped of whitespace; what remains is a contiguous slice of
      `s` that neither starts nor ends with whitespace. */
  function Trim(s: string): (r: string)
    ensures r == [] || (!IsJsSpace(r[0]) && !IsJsSpace(r[|r| - 1]))
    ensures TrimLead(s) + |r| <= |s| && r == s[TrimLead(s)..TrimLead(s) + |r|]
  {
    var t := TrimStart(s);
    var r := TrimEnd(t);
    assert r == s[|s| - |t|..][..|r|] == s[|s| - |t|..|s| - |t| + |r|];
    assert r != [] ==> r[0] == t[0];
    r
  }

  /** Number of whitespace characters `trim` removes from the front. */
  function TrimLead(s: string): nat {
    |s| - |TrimStart(s)|
  }

  lemma TrimIdempotent(s: string)
    ensures Trim(Trim(s)) == Trim(s)
  {
    var r := Trim(s);
    assert TrimStart(r) == r;
    assert TrimEnd(r) == r;
  }

  lemma ContainsTrim(s: string, p: string)
    requires Contains(Trim(s), p)
    ensures Contains(s, p)
  {
    var r := Trim(s);
    var i := TrimLead(s);
    var j := i + |r|;
    ContainsExtendLeft(s[..i], r, p);
    ContainsExtendRight(s[..i] + r, s[j..], p);
    assert s[..i] + r + s[j..] == s;
  }

  // ---------------------------------------------------------------------------
  // `toLowerCase()` restricted to the Basic Latin and Latin-1 letters

  /** `A`..`Z` and the Latin-1 capitals `À`..`Þ` (except the sign `×`) map
      to the letter 32 code points above; every other character is kept. */
  function LowerChar(c: char): char {
    if 'A' <= c <= 'Z' || ('\U{00C0}' <= c <= '\U{00DE}' && c != '\U{00D7}') then (c as int + 32) as char else c
  }

  /** "AÑADIR" and "añadir" compare equal once lowered. */
  lemma LowerLatin1Example()
    ensures ToLower("A\U{00D1}ADIR") == ToLower("a\U{00F1}adir") == "a\U{00F1}adir"
  {
  }

  function ToLower(s: string): (r: string)
    ensures |r| == |s|
    ensures forall i :: 0 <= i < |s| ==> r[i] == LowerChar(s[i])
  {
    seq(|s|, i requires 0 <= i < |s| => LowerChar(s[i]))
  }

  // ---------------------------------------------------------------------------
  // Integer `toString()` and `parseInt(s, 10)`

  predicate IsDigit(c: char) {
    '0' <= c <= '9'
  }

  function DigitChar(d: nat): char
    requires d < 10
  {
    ('0' as int + d) as char
  }

  function NatDigits(n: nat): (r: string)
    ensures |r| >= 1
    ensures forall i :: 0 <= i < |r| ==> IsDigit(r[i])
  {
    if n < 10 then [DigitChar(n)] else NatDigits(n / 10) + [DigitChar(n % 10)]
  }

  /** The decimal rendering of `n`, with a leading `-` when negative. */
  function DecimalString(n: int): string
  {
    if n < 0 then "-" + NatDigits(-n) else NatDigits(n)
  }

  /** Value of a string of decimal digits. */
  function DigitsValue(ds: string): nat
    requires forall i :: 0 <= i < |ds| ==> IsDigit(ds[i])
  {
    if ds == [] then 0
    else
      assert IsDigit(ds[|ds| - 1]);
      DigitsValue(ds[..|ds| - 1]) * 10 + (ds[|ds| - 1] as int - '0' as int)
  }

  /** Length of the maximal run of decimal digits at the start of `s`. */
  function DigitRun(s: string): (k: nat)
    ensures k <= |s|
    ensures forall i :: 0 <= i < k ==> IsDigit(s[i])
    ensures k == |s| || !IsDigit(s[k])
  {
    if s == [] || !IsDigit(s[0]) then 0 else 1 + DigitRun(s[1..])
  }

  /** `parseInt(s, 10)`: leading whitespace is skipped, one optional sign is
      read, then the longest run of digits; `None` stands for `NaN`, which is
      what JavaScript returns when no digit follows. */
  function ParseInt(s: string): (r: Option<int>)
    ensures r.None? <==> DigitRun(SignStripped(TrimStart(s))) == 0
  {
    var t := TrimStart(s);
    var u := SignStripped(t);
    var k := DigitRun(u);
    if k == 0 then None
    else
      var v: int := DigitsValue(u[..k]);
      Some(if |t| > 0 && t[0] == '-' then -v else v)
  }

  function SignStripped(t: string): string {
    if |t| > 0 && (t[0] == '-' || t[0] == '+') then t[1..] else t
  }

  // ---------------------------------------------------------------------------
  // `parseInt(s)` with no radix: a `0x` or `0X` after the sign selects
  // hexadecimal, anything else is read as decimal

  predicate IsHexDigit(c: char) {
    IsDigit(c) || 'a' <= c <= 'f' || 'A' <= c <= 'F'
  }

  function HexDigitValue(c: char): (v: nat)
    requires IsHexDigit(c)
    ensures v < 16
  {
    if IsDigit(c) then c as int - '0' as int
    else if 'a' <= c <= 'f' then c as int - 'a' as int + 10
    else c as int - 'A' as int + 10
  }

  /** Value of a string of hexadecimal digits. */
  function HexValue(ds: string): nat
    requires forall i :: 0 <= i < |ds| ==> IsHexDigit(ds[i])
  {
    if ds == [] then 0 else HexValue(ds[..|ds| - 1]) * 16 + HexDigitValue(ds[|ds| - 1])
  }

  /** Length of the maximal run of hexadecimal digits at the start of `s`. */
  function HexRun(s: string): (k: nat)
    ensures k <= |s|
    ensures forall i :: 0 <= i < k ==> IsHexDigit(s[i])
    ensures k == |s| || !IsHexDigit(s[k])
  {
    if s == [] || !IsHexDigit(s[0]) then 0 else 1 + HexRun(s[1..])
  }

  predicate HasHexPrefix(u: string) {
    |u| >= 2 && u[0] == '0' && (u[1] == 'x' || u[1] == 'X')
  }

  /** `parseInt(s)`: after the whitespace and the sign, a `0x` prefix makes
      the longest run of hexadecimal digits behind it the number (`NaN` when
      there is none); without the prefix the string reads as `parseInt(s, 10)`. */
  function ParseIntAnyRadix(s: string): (r: Option<int>)
    ensures !HasHexPrefix(SignStripped(TrimStart(s))) ==> r == ParseInt(s)
    ensures HasHexPrefix(SignStripped(TrimStart(s))) ==>
      (r.None? <==> HexRun(SignStripped(TrimStart(s))[2..]) == 0)
  {
    var t := TrimStart(s);
    var u := SignStripped(t);
    if HasHexPrefix(u) then
      var h := u[2..];
      var k := HexRun(h);
      if k == 0 then None
      else
        var v: int := HexValue(h[..k]);
        Some(if t[0] == '-' then -v else v)
    else ParseInt(s)
  }

  /** Whatever `toString` writes reads back without a radix too: a decimal
      rendering never carries the `0x` prefix. */
  lemma ParseIntAnyRadixDecimal(n: int)
    ensures ParseIntAnyRadix(DecimalString(n)) == Some(n)
  {
    ParseIntDecimalString(n);
    var s := DecimalString(n);
    var m: nat := if n < 0 then -n else n;
    var ds := NatDigits(m);
    if n < 0 {
      assert s == ['-'] + ds && !IsJsSpace(s[0]);
      assert TrimStart(s) == s;
      assert SignStripped(s) == ds;
    } else {
      TrimStartDigits(ds);
      assert SignStripped(ds) == ds;
    }
    assert !HasHexPrefix(ds) by {
      if |ds| >= 2 { assert IsDigit(ds[1]); }
    }
  }

  /** Without a radix, "0x7EA" is 2026; with radix 10 it is 0. */
  lemma HexPrefixExample()
    ensures ParseIntAnyRadix("0x7EA") == Some(2026)
    ensures ParseInt("0x7EA") == Some(0)
  {
    var s := "0x7EA";
    assert TrimStart(s) == s && SignStripped(s) == s;
    assert s[2..] == "7EA";
    HexDigitsExample();
    assert ParseIntAnyRadix(s) == Some(HexValue("7EA"));
    DecimalStopsAtX();
  }

  lemma HexDigitsExample()
    ensures HexRun("7EA") == 3 && "7EA"[..3] == "7EA" && HexValue("7EA") == 2026
  {
    var h := "7EA";
    assert h[1..] == "EA" && h[1..][1..] == "A" && h[1..][1..][1..] == "";
    assert h[..2] == "7E" && h[..2][..1] == "7" && h[..2][..1][..0] == "";
    assert HexValue("7") == 7;
    assert HexValue("7E") == 7 * 16 + 14;
    assert HexValue(h) == (7 * 16 + 14) * 16 + 10;
  }

  lemma DecimalStopsAtX()
    ensures ParseInt("0x7EA") == Some(0)
  {
    var s := "0x7EA";
    assert TrimStart(s) == s && SignStripped(s) == s;
    assert s[1..] == "x7EA";
    assert DigitRun(s) == 1;
    assert s[..1] == "0" && s[..1][..0] == "";
  }

  lemma {:induction false} NatDigitsValue(n: nat)
    ensures DigitsValue(NatDigits(n)) == n
  {
    if n >= 10 {
      NatDigitsValue(n / 10);
      var ds := NatDigits(n);
      assert ds[..|ds| - 1] == NatDigits(n / 10);
    }
  }

  lemma TrimStartDigits(u: string)
    requires |u| >= 1 && IsDigit(u[0])
    ensures TrimStart(u) == u
  {
  }

  lemma {:induction false} ParseIntUnsigned(u: string, suffix: string)
    requires |u| >= 1 && forall i :: 0 <= i < |u| ==> IsDigit(u[i])
    requires suffix == [] || !IsDigit(suffix[0])
    ensures ParseInt(u + suffix) == Some(DigitsValue(u) as int)
  {
    var w := u + suffix;
    assert w[0] == u[0];
    TrimStartDigits(w);
    assert SignStripped(w) == w;
    DigitRunStops(u, suffix);
    assert w[..|u|] == u;
  }

  lemma {:induction false} ParseIntNegated(s: string, u: string, suffix: string, m: nat)
    requires |u| >= 1 && forall i :: 0 <= i < |u| ==> IsDigit(u[i])
    requires suffix == [] || !IsDigit(suffix[0])
    requires s == ['-'] + (u + suffix) && DigitsValue(u) == m
    ensures ParseInt(s) == Some(-(m as int))
  {
    assert s[0] == '-';
    assert s[1..] == u + suffix;
    assert !IsJsSpace(s[0]);
    var t := TrimStart(s);
    assert t == s;
    var w := SignStripped(t);
    assert w == u + suffix;
    DigitRunStops(u, suffix);
    assert w[..DigitRun(w)] == u;
  }

  /** `parseInt` reads back what `toString` writes, and stops at the first
      non-digit that follows. */
  lemma {:induction false} ParseIntDecimalWithSuffix(n: int, suffix: string)
    requires suffix == [] || !IsDigit(suffix[0])
    ensures ParseInt(DecimalString(n) + suffix) == Some(n)
  {
    if n < 0 {
      ParseIntNegativeDecimal(n, suffix);
    } else {
      NatDigitsValue(n);
      ParseIntUnsigned(NatDigits(n), suffix);
    }
  }

  lemma {:induction false} ParseIntNegativeDecimal(n: int, suffix: string)
    requires n < 0
    requires suffix == [] || !IsDigit(suffix[0])
    ensures ParseInt(DecimalString(n) + suffix) == Some(n)
  {
    var m: nat := -n;
    var ds := NatDigits(m);
    NatDigitsValue(m);
    var w := DecimalString(n) + suffix;
    assert DecimalString(n) == ['-'] + ds;
    assert w == ['-'] + (ds + suffix) by {
      assert (['-'] + ds) + suffix == ['-'] + (ds + suffix);
    }
    ParseIntNegated(w, ds, suffix, m);
  }

  lemma ParseIntDecimalString(n: int)
    ensures ParseInt(DecimalString(n)) == Some(n)
  {
    ParseIntDecimalWithSuffix(n, []);
    assert DecimalString(n) + [] == DecimalString(n);
  }

  lemma {:induction false} DigitRunStops(ds: string, suffix: string)
    requires forall i :: 0 <= i < |ds| ==> IsDigit(ds[i])
    requires suffix == [] || !IsDigit(suffix[0])
    ensures DigitRun(ds + suffix) == |ds|
    decreases |ds|
  {
    if ds != [] {
      assert (ds + suffix)[1..] == ds[1..] + suffix;
      DigitRunStops(ds[1..], suffix);
    } else {
      assert ds + suffix == suffix;
    }
  }
}

=== FILE: webhook.dfy ===
/** The GitHub push webhook: authenticate, filter, upsert the repository,
    then ingest each pushed commit (insert-or-ignore the commit row, upsert
    the author's contributor row). */
module Webhook {
  import opened Wrappers
  import opened Schema
  import opened GitHub
  import opened Statements

  const MAIN_REF := "refs/heads/main"

  /** One element of the payload's `commits` array. */
  datatype PushCommit = PushCommit(
    id: string,
    authorUsername: Option<string>,
    message: string,
    url: string,
    timestamp: int)

  /** The fields of a push payload the handler reads. */
  datatype PushPayload = PushPayload(
    ref: string,
    repoName: string,
    repoFullName: string,
    pusherName: string,
    pusherAvatarUrl: string,
    commits: seq<PushCommit>)

  /** The request: the signature header, the outcome of checking it against
      the body with the shared secret, the event header, and the body parsed
      as a push payload (`None` when it does not parse). */
  datatype PushRequest = PushRequest(
    signature: Option<string>,
    signatureValid: bool,
    event: Option<string>,
    payload: Option<PushPayload>)

  datatype Response = Response(status: int, body: string)

  predicate HasSignature(req: PushRequest) {
    req.signature.Some? && req.signature.value != ""
  }

  /** The requests that reach the database. */
  predicate Accepted(req: PushRequest) {
    && HasSignature(req)
    && req.signatureValid
    && req.event == Some("push")
    && req.payload.Some?
    && req.payload.value.ref == MAIN_REF
  }

  /** The author recorded for a pushed commit. */
  function AuthorOf(p: PushPayload, c: PushCommit): string {
    StringOr(c.authorUsername, p.pusherName)
  }

  /** The commit row built for one pushed commit; a failed enrichment call
      leaves zero counts and the pusher's avatar. */
  function CommitRow(p: PushPayload, c: PushCommit, getCommit: (string, string) -> Fetch, now: int): (r: Commit)
    ensures r.id == c.id && r.repoName == p.repoName && r.message == c.message
    ensures r.commitUrl == c.url && r.pushedAt == c.timestamp && r.createdAt == now
    ensures r.authorUsername != "" || p.pusherName == ""
    ensures r.additions.Some? && r.deletions.Some? && r.authorAvatarUrl.Some?
    ensures getCommit(p.repoName, c.id).FetchFailed? ==>
      r.additions == Some(0) && r.deletions == Some(0) && r.authorAvatarUrl == Some(p.pusherAvatarUrl)
  {
    var author := AuthorOf(p, c);
    match getCommit(p.repoName, c.id)
    case FetchFailed(_) =>
      Commit(c.id, p.repoName, author, Some(p.pusherAvatarUrl), c.message, Some(0), Some(0), c.url, c.timestamp, now)
    case Fetched(d) =>
      Commit(c.id, p.repoName, author, Some(StringOr(d.authorAvatarUrl, p.pusherAvatarUrl)), c.message,
             Some(CountOrZero(d.additions)), Some(CountOrZero(d.deletions)), c.url, c.timestamp, now)
  }

  /** The two statements run for one pushed commit. */
  function IngestCommit(s: Store, p: PushPayload, c: PushCommit, getCommit: (string, string) -> Fetch, now: int): Store {
    var row := CommitRow(p, c, getCommit, now);
    RecordContributorCommit(InsertCommitOrIgnore(s, row), row.authorUsername, row.authorAvatarUrl, row.pushedAt, now)
  }

  function Ids(cs: seq<PushCommit>): set<string> {
    set i | 0 <= i < |cs| :: cs[i].id
  }

  /** The loop over the payload's commits, in payload order. */
  function IngestCommits(s: Store, p: PushPayload, cs: seq<PushCommit>, getCommit: (string, string) -> Fetch, now: int): Store
    decreases |cs|
  {
    if cs == [] then s
    else IngestCommit(IngestCommits(s, p, cs[..|cs| - 1], getCommit, now), p, cs[|cs| - 1], getCommit, now)
  }

  /** The position of the first of `cs` with id `k`. */
  function FirstWithId(cs: seq<PushCommit>, k: string): (i: nat)
    requires k in Ids(cs)
    ensures i < |cs| && cs[i].id == k
    ensures forall j :: 0 <= j < i ==> cs[j].id != k
  {
    var init := cs[..|cs| - 1];
    assert forall i :: 0 <= i < |cs| - 1 ==> cs[i] == init[i];
    if k in Ids(init) then FirstWithId(init, k)
    else |cs| - 1
  }

  lemma IdsSnoc(cs: seq<PushCommit>)
    requires cs != []
    ensures Ids(cs) == Ids(cs[..|cs| - 1]) + {cs[|cs| - 1].id}
  {
    assert forall i :: 0 <= i < |cs| - 1 ==> cs[i] == cs[..|cs| - 1][i];
  }

  /** One ingested commit inserts its row unless the id is already stored
      and touches neither the repository nor the snapshot table. */
  lemma CommitStep(m: Store, p: PushPayload, c: PushCommit, getCommit: (string, string) -> Fetch, now: int)
    ensures var t := IngestCommit(m, p, c, getCommit, now);
      && t.commits.Keys == m.commits.Keys + {c.id}
      && (forall k :: k in m.commits ==> t.commits[k] == m.commits[k])
      && (c.id !in m.commits ==> t.commits[c.id] == CommitRow(p, c, getCommit, now))
      && t.repos == m.repos && t.weekly == m.weekly
  {
  }

  /** The commit table after the loop: every pushed id is stored and a
      stored commit is never overwritten. The repository and snapshot tables
      are not touched. */
  lemma {:induction false} IngestCommitKeys(s: Store, p: PushPayload, cs: seq<PushCommit>,
                                            getCommit: (string, string) -> Fetch, now: int)
    ensures var t := IngestCommits(s, p, cs, getCommit, now);
      && t.commits.Keys == s.commits.Keys + Ids(cs)
      && (forall k :: k in s.commits ==> t.commits[k] == s.commits[k])
      && t.repos == s.repos && t.weekly == s.weekly
  {
    if cs != [] {
      var init := cs[..|cs| - 1];
      var c := cs[|cs| - 1];
      var m := IngestCommits(s, p, init, getCommit, now);
      assert IngestCommits(s, p, cs, getCommit, now) == IngestCommit(m, p, c, getCommit, now);
      IngestCommitKeys(s, p, init, getCommit, now);
      CommitStep(m, p, c, getCommit, now);
      IdsSnoc(cs);
    }
  }

  /** A newly stored id holds the row built from the first pushed commit
      carrying it: a later duplicate in the same push is ignored. */
  lemma {:induction false} IngestNewCommitRows(s: Store, p: PushPayload, cs: seq<PushCommit>,
                                               getCommit: (string, string) -> Fetch, now: int, k: string)
    requires k in Ids(cs) && k !in s.commits
    ensures var t := IngestCommits(s, p, cs, getCommit, now);
      k in t.commits && t.commits[k] == CommitRow(p, cs[FirstWithId(cs, k)], getCommit, now)
  {
    var init := cs[..|cs| - 1];
    if k in Ids(init) {
      IngestNewCommitRows(s, p, init, getCommit, now, k);
      StoredCommitKept(s, p, cs, getCommit, now, k);
    } else {
      NewCommitLast(s, p, cs, getCommit, now, k);
    }
  }

  /** A row the earlier steps stored survives the last step. */
  lemma StoredCommitKept(s: Store, p: PushPayload, cs: seq<PushCommit>,
                         getCommit: (string, string) -> Fetch, now: int, k: string)
    requires cs != [] && k in Ids(cs[..|cs| - 1])
    requires var init := cs[..|cs| - 1];
      var m := IngestCommits(s, p, init, getCommit, now);
      k in m.commits && m.commits[k] == CommitRow(p, init[FirstWithId(init, k)], getCommit, now)
    ensures var t := IngestCommits(s, p, cs, getCommit, now);
      k in t.commits && t.commits[k] == CommitRow(p, cs[FirstWithId(cs, k)], getCommit, now)
  {
    var init := cs[..|cs| - 1];
    var c := cs[|cs| - 1];
    var m := IngestCommits(s, p, init, getCommit, now);
    assert IngestCommits(s, p, cs, getCommit, now) == IngestCommit(m, p, c, getCommit, now);
    CommitStep(m, p, c, getCommit, now);
    assert FirstWithId(cs, k) == FirstWithId(init, k);
  }

  /** An id first pushed by the last commit is stored from that commit. */
  lemma NewCommitLast(s: Store, p: PushPayload, cs: seq<PushCommit>,
                      getCommit: (string, string) -> Fetch, now: int, k: string)
    requires cs != [] && k in Ids(cs) && k !in Ids(cs[..|cs| - 1]) && k !in s.commits
    ensures var t := IngestCommits(s, p, cs, getCommit, now);
      k in t.commits && t.commits[k] == CommitRow(p, cs[FirstWithId(cs, k)], getCommit, now)
  {
    var init := cs[..|cs| - 1];
    var c := cs[|cs| - 1];
    var m := IngestCommits(s, p, init, getCommit, now);
    IngestCommitKeys(s, p, init, getCommit, now);
    assert IngestCommits(s, p, cs, getCommit, now) == IngestCommit(m, p, c, getCommit, now);
    CommitStep(m, p, c, getCommit, now);
    assert FirstWithId(cs, k) == |cs| - 1;
  }

  /** The whole handler: the response and the store after the request. */
  function Handle(s: Store, req: PushRequest, getCommit: (string, string) -> Fetch, now: int): (r: (Response, Store))
    ensures r.0.status == 401 <==> !HasSignature(req) || !req.signatureValid
    ensures r.0.status == 500 <==>
      HasSignature(req) && req.signatureValid && req.event == Some("push") && req.payload.None?
    ensures !Accepted(req) ==> r.1 == s
    ensures Accepted(req) ==> r.0 == Response(200, "Webhook processed successfully")
    ensures (HasSignature(req) && req.signatureValid
             && (req.event != Some("push") || (req.payload.Some? && req.payload.value.ref != MAIN_REF)))
      ==> r.0.status == 200 && r.0.body != "Webhook processed successfully" && r.1 == s
    ensures r.0.status == 200 <==> r.0.status != 401 && r.0.status != 500
  {
    if !HasSignature(req) then (Response(401, "Missing signature"), s)
    else if !req.signatureValid then (Response(401, "Invalid signature"), s)
    else if req.event != Some("push") then (Response(200, "Event ignored"), s)
    else if req.payload.None? then (Response(500, "Internal server error"), s)
    else if req.payload.value.ref != MAIN_REF then (Response(200, "Non-main branch, ignored"), s)
    else
      var p := req.payload.value;
      var s1 := UpsertRepoPush(s, p.repoName, p.repoFullName, now);
      (Response(200, "Webhook processed successfully"), IngestCommits(s1, p, p.commits, getCommit, now))
  }

  // ---- what the loop does to one contributor ----

  /** How many of `cs` are attributed to `u`. */
  function Authored(p: PushPayload, cs: seq<PushCommit>, u: string): nat {
    if cs == [] then 0
    else Authored(p, cs[..|cs| - 1], u) + (if AuthorOf(p, cs[|cs| - 1]) == u then 1 else 0)
  }

  /** The timestamp of the last of `cs` attributed to `u`, if any. */
  function LastBy(p: PushPayload, cs: seq<PushCommit>, u: string): (r: Option<int>)
    ensures r.Some? <==> Authored(p, cs, u) > 0
  {
    if cs == [] then None
    else if AuthorOf(p, cs[|cs| - 1]) == u then Some(cs[|cs| - 1].timestamp)
    else LastBy(p, cs[..|cs| - 1], u)
  }

  /** The position of the first of `cs` attributed to `u`. */
  function FirstBy(p: PushPayload, cs: seq<PushCommit>, u: string): (i: nat)
    requires Authored(p, cs, u) > 0
    ensures i < |cs| && AuthorOf(p, cs[i]) == u
    ensures forall j :: 0 <= j < i ==> AuthorOf(p, cs[j]) != u
  {
    var init := cs[..|cs| - 1];
    if Authored(p, init, u) > 0 then FirstBy(p, init, u)
    else
      NoneAuthored(p, init, u);
      |cs| - 1
  }

  lemma {:induction false} NoneAuthored(p: PushPayload, cs: seq<PushCommit>, u: string)
    requires Authored(p, cs, u) == 0
    ensures forall j :: 0 <= j < |cs| ==> AuthorOf(p, cs[j]) != u
  {
    if cs != [] {
      var init := cs[..|cs| - 1];
      NoneAuthored(p, init, u);
      assert forall j :: 0 <= j < |cs| - 1 ==> cs[j] == init[j];
    }
  }

  /** The effect of one ingested commit on contributor `u`'s row. */
  lemma IngestStep(m: Store, p: PushPayload, c: PushCommit, getCommit: (string, string) -> Fetch, now: int, u: string)
    ensures var t := IngestCommit(m, p, c, getCommit, now);
      && (AuthorOf(p, c) != u ==>
            (u in t.contributors <==> u in m.contributors)
            && (u in m.contributors ==> t.contributors[u] == m.contributors[u]))
      && (AuthorOf(p, c) == u ==>
            && u in t.contributors
            && t.contributors[u].lastCommitAt == Some(c.timestamp)
            && (u in m.contributors ==>
                  && t.contributors[u].totalCommits == SqlAdd(m.contributors[u].totalCommits, 1)
                  && t.contributors[u].avatarUrl == m.contributors[u].avatarUrl)
            && (u !in m.contributors ==>
                  && t.contributors[u].totalCommits == Some(1)
                  && t.contributors[u].avatarUrl == CommitRow(p, c, getCommit, now).authorAvatarUrl))
  {
    var row := CommitRow(p, c, getCommit, now);
    assert InsertCommitOrIgnore(m, row).contributors == m.contributors;
  }

  /** Rows of users with no commit in the push are untouched. */
  lemma {:induction false} IngestLeavesOthers(s: Store, p: PushPayload, cs: seq<PushCommit>,
                                              getCommit: (string, string) -> Fetch, now: int, u: string)
    requires Authored(p, cs, u) == 0
    ensures var t := IngestCommits(s, p, cs, getCommit, now);
      (u in t.contributors <==> u in s.contributors)
      && (u in s.contributors ==> t.contributors[u] == s.contributors[u])
  {
    if cs != [] {
      IngestLeavesOthers(s, p, cs[..|cs| - 1], getCommit, now, u);
      IngestStep(IngestCommits(s, p, cs[..|cs| - 1], getCommit, now), p, cs[|cs| - 1], getCommit, now, u);
    }
  }

  /** An author's last-commit time is the timestamp of their last commit in
      the push, whatever order the timestamps are in. */
  lemma {:induction false} IngestLastCommitAt(s: Store, p: PushPayload, cs: seq<PushCommit>,
                                              getCommit: (string, string) -> Fetch, now: int, u: string)
    requires Authored(p, cs, u) > 0
    ensures var t := IngestCommits(s, p, cs, getCommit, now);
      u in t.contributors && t.contributors[u].lastCommitAt == LastBy(p, cs, u)
  {
    var init := cs[..|cs| - 1];
    var m := IngestCommits(s, p, init, getCommit, now);
    IngestStep(m, p, cs[|cs| - 1], getCommit, now, u);
    if AuthorOf(p, cs[|cs| - 1]) != u {
      IngestLastCommitAt(s, p, init, getCommit, now, u);
    }
  }

  /** An existing contributor's counter rises by the number of their commits
      in the push (NULL stays NULL) and their avatar is kept. */
  lemma {:induction false} IngestExistingContributor(s: Store, p: PushPayload, cs: seq<PushCommit>,
                                                     getCommit: (string, string) -> Fetch, now: int, u: string)
    requires u in s.contributors
    ensures var t := IngestCommits(s, p, cs, getCommit, now);
      && u in t.contributors
      && t.contributors[u].totalCommits == SqlAdd(s.contributors[u].totalCommits, Authored(p, cs, u))
      && t.contributors[u].avatarUrl == s.contributors[u].avatarUrl
  {
    if cs != [] {
      IngestExistingContributor(s, p, cs[..|cs| - 1], getCommit, now, u);
      ExistingSnoc(s, p, cs, getCommit, now, u);
    }
  }

  /** The last loop step adds one to an existing row exactly when its commit
      is attributed to the row's user, and keeps the avatar. */
  lemma ExistingSnoc(s: Store, p: PushPayload, cs: seq<PushCommit>,
                     getCommit: (string, string) -> Fetch, now: int, u: string)
    requires cs != [] && u in s.contributors
    requires var m := IngestCommits(s, p, cs[..|cs| - 1], getCommit, now);
      && u in m.contributors
      && m.contributors[u].totalCommits == SqlAdd(s.contributors[u].totalCommits, Authored(p, cs[..|cs| - 1], u))
      && m.contributors[u].avatarUrl == s.contributors[u].avatarUrl
    ensures var t := IngestCommits(s, p, cs, getCommit, now);
      && u in t.contributors
      && t.contributors[u].totalCommits == SqlAdd(s.contributors[u].totalCommits, Authored(p, cs, u))
      && t.contributors[u].avatarUrl == s.contributors[u].avatarUrl
  {
    var init := cs[..|cs| - 1];
    var c := cs[|cs| - 1];
    var m := IngestCommits(s, p, init, getCommit, now);
    assert IngestCommits(s, p, cs, getCommit, now) == IngestCommit(m, p, c, getCommit, now);
    var b := if AuthorOf(p, c) == u then 1 else 0;
    IngestStep(m, p, c, getCommit, now, u);
    SqlAddTwice(s.contributors[u].totalCommits, Authored(p, init, u), b);
  }

  /** A new contributor's row counts their commits in the push and carries
      the avatar of the first of them. */
  lemma {:induction false} IngestNewContributor(s: Store, p: PushPayload, cs: seq<PushCommit>,
                                                getCommit: (string, string) -> Fetch, now: int, u: string)
    requires u !in s.contributors && Authored(p, cs, u) > 0
    ensures var t := IngestCommits(s, p, cs, getCommit, now);
      && u in t.contributors
      && t.contributors[u].totalCommits == Some(Authored(p, cs, u))
      && t.contributors[u].avatarUrl == CommitRow(p, cs[FirstBy(p, cs, u)], getCommit, now).authorAvatarUrl
  {
    var init := cs[..|cs| - 1];
    if Authored(p, init, u) > 0 {
      IngestNewContributor(s, p, init, getCommit, now, u);
      NewContributorLater(s, p, cs, getCommit, now, u);
    } else {
      IngestLeavesOthers(s, p, init, getCommit, now, u);
      NewContributorFirst(s, p, cs, getCommit, now, u);
    }
  }

  /** A later commit by a user the push already added raises the count and
      keeps the first commit's avatar. */
  lemma NewContributorLater(s: Store, p: PushPayload, cs: seq<PushCommit>,
                            getCommit: (string, string) -> Fetch, now: int, u: string)
    requires cs != [] && Authored(p, cs[..|cs| - 1], u) > 0
    requires var init := cs[..|cs| - 1];
      var m := IngestCommits(s, p, init, getCommit, now);
      && u in m.contributors
      && m.contributors[u].totalCommits == Some(Authored(p, init, u))
      && m.contributors[u].avatarUrl == CommitRow(p, init[FirstBy(p, init, u)], getCommit, now).authorAvatarUrl
    ensures Authored(p, cs, u) > 0
    ensures var t := IngestCommits(s, p, cs, getCommit, now);
      && u in t.contributors
      && t.contributors[u].totalCommits == Some(Authored(p, cs, u))
      && t.contributors[u].avatarUrl == CommitRow(p, cs[FirstBy(p, cs, u)], getCommit, now).authorAvatarUrl
  {
    var init := cs[..|cs| - 1];
    var c := cs[|cs| - 1];
    var m := IngestCommits(s, p, init, getCommit, now);
    assert IngestCommits(s, p, cs, getCommit, now) == IngestCommit(m, p, c, getCommit, now);
    IngestStep(m, p, c, getCommit, now, u);
    AuthoredLast(p, cs, u);
    assert cs[FirstBy(p, cs, u)] == init[FirstBy(p, init, u)];
  }

  /** The first commit by a user with no row creates it from that commit. */
  lemma NewContributorFirst(s: Store, p: PushPayload, cs: seq<PushCommit>,
                            getCommit: (string, string) -> Fetch, now: int, u: string)
    requires cs != [] && Authored(p, cs[..|cs| - 1], u) == 0 && Authored(p, cs, u) > 0
    requires u !in IngestCommits(s, p, cs[..|cs| - 1], getCommit, now).contributors
    ensures var t := IngestCommits(s, p, cs, getCommit, now);
      && u in t.contributors
      && t.contributors[u].totalCommits == Some(Authored(p, cs, u))
      && t.contributors[u].avatarUrl == CommitRow(p, cs[FirstBy(p, cs, u)], getCommit, now).authorAvatarUrl
  {
    var init := cs[..|cs| - 1];
    var c := cs[|cs| - 1];
    var m := IngestCommits(s, p, init, getCommit, now);
    assert IngestCommits(s, p, cs, getCommit, now) == IngestCommit(m, p, c, getCommit, now);
    IngestStep(m, p, c, getCommit, now, u);
    AuthoredLast(p, cs, u);
  }

  /** `Authored` and `FirstBy` over a sequence split before its last commit. */
  lemma AuthoredLast(p: PushPayload, cs: seq<PushCommit>, u: string)
    requires cs != []
    ensures var init := cs[..|cs| - 1];
      && Authored(p, cs, u) == Authored(p, init, u) + (if AuthorOf(p, cs[|cs| - 1]) == u then 1 else 0)
      && (Authored(p, init, u) > 0 ==> FirstBy(p, cs, u) == FirstBy(p, init, u))
      && (Authored(p, init, u) == 0 && AuthorOf(p, cs[|cs| - 1]) == u ==> FirstBy(p, cs, u) == |cs| - 1)
  {
  }

  // ---- the accepted request ----

  /** An accepted push marks the repository as pushed at the request time
      (keeping the rest of an existing row), stores every new commit id while
      leaving already-stored commits as they were, and applies the per-author
      contributor updates above. */
  lemma AcceptedPush(s: Store, req: PushRequest, getCommit: (string, string) -> Fetch, now: int, u: string)
    requires Accepted(req)
    ensures var p := req.payload.value;
      var t := Handle(s, req, getCommit, now).1;
      && p.repoName in t.repos
      && t.repos[p.repoName].lastPushAt == Some(now)
      && (p.repoName in s.repos ==>
            t.repos[p.repoName] == s.repos[p.repoName].(lastPushAt := Some(now), updatedAt := now))
      && t.repos.Keys == s.repos.Keys + {p.repoName}
      && (forall k :: k in s.repos && k != p.repoName ==> t.repos[k] == s.repos[k])
      && t.commits.Keys == s.commits.Keys + Ids(p.commits)
      && (forall k :: k in s.commits ==> t.commits[k] == s.commits[k])
      && (u in s.contributors ==>
            && u in t.contributors
            && t.contributors[u].totalCommits
               == SqlAdd(s.contributors[u].totalCommits, Authored(p, p.commits, u)))
      && t.weekly == s.weekly
  {
    var p := req.payload.value;
    var s1 := UpsertRepoPush(s, p.repoName, p.repoFullName, now);
    IngestCommitKeys(s1, p, p.commits, getCommit, now);
    if u in s.contributors {
      IngestExistingContributor(s1, p, p.commits, getCommit, now, u);
    }
  }

  /** A redelivered push (GitHub retries, or a replayed request) adds no
      commit row, yet raises every author's counter a second time: the
      counter is a count of ingestions, not of stored commits. */
  lemma RedeliveryRecountsAuthors(s: Store, req: PushRequest, getCommit: (string, string) -> Fetch,
                                  now1: int, now2: int, u: string)
    requires Accepted(req)
    ensures var p := req.payload.value;
      var t1 := Handle(s, req, getCommit, now1).1;
      var t2 := Handle(t1, req, getCommit, now2).1;
      && t2.commits == t1.commits
      && (u in t1.contributors ==>
            && u in t2.contributors
            && t2.contributors[u].totalCommits
            == SqlAdd(t1.contributors[u].totalCommits, Authored(p, p.commits, u)))
  {
    var p := req.payload.value;
    var t1 := Handle(s, req, getCommit, now1).1;
    var t2 := Handle(t1, req, getCommit, now2).1;
    assert Ids(p.commits) <= t1.commits.Keys by { PushCommitRows(s, req, getCommit, now1); }
    assert t2.commits == t1.commits by {
      PushCommitRows(t1, req, getCommit, now2);
      assert t2.commits.Keys == t1.commits.Keys;
    }
    if u in t1.contributors {
      AcceptedPush(t1, req, getCommit, now2, u);
    }
  }

  /** The commit rows after an accepted push: the old ones untouched, plus
      one under each pushed id. */
  lemma PushCommitRows(s: Store, req: PushRequest, getCommit: (string, string) -> Fetch, now: int)
    requires Accepted(req)
    ensures var t := Handle(s, req, getCommit, now).1;
      && t.commits.Keys == s.commits.Keys + Ids(req.payload.value.commits)
      && (forall k :: k in s.commits ==> t.commits[k] == s.commits[k])
  {
    var p := req.payload.value;
    IngestCommitKeys(UpsertRepoPush(s, p.repoName, p.repoFullName, now), p, p.commits, getCommit, now);
  }

  // ---- the tables stay keyed by their primary keys ----

  /** Every row the loop writes sits under its own primary key. */
  lemma {:induction false} IngestKeepsKeyed(s: Store, p: PushPayload, cs: seq<PushCommit>,
                                            getCommit: (string, string) -> Fetch, now: int)
    requires Keyed(s)
    ensures Keyed(IngestCommits(s, p, cs, getCommit, now))
  {
    if cs != [] {
      var init := cs[..|cs| - 1];
      var c := cs[|cs| - 1];
      var m := IngestCommits(s, p, init, getCommit, now);
      IngestKeepsKeyed(s, p, init, getCommit, now);
      var row := CommitRow(p, c, getCommit, now);
      var m1 := InsertCommitOrIgnore(m, row);
      assert Keyed(m1);
      var t := RecordContributorCommit(m1, row.authorUsername, row.authorAvatarUrl, row.pushedAt, now);
      assert t.contributors[row.authorUsername].username == row.authorUsername;
    }
  }

  /** The handler keeps the store keyed: the repository upsert writes under
      the pushed repository's name, the commit insert under the commit id,
      the contributor upsert under the author's username. */
  lemma HandleKeepsKeyed(s: Store, req: PushRequest, getCommit: (string, string) -> Fetch, now: int)
    requires Keyed(s)
    ensures Keyed(Handle(s, req, getCommit, now).1)
  {
    if Accepted(req) {
      var p := req.payload.value;
      var s1 := UpsertRepoPush(s, p.repoName, p.repoFullName, now);
      assert Keyed(s1);
      IngestKeepsKeyed(s1, p, p.commits, getCommit, now);
    }
  }
}

=== FILE: windows.dfy ===
/** Time-windowed aggregates over the `commits` table, as the routes' SQL
    computes them: `count(*)`, `coalesce(sum(col), 0)` and
    `count(distinct author_username)` over the rows whose `pushed_at` lies in
    a half-open window `[from, until)`. */
module Windows {
  import opened Wrappers
  import opened Schema
  import opened Seqs

  /** `pushed_at >= from`, and `pushed_at < until` when there is an upper bound. */
  datatype Window = Window(from: int, until: Option<int>)

  predicate InWindow(w: Window, t: int) {
    w.from <= t && (w.until.None? || t < w.until.value)
  }

  function Since(from: int): Window {
    Window(from, None)
  }

  function Between(from: int, until: int): Window {
    Window(from, Some(until))
  }

  /** The rows the window selects, in table order. */
  function Selected(rows: seq<Commit>, w: Window): (r: seq<Commit>)
    ensures |r| <= |rows|
    ensures forall i :: 0 <= i < |r| ==> r[i] in rows && InWindow(w, r[i].pushedAt)
    ensures forall i :: 0 <= i < |rows| && InWindow(w, rows[i].pushedAt) ==> rows[i] in r
  {
    Filter(rows, (c: Commit) => InWindow(w, c.pushedAt))
  }

  /** `count(*)` */
  function CommitCount(rows: seq<Commit>, w: Window): nat {
    |Selected(rows, w)|
  }

  /** `coalesce(sum(additions), 0)`: a NULL count adds nothing. */
  function Additions(rows: seq<Commit>, w: Window): int {
    SumOf(Selected(rows, w), (c: Commit) => c.additions.GetOr(0))
  }

  /** `coalesce(sum(deletions), 0)` */
  function Deletions(rows: seq<Commit>, w: Window): int {
    SumOf(Selected(rows, w), (c: Commit) => c.deletions.GetOr(0))
  }

  function AuthorSet(rows: seq<Commit>): set<string> {
    set c | c in rows :: c.authorUsername
  }

  /** `count(distinct author_username)` */
  function Contributors(rows: seq<Commit>, w: Window): nat {
    |AuthorSet(Selected(rows, w))|
  }

  /** `count(*)` of one repository's rows in the window. */
  function RepoCount(rows: seq<Commit>, name: string, w: Window): nat {
    CountWhere(rows, (c: Commit) => c.repoName == name && InWindow(w, c.pushedAt))
  }

  /** A window's four aggregates. */
  datatype WindowStats = WindowStats(commits: nat, additions: int, deletions: int, contributors: nat)

  function Stats(rows: seq<Commit>, w: Window): WindowStats {
    WindowStats(CommitCount(rows, w), Additions(rows, w), Deletions(rows, w), Contributors(rows, w))
  }

  // ---- partition of a window ----

  /** Splitting `[a, ∞)` at `b` splits every additive aggregate: the row
      count and both sums of `[a, ∞)` are those of `[a, b)` plus those of
      `[b, ∞)`, so adjacent windows neither overlap nor leave a gap. */
  lemma {:induction false} SplitWindow(rows: seq<Commit>, a: int, b: int)
    requires a <= b
    ensures CommitCount(rows, Since(a)) == CommitCount(rows, Between(a, b)) + CommitCount(rows, Since(b))
    ensures Additions(rows, Since(a)) == Additions(rows, Between(a, b)) + Additions(rows, Since(b))
    ensures Deletions(rows, Since(a)) == Deletions(rows, Between(a, b)) + Deletions(rows, Since(b))
  {
    if rows != [] {
      var init := rows[..|rows| - 1];
      SplitWindow(init, a, b);
      var x := rows[|rows| - 1];
      assert Selected(rows, Since(a)) == Selected(init, Since(a)) + (if InWindow(Since(a), x.pushedAt) then [x] else []);
      assert Selected(rows, Since(b)) == Selected(init, Since(b)) + (if InWindow(Since(b), x.pushedAt) then [x] else []);
      assert Selected(rows, Between(a, b)) == Selected(init, Between(a, b)) + (if InWindow(Between(a, b), x.pushedAt) then [x] else []);
    }
  }

  /** Every row lies in at most one of two adjacent windows. */
  lemma AdjacentWindowsDisjoint(a: int, b: int, t: int)
    requires a <= b
    ensures !(InWindow(Between(a, b), t) && InWindow(Since(b), t))
    ensures InWindow(Since(a), t) <==> InWindow(Between(a, b), t) || InWindow(Since(b), t)
  {
  }

  // ---- distinct authors ----

  lemma {:induction false} AuthorSetBound(rows: seq<Commit>)
    ensures |AuthorSet(rows)| <= |rows|
  {
    if rows != [] {
      var init := rows[..|rows| - 1];
      AuthorSetBound(init);
      assert AuthorSet(rows) == AuthorSet(init) + {rows[|rows| - 1].authorUsername} by {
        assert forall c :: c in rows <==> c in init || c == rows[|rows| - 1] by {
          assert rows == init + [rows[|rows| - 1]];
        }
      }
    }
  }

  /** A window never has more distinct contributors than commits, and has
      at least one contributor exactly when it has a commit. */
  lemma ContributorsAtMostCommits(rows: seq<Commit>, w: Window)
    ensures Contributors(rows, w) <= CommitCount(rows, w)
    ensures Contributors(rows, w) == 0 <==> CommitCount(rows, w) == 0
  {
    var sel := Selected(rows, w);
    AuthorSetBound(sel);
    if sel != [] {
      assert sel[0].authorUsername in AuthorSet(sel);
    }
  }
}

=== FILE: wrappers.dfy ===
/** The nullable-value wrapper used for SQL NULL columns, optional JSON fields
    and `Map.get` lookups throughout the model. */
module Wrappers {

  datatype Option<+T> = None | Some(value: T) {

    /** `x ?? default` */
    function GetOr(default: T): T {
      match this
      case Some(v) => v
      case None => default
    }
  }
}
